=== FILE: README.md ===
# Tower-run controller, modelled in Dafny

Two revisions of a script automate a tower run of a game played in the MuMu
Android emulator:

- `auto_tower.py` is the first revision.
- `auto_tower_test.py` is the later one: it adds hotkeys, reward claims and multi-match purchasing.

Each script works the same way. It screenshots the emulator window, finds
UI tokens by normalised template matching, and clicks the screen points it
derives from them. The flow is:

1. It clicks through the three entry buttons.
2. It bursts clicks near the window's left edge to skip idle turns.
3. On every detection capture it checks, in priority order:
   - the save button, which ends the run;
   - a shop notice, which starts the shop routine (at most four shops);
   - a dialog choice;
   - otherwise, nothing.

The model treats the emulator as a scripted world (module `Host`):

- A class `Emulator` holds the loaded templates and the finite list of screens successive captures return.
- Every capture advances a counter.
- Every click is appended to a trace.
- A click records the capture whose geometry positioned it.
- A screen is either the emulator window, with one correlation map per token, or "no emulator window".
- Running out of screens ends a routine with `InputsExhausted`. This keeps every loop finite without changing any branch the scripts take.

The modules:

- `Common`: tokens, geometry, frames, clicks, and the `Count`/`Bubbles` views of a trace.
- `Matching`: match_template. It takes the first maximum of the correlation map, applies an inclusive threshold, and returns the centre of the placement.
- `MultiMatch`: find_all_matches. It keeps every placement at or above the threshold, centres it, sorts the centres by row then column, and greedily thins them at Manhattan distance 20.
- `Host`: the emulator, load_template and capture_emulator.
- `Hotkeys`: the pause, skip and stop flags of the later revision, their handlers and check_pause_and_running. Hotkeys pressed between two reads of the flags arrive together as one batch, just before the second read.
- `AutoTower`: the controller of `auto_tower.py`.
- `AutoTowerTest`: the controller of `auto_tower_test.py`.

In both controllers, the routines that poll or change state are methods on the emulator. The flags, where present, are passed as a second object. Each routine up to the shop floor and its exit states the clicks and captures it makes, in terms of what the captures show. Where a loop is involved, it does so through a reference function of the screens (`PurchaseClicks`, `Refilled`, `Swept`, `FloorClicks` in the first revision; `Purchases`, `RefillClicks`, `Swept`, `AfterPurchase` in the later one), and lemmas state what those functions promise. The routines that assemble a whole shop visit or the whole run state the bubble order and the bounds on the refresh, tag and back clicks.

The model follows the code as written. In particular:

- Every match is bought. No candidate near a sold-out marker is dropped.
- The 100-point glyph is matched at 0.8, the same threshold as every other item.
- The purchase loops have no stuck-state guard. A pass that finds candidates but buys none rescans until a capture matches nothing.
- A missing back arrow does not pause the run. The back click is skipped, and the routine moves on to the third bubble.
- In the final shop, the back arrow is probed only after two refreshes. After fewer, the routine goes straight to the third bubble. `ShopCounts` records that no tag and no back click happen then.
- A purchase is followed by three blank clicks, not a burst of twenty.
- No confirm is probed after the final shop's last bubble, and none after the save click.
- The bubble heights are 70/80/90 % of the window height in the first revision and 40/60/80 % in the later one. The bubble column is 300 px in the first revision and 500 px in the later one.
- The later revision sweeps every tag icon after the second refresh.
- The first revision's handle_shop docstring says the final shop ends by clicking the second bubble until no choices appear. Its code clicks the third bubble once, like every other shop, and so does the model.

## Model

| member | source | states |
|---|---|---|
| Matching.PeakIndex | auto_tower.py:159-160 | the reported maximum location is an index of the correlation map |
| Matching.PeakIndexIsFirstMaximum | auto_tower.py:159-160 | the chosen score is at least every score of the map and strictly above every earlier one (first maximum in scan order) |
| Matching.Centre | auto_tower.py:163-166 | the centre x + t_w // 2, y + t_h // 2 lies inside the template's placement, strictly when the template is non-empty |
| Matching.MatchTemplate | auto_tower.py:151-167 | a point is returned only when both images exist and the map is non-empty |
| Matching.MatchTemplateSpec | auto_tower_test.py:111-122 | a point exactly when both images exist and some score reaches the threshold; the point is then the centre of the first best-scoring placement, whose score reaches the threshold |
| Matching.ThresholdInclusive | auto_tower.py:161 | a best score equal to the threshold matches; one below it does not |
| Matching.StricterThresholdOnlyDrops | auto_tower.py:161-167 | raising the threshold can only lose a match, never move it |
| Common.Visits | auto_tower.py:324-375 | n shops click 4n bubbles, four per shop |
| Common.VisitAssembled | auto_tower.py:324-375 | an approach ending on the first bubble with bubble order 1, 1, 0, then floor clicks only, then a third-bubble click, make one shop visit (`Visit`) |
| Common.PercentMonotone | auto_tower.py:282 | int(h * p) over non-negative heights is monotone in the fraction and never exceeds h |
| MultiMatch.Hits | auto_tower_test.py:219-224 | there are no more centres than placements |
| MultiMatch.HitsSpec | auto_tower_test.py:219-224 | every centre comes from a placement scoring at least the threshold, and every such placement's centre is listed |
| MultiMatch.HitsWhenReached | auto_tower_test.py:220-222 | the early `[]` return happens exactly when no score reaches the threshold |
| MultiMatch.Insert | auto_tower_test.py:225 | inserting adds exactly one element |
| MultiMatch.InsertSpec | auto_tower_test.py:225 | inserting into a (y, x)-sorted list keeps it sorted and adds exactly that point (multiset) |
| MultiMatch.SortRowMajor | auto_tower_test.py:225 | the sort keeps the length |
| MultiMatch.SortRowMajorSpec | auto_tower_test.py:225 | the sort yields a (y, x)-sorted permutation of the centres |
| MultiMatch.SortedIsUnique | auto_tower_test.py:225 | two sorted permutations of the same centres are equal, so the model's sort agrees with the list sort on the (y, x) key |
| MultiMatch.ThinIsSubsequence | auto_tower_test.py:226-235 | the filter keeps a subsequence of its input, in order |
| MultiMatch.ThinSeparated | auto_tower_test.py:226-235 | kept centres are pairwise at Manhattan distance at least 20 |
| MultiMatch.ThinPrefix | auto_tower_test.py:228-235 | what is kept from a prefix is never withdrawn later |
| MultiMatch.ThinCovers | auto_tower_test.py:228-235 | every dropped centre lies within distance 20 of a kept one |
| MultiMatch.ThinKeepsFirst | auto_tower_test.py:226-235 | the first centre is always kept, in first place |
| MultiMatch.ThinStep | auto_tower_test.py:228-235 | one round of the outer loop appends the centre exactly when it is far from all kept centres |
| MultiMatch.ThinnedHitsAreHits | auto_tower_test.py:224-236 | every returned centre is a centre of an above-threshold placement |
| MultiMatch.ThinnedHitsCover | auto_tower_test.py:224-236 | every above-threshold centre is within distance 20 of a returned one |
| MultiMatch.ThinnedHitsFirst | auto_tower_test.py:224-236 | with any hit, the first returned centre is the least in (y, x) order |
| MultiMatch.ThinnedHitsOrdered | auto_tower_test.py:224-236 | the result is separated, sorted by (y, x) and a subsequence of the sorted centres |
| MultiMatch.AllMatchesSpec | auto_tower_test.py:216-236 | [] exactly for a missing image or template or no score at the threshold; otherwise the above four properties together |
| MultiMatch.FindAllMatches | auto_tower_test.py:216-236 | the nested filtering loops compute exactly the specified matches |
| MultiMatch.AgreesWithBestMatch | auto_tower_test.py:216-236 | find_all_matches is empty exactly when match_template finds nothing |
| Host.Emulator.Template | auto_tower_test.py:75-85 | a template is available exactly when it was loaded |
| Host.Emulator.Capture | auto_tower.py:130-148 | a capture consumes one screen; a missing window is WindowNotFound; a found window returns that screen's frame |
| Host.Emulator.Press | auto_tower.py:192 | a click appends exactly one action to the trace, tied to the latest capture |
| Hotkeys.PressAll | auto_tower_test.py:44-62 | after a batch of hotkeys the run is stopped iff it was or Q was pressed, the skip is set iff it was or S was pressed, and the pause flipped once per P |
| Hotkeys.StopAndSkipAreSticky | auto_tower_test.py:53-62 | no hotkey restarts a stopped run or withdraws a skip request |
| Hotkeys.Flags.constructor | auto_tower_test.py:39-41 | the flags start unpaused, without skip, running |
| Hotkeys.Flags.TogglePause | auto_tower_test.py:44-50 | P flips the pause flag |
| Hotkeys.Flags.MarkSkipInitial | auto_tower_test.py:53-56 | S sets the skip flag |
| Hotkeys.Flags.StopRunning | auto_tower_test.py:59-62 | Q clears the running flag |
| Hotkeys.Flags.Deliver | auto_tower_test.py:44-62 | running the next batch's handlers in order yields PressAll of that batch |
| Hotkeys.Flags.CheckPauseAndRunning | auto_tower_test.py:65-72 | passes iff running and not paused afterwards; stops iff the run was stopped (before or while paused); a run stopped on entry always stops; the flags are the replay of the batches delivered |
| AutoTower.BubblePoint | auto_tower.py:277-283 | bubbles are clicked 300 px in from the window's left edge |
| AutoTower.BubblesStackDownward | auto_tower.py:282 | the three bubble heights lie inside the window, top to bottom |
| AutoTower.WaitAndClick | auto_tower.py:170-195 | a missing template raises before any capture; Ok(true) clicks the centre of the token in the first capture that shows it, and every earlier capture lacked it; Ok(false) is a timeout after exactly `polls` captures, none showing it, with nothing clicked |
| AutoTower.ClickRelative | auto_tower.py:198-209 | exactly one click at window corner plus offset |
| AutoTower.ContinuousFastClick | auto_tower.py:212-226 | one capture, then clicks at left + 10, top + height // 2 of that capture's window |
| AutoTower.SelectChoiceOrFirst | auto_tower.py:229-256 | one capture and exactly one click: the thumbs-up if shown, else the tag if shown, else (200, 350) from the window corner |
| AutoTower.ClickBubble | auto_tower.py:277-284 | one capture and one click on the bubble of that capture's window |
| AutoTower.BuyAndConfirm | auto_tower.py:293-305 | the buy branch of a pass: exactly the buy click where its capture showed the button, then one probe capture and the confirm click iff it shows (`PassClicks`, `PassEnd` of a capture with a buy button); every click is a purchase step |
| AutoTower.PurchaseRound | auto_tower.py:288-320 | on Ok the pass made exactly the clicks of `PassClicks` on its capture (buy, then confirm if the next capture shows it; else note; else hundred; else nothing) and consumed `PassEnd` captures; Ok(true) exactly when the capture offered one of the three |
| AutoTower.PurchaseItems | auto_tower.py:287-322 | every click is a purchase step: buy where shown, confirm on the capture right after a buy click, note only on a capture without buy, hundred only on a capture with neither; Ok ends on a capture offering none of the three, and the clicks and captures are exactly `PurchaseClicks` and `PurchaseEnd` from the first capture |
| AutoTower.PurchaseEnd | auto_tower.py:287-322 | the purchase loop from a capture always ends after that capture: it takes at least one |
| AutoTower.PassUnfolds | auto_tower.py:287-322 | one purchase pass that offers something is the head of the whole purchase loop from its capture: the loop's clicks are the pass's clicks followed by the loop's from where the pass ends, with the same end; a pass that offers nothing ends the loop on its own capture with no click |
| AutoTower.PressToken | auto_tower.py:339-342 | one click, on the token exactly where the latest capture located it (`TokenClick`), and nothing else |
| AutoTower.Restock | auto_tower.py:340-346 | the refresh click where the poll showed the button, then purchase_items from the next capture: exactly that click followed by `PurchaseClicks`, ending at `PurchaseEnd`; one refresh click more and only restocking clicks |
| AutoTower.RestockTally | auto_tower.py:338-346 | a refresh click where shown, followed by purchase steps, adds exactly one refresh click, and every click is a shop click within the refresh loop's targets |
| AutoTower.RefillShape | auto_tower.py:336-348 | at most n of n refresh rounds find the button; when fewer do, the last capture polled is after the first and lacked the button |
| AutoTower.RefreshOnce | auto_tower.py:338-348 | one poll capture; Ok(b) with b exactly when it shows the refresh button; Ok(false) clicks nothing and ends on that capture, which lacks it; Ok(true) is the first round of `Refilled` (the refresh click, then the purchase loop) and leaves the rest of `Refilled`, `Refills` and `RefillEnd` unchanged; only restocking clicks, one more refresh click iff b |
| AutoTower.RefreshCycles | auto_tower.py:336-348 | the clicks and captures are exactly those of two refresh rounds from the first poll (`Refilled`, `RefillEnd`); Ok(n) is `Refills`, at most two, and the refresh count grows by n; with n < 2 the last capture polled lacked the refresh button |
| AutoTower.SweepEnd | auto_tower.py:351-355 | the sweep ends at or after the capture it starts on |
| AutoTower.SweptLength | auto_tower.py:351-358 | the sweep keeps the trace before it and appends one click per capture from its first up to `SweepEnd` |
| AutoTower.SweptAt | auto_tower.py:351-358 | the n-th click of the sweep is on the tag of the n-th capture from its first, which showed the tag |
| AutoTower.SweepStops | auto_tower.py:351-355 | the sweep ends on the first capture lacking a tag: every capture before it shows one |
| AutoTower.SweepStep | auto_tower.py:352-358 | one capture; Ok(true) clicks the tag where shown and leaves the rest of the sweep (`Swept`, `SweepEnd`) unchanged; Ok(false) means the capture lacked a tag, and the clicks and captures are then exactly the sweep's |
| AutoTower.SweepTags | auto_tower.py:350-358 | only tags are clicked, each where located, one per capture on consecutive captures from the first; on Ok the clicks are exactly `Swept` and the last capture is `SweepEnd`, which lacks a tag |
| AutoTower.ProbeBack | auto_tower.py:360-365 | one capture, and a click on the back arrow iff it is shown (`Backed`) |
| AutoTower.BackProbeGrowth | auto_tower.py:360-365 | the back probe adds exactly one back click when its capture shows the arrow and none otherwise; no other count and no bubble moves |
| AutoTower.SweptOutShape | auto_tower.py:350-365 | after two refreshes: tag clicks on the consecutive captures from the first, each showing the tag, up to a capture lacking it; then the back click exactly when the capture after that shows the arrow; nothing else |
| AutoTower.SweepAndExit | auto_tower.py:350-365 | exactly `SweptOut`: the tag sweep, then the back probe on the capture after the one lacking a tag; a back click iff that capture shows the arrow; only tag and back clicks |
| AutoTower.FinalFloor | auto_tower.py:334-365 | at most two refreshes and one back click, with fewer than two refreshes no tag and no back click; on Ok the clicks and captures are exactly `FinalClicks` and `FinalEnd`: the refresh rounds and, only after two, the sweep and the back probe |
| AutoTower.FloorExit | auto_tower.py:334-373 | after the first purchase loop: the rest of the final shop, or one capture with a back click iff it shows the arrow; exactly `AfterPurchase` and `AfterPurchaseEnd` |
| AutoTower.ShopFloor | auto_tower.py:333-373 | every click is a shop click within the floor's targets; refresh only in the final shop, at most twice; at most one back click; outside the final shop no tag and a back click iff the capture after the purchases showed the back arrow; on Ok exactly `FloorClicks` and `FloorEnd` |
| AutoTower.LeaveShop | auto_tower.py:333-375 | the floor's clicks (exactly `FloorClicks`), then exactly one more click, on the third bubble of the capture after the floor's last; the bubble order grows by [2]; the floor counts are as in ShopFloor |
| AutoTower.ShopTally | auto_tower.py:324-375 | approach clicks on the first two bubbles followed by shop clicks keep the shop counts of the floor and make every click a shop click |
| AutoTower.ApproachShop | auto_tower.py:324-327 | only the first and second bubbles are clicked, in the order second, second, first, the last click being the first bubble |
| AutoTower.ApproachTally | auto_tower.py:324-327 | the second bubble twice then the first add [1, 1, 0] to the bubble clicks, every new click is one of those two bubbles, and the last is the first bubble |
| AutoTower.HandleShop | auto_tower.py:259-375 | every click is a shop click; the visit is the approach (bubbles 1, 1, 0, ending on the first bubble), then floor clicks only, then the third bubble last; the refresh, tag and back counts are bounded as in ShopFloor |
| AutoTower.ShopTurn | auto_tower.py:406-411 | a shop turn adds bubble order 1, 1, 0, 2 and refreshes at most twice, only in the fourth shop (shop_counter == max_shops - 1) |
| AutoTower.DialogTurn | auto_tower.py:417-419 | a choice turn makes exactly one dialog click and moves neither the bubbles nor the refresh count |
| AutoTower.DispatchIsAFunction | auto_tower.py:394-419 | every detection capture selects exactly one of save, shop, choice or idle |
| AutoTower.Respond | auto_tower.py:394-421 | the branch taken is the dispatched one; save clicks only the save button, choice one dialog click, idle nothing; only a shop moves the bubbles or the refresh count |
| AutoTower.Iteration | auto_tower.py:390-421 | a pass is the burst click, then the dispatched branch on the next capture; refresh only in the shop entered with three shops behind |
| AutoTower.EnterRun | auto_tower.py:381-386 | a missing quick-start template stops the run with no click; success needs all three templates; at most three clicks, each on an entry button where a capture showed it |
| AutoTower.RunPasses | auto_tower.py:388-421 | a finished run entered at most four shops, each with bubble order 1, 1, 0, 2, clicked refresh at most twice and ended on the save button as located |
| AutoTower.CountedIteration | auto_tower.py:390-411 | one pass keeps the loop's invariant: bubble order four per shop entered, refresh clicks only once the fourth shop has been entered; a shop only while fewer than four were entered; a save pass ends on the save button |
| AutoTower.PassCounted | auto_tower.py:390-411 | one pass's bubbles and refresh clicks carry the loop's invariant to the next shop count |
| AutoTower.MainLoop | auto_tower.py:378-422 | the whole run: the entry buttons, at most four shops, at most two refreshes, the last click on the save button |
| AutoTowerTest.BubblePoint | auto_tower_test.py:240-244 | bubbles are clicked 500 px in from the window's left edge |
| AutoTowerTest.BubblesStackDownward | auto_tower_test.py:243 | the three bubble heights lie inside the window, top to bottom |
| AutoTowerTest.FallbackPoint | auto_tower_test.py:203-207 | the blind click lies inside the window |
| AutoTowerTest.CheckPoint | auto_tower_test.py:65-72 | a stop already requested ends the run; a pass leaves it running and unpaused; the skip request is never withdrawn |
| AutoTowerTest.Capture | auto_tower_test.py:96-108 | the check point precedes the capture: a stopped run captures nothing |
| AutoTowerTest.ClickBlank | auto_tower_test.py:209-214 | after the check point, one click at left + 10, top + height // 2 |
| AutoTowerTest.ClickRelative | auto_tower_test.py:149-154 | after the check point, one click at window corner plus offset |
| AutoTowerTest.WaitAndClick | auto_tower_test.py:125-146 | a missing template raises before any capture; a stopped run clicks nothing; a skip request on an entry button returns False with no capture; Ok(true) clicks the token in the first capture showing it, earlier captures lacking it; a timeout on any other button is exactly `polls` captures lacking it, with nothing clicked |
| AutoTowerTest.ContinuousFastClick | auto_tower_test.py:157-166 | one capture, then clicks at left + 10, top + height // 2 of that window |
| AutoTowerTest.ConfirmSelection | auto_tower_test.py:182-194 | Ok(true): within 15 captures the select-confirm button is clicked where located on the first capture showing it, earlier ones lacking it; Ok(false): exactly 15 captures, none showing it, nothing clicked |
| AutoTowerTest.SelectChoiceOrFirst | auto_tower_test.py:169-207 | select (threshold 0.7) then at most its confirm; else the thumbs-up; else the blind click at a fifth of the width, half the height |
| AutoTowerTest.TakeThumbReward | auto_tower_test.py:320-347 | nothing unless both templates load; otherwise (`ThumbClaim`) either 30 captures all lacking the select icon and no click, or the select icon clicked on the first capture showing it, then either 15 captures lacking its confirm button, or the confirm button clicked on the first capture showing it and a blank click with that capture's geometry |
| AutoTowerTest.CheckoutClicks | auto_tower_test.py:274-283 | a checkout is the optional confirm plus three blank clicks |
| AutoTowerTest.Checkout | auto_tower_test.py:274-283 | one probe capture, the confirm button iff shown, then three blank clicks in that capture's window |
| AutoTowerTest.PickItem | auto_tower_test.py:263-272 | the item is clicked at its matched position in a fresh capture's window, then the buy button iff the next capture shows it |
| AutoTowerTest.NothingBought | auto_tower_test.py:268-270 | an item click with no buy button on the next capture is a whole purchase, which ends after that capture |
| AutoTowerTest.PurchaseAssembled | auto_tower_test.py:262-317 | item, buy, checkout and (for hundreds) a reward claim polling from the capture after the checkout make a whole purchase, ending where the claim ends |
| AutoTowerTest.BuyOne | auto_tower_test.py:262-317 | buying one matched item makes exactly one purchase (`ItemPurchase`) that starts on the first capture taken and ends on the last, within the item's targets |
| AutoTowerTest.ScanFor | auto_tower_test.py:257-261 | one check point and capture, returning exactly the multi-matches of the item in it |
| AutoTowerTest.BuyEach | auto_tower_test.py:262-284 | one whole purchase per matched position, in the order of the positions and back to back: the first starts on the first capture taken, each next one on the capture after the one before, the last ends on the last capture; the clicks are exactly those purchases end to end |
| AutoTowerTest.BuyNext | auto_tower_test.py:262-284 | buying at the next matched position, from the capture where the earlier purchases end, extends them by one whole purchase and their clicks by its clicks |
| AutoTowerTest.BuyStep | auto_tower_test.py:262-284 | a whole purchase appended after the earlier ones, starting where they end, extends them and their clicks |
| AutoTowerTest.PurchasesSnoc | auto_tower_test.py:262-284 | a purchase of the next matched position, starting where the last one ended, extends the purchases made so far |
| AutoTowerTest.ConcatSnoc | auto_tower_test.py:262-284 | the clicks of one more purchase are appended after those already made |
| AutoTowerTest.BuyRound | auto_tower_test.py:256-285 | one round: a capture with no match leaves the trace as it was and ends the pass (`Cleared`); otherwise the returned round is scanned on the first capture, its positions are exactly find_all_matches of that capture, each is bought back to back from the next capture, it ends on the last capture taken, and the clicks are its purchases |
| AutoTowerTest.RoundsSnoc | auto_tower_test.py:256-285 | a finished round scanned on the capture where the earlier rounds end extends them, and the rounds now end where it ends |
| AutoTowerTest.RoundClicksSnoc | auto_tower_test.py:256-285 | the clicks of one more round are appended after those of the earlier rounds |
| AutoTowerTest.BuyAll | auto_tower_test.py:256-285 | the pass is a sequence of rounds, the first scanned on the first capture and each next one on the capture after the one before, each buying every position find_all_matches reported on its capture; the capture right after the last round has no match and is the last one taken; the clicks are exactly those rounds' purchases, within the item's targets |
| AutoTowerTest.PurchaseItems | auto_tower_test.py:247-318 | nothing when neither template loads; otherwise (`Purchased`) the note pass (no reward claims) starts on the first capture and its rounds run back to back up to a capture with no note match; the hundred pass starts on the very next capture and runs the same way up to the last capture, which has no hundred match; the clicks are exactly the note rounds' purchases followed by the hundred rounds' (`Bought`), which alone claim rewards |
| AutoTowerTest.PassesWithin | auto_tower_test.py:255-318 | note-pass clicks followed by hundred-pass clicks are all purchase clicks, the note part without reward claims |
| AutoTowerTest.ClickBubble | auto_tower_test.py:240-245 | one capture and one click on the bubble of that capture's window |
| AutoTowerTest.BubbleAndReward | auto_tower_test.py:349-350 | a click on the second bubble, then a reward claim of no click, the select alone, or select, confirm and blank (`BubbleThenClaim`); the bubble order grows by [1] |
| AutoTowerTest.StepAssembled | auto_tower_test.py:349-350 | a second-bubble click followed by a reward claim makes one approach step |
| AutoTowerTest.ApproachShop | auto_tower_test.py:349-353 | two approach steps (second bubble, reward claim) then the first bubble, which is the last click (`Approach`); the bubble order grows by 1, 1, 0; only bubbles and reward-claim clicks |
| AutoTowerTest.ApproachAssembled | auto_tower_test.py:349-353 | two approach steps and a first-bubble click make the approach |
| AutoTowerTest.ApproachBubbles | auto_tower_test.py:349-353 | bubble orders growing by 1, 1 and 0 in turn grow by 1, 1, 0 together |
| AutoTowerTest.RefillsSnoc | auto_tower_test.py:360-371 | a finished refresh round polled where the earlier rounds end extends them, and its clicks follow theirs |
| AutoTowerTest.RefreshOnce | auto_tower_test.py:360-371 | the check point and one poll capture; Ok(false): no click, and that capture lacks the refresh button; Ok(true): one more round (`RefillsDone`): the refresh click where that capture showed the button, then purchase_items from the next capture, with exactly those clicks (`RefillClicks`) and captures; only restocking clicks, one more refresh click iff Ok(true) |
| AutoTowerTest.RestockTally | auto_tower_test.py:364-369 | a refresh click followed by purchase clicks adds exactly one refresh click and only restocking clicks |
| AutoTowerTest.RefreshCycles | auto_tower_test.py:358-371 | Ok(n): n ≤ 2 refresh rounds, done back to back from the first poll (`RefillsDone`), with exactly their clicks (`RefillClicks`) and n refresh clicks more; with n < 2 the loop ends on the capture after the last round, which lacked the refresh button |
| AutoTowerTest.SweepEnd | auto_tower_test.py:373-378 | the sweep ends at or after the capture it starts on |
| AutoTowerTest.SweptLength | auto_tower_test.py:373-381 | the sweep keeps the trace before it and appends one click per capture from its first up to `SweepEnd` |
| AutoTowerTest.SweptAt | auto_tower_test.py:373-381 | the n-th click of the sweep is on the tag of the n-th capture from its first, which showed the tag |
| AutoTowerTest.SweepStops | auto_tower_test.py:373-378 | the sweep ends on the first capture lacking a tag: every capture before it shows one |
| AutoTowerTest.SweepStep | auto_tower_test.py:374-381 | the check point and one capture; Ok(true) clicks the tag where shown and leaves the rest of the sweep unchanged; Ok(false) means the capture lacked a tag, and the clicks and captures are then exactly the sweep's |
| AutoTowerTest.SweepTags | auto_tower_test.py:372-381 | only tags are clicked, each where located, one per capture on consecutive captures from the first; on Ok the clicks are exactly `Swept` and the last capture is `SweepEnd`, which lacks a tag |
| AutoTowerTest.ProbeBack | auto_tower_test.py:382-387 | one capture, and a click on the back arrow iff it is shown (`Backed`) |
| AutoTowerTest.BackProbeGrowth | auto_tower_test.py:382-387 | the back probe adds exactly one back click when its capture shows the arrow and none otherwise; the refresh and tag counts do not move |
| AutoTowerTest.SweptOutShape | auto_tower_test.py:372-387 | after two refreshes: tag clicks on the consecutive captures from the first, each showing the tag, up to a capture lacking it; then the back click exactly when the capture after that shows the arrow; nothing else |
| AutoTowerTest.SweepAndExit | auto_tower_test.py:372-387 | exactly `SweptOut`: the tag sweep, then the back probe on the capture after the one lacking a tag; a back click iff that capture shows the arrow; only tag and back clicks |
| AutoTowerTest.FinalFloor | auto_tower_test.py:358-387 | at most two refreshes and one back click, with fewer than two refreshes no tag and no back click; on Ok the refresh rounds are done back to back (`FinalDone`, fewer than two only when the next poll lacked the button) and the clicks and captures are exactly `FinalClicks` and `FinalEnd`: those rounds and, only after two, the sweep and the back probe |
| AutoTowerTest.CloseFloor | auto_tower_test.py:358-394 | after the purchases: the final shop's rest (`FinalDone`), or one capture with a back click iff it shows the arrow; exactly `AfterPurchase` and `AfterPurchaseEnd` |
| AutoTowerTest.ShopFloor | auto_tower_test.py:357-394 | floor clicks only; refresh only in the final shop, at most twice; at most one back click; on Ok the purchases are `Purchased` from the first capture, outside the final shop there is no tag and a back click iff the capture after the purchases showed the arrow, and the clicks and captures are exactly the purchases' (`Bought`) followed by `AfterPurchase` |
| AutoTowerTest.FloorTally | auto_tower_test.py:357-394 | purchase clicks followed by the closing clicks keep the closing part's counts and its back-click condition |
| AutoTowerTest.ShopTally | auto_tower_test.py:349-395 | approach clicks followed by floor clicks and the third-bubble click keep the floor's counts and add bubble order 1, 1, 0, 2 |
| AutoTowerTest.LeaveShop | auto_tower_test.py:357-395 | the floor as in ShopFloor (`Purchased`, `FinalDone`, exactly `AfterPurchase`), then on Ok exactly one more click, on the third bubble of the capture after the floor's last |
| AutoTowerTest.HandleShop | auto_tower_test.py:239-395 | the visit is the approach (`Approach`: two bubble-and-reward steps, then the first bubble), then floor clicks only, then the third bubble last; bubble order 1, 1, 0, 2; the refresh, tag and back counts are bounded as in ShopFloor |
| AutoTowerTest.ShopTurn | auto_tower_test.py:424-429 | a shop turn adds bubble order 1, 1, 0, 2 and refreshes at most twice, only in the fourth shop |
| AutoTowerTest.DialogTurn | auto_tower_test.py:430-437 | a choice turn makes one or two dialog clicks and moves neither the bubbles nor the refresh count |
| AutoTowerTest.DispatchIsAFunction | auto_tower_test.py:414-437 | every detection capture selects exactly one of save, shop, choice or idle |
| AutoTowerTest.Respond | auto_tower_test.py:414-437 | the branch taken is the dispatched one; save clicks only the save button, choice only dialog clicks, idle nothing; only a shop moves the bubbles or the refresh count |
| AutoTowerTest.Iteration | auto_tower_test.py:411-439 | a pass is the check point, the burst click, then the dispatched branch on the next capture |
| AutoTowerTest.EnterRun | auto_tower_test.py:400-407 | a missing template or a stop clicks nothing; with a skip request nothing is captured or clicked; success clears the skip flag; at most three clicks, each on an entry button where a capture showed it |
| AutoTowerTest.EntryStep | auto_tower_test.py:402-406 | one more entry button clicked where shown keeps every entry click located and adds at most one click |
| AutoTowerTest.RunPasses | auto_tower_test.py:409-439 | a finished run entered at most four shops, each with bubble order 1, 1, 0, 2, clicked refresh at most twice and ended on the save button as located |
| AutoTowerTest.CountedIteration | auto_tower_test.py:411-429 | one pass keeps the loop's invariant: bubble order four per shop entered, refresh clicks only once the fourth shop has been entered; a shop only while fewer than four were entered; a save pass ends on the save button |
| AutoTowerTest.PassCounted | auto_tower_test.py:411-429 | one pass keeps the loop's invariant: bubble order four per shop entered, and refresh clicks only once the fourth shop has been entered |
| AutoTowerTest.MainLoop | auto_tower_test.py:399-440 | the whole run: a stop before it clicks nothing; at most four shops, at most two refreshes, the last click on the save button |

## Left out

- Screen capture, the OpenCV correlation and clicking are not modelled. A capture is the next element of a given list of screens. A screen carries the correlation map for each token. A click is an entry in a trace.
- The pixel contents of templates are not modelled, and neither are load_template's file lookup or its image checks. A template is present or absent, with a size.
- The window lookup by title is not modelled. A screen either has the window or does not.
- Host.Emulator.Capture: does not model restoring a minimized window and re-reading its size. The rectangle a screen carries is the one used.
- Time is not modelled. Every timeout becomes a number of polls: sixty seconds at half a second per poll is 120; three seconds at 0.2 s is 15; six seconds at 0.2 s is 30. The sleeps are dropped.
- AutoTower.ContinuousFastClick: the burst of clicks during a fixed duration is modelled as one click at the burst point.
- AutoTowerTest.ContinuousFastClick: the burst, with its per-click check points, is modelled as one check point and one click.
- Hotkeys.Flags.CheckPauseAndRunning: hotkeys arrive only as batches between reads of the flags. The spin-wait while paused consumes one batch per turn, and ends with InputsExhausted when no batch is left.
- Floating-point fractions are modelled as whole percentages, with Python's int() truncation written out (`Common.Percent`).
- The fallback click x = int(width * 0.2) is modelled the same way (`AutoTowerTest.FallbackPoint`).
- Finite inputs are added: every routine that loops until the screen changes stops with InputsExhausted when the list of screens runs out. The scripts would poll forever instead.
- The printed messages are not modelled.
- The `__main__` block is not modelled. That covers the hotkey registration, the exception handlers and the final reset of the running flag.
- AutoTower.MainLoop and AutoTowerTest.MainLoop: an exception simply ends the routine with a Halt value.
- AutoTower.HandleShop and AutoTowerTest.HandleShop: state the approach, the bubble order and the refresh, tag and back counts of a visit, not its exact clicks. The exact clicks after the approach are stated by the LeaveShop of each revision.
- AutoTowerTest.PurchaseItems: every matched position is described by its own purchase and the captures are accounted for one by one, but the purchases that went through (those whose capture showed the buy button) are not counted.

=== FILE: auto_tower.dfy ===
/** The tower controller of auto_tower.py: the entry buttons, the fast-click
    burst, dialog choices, the shop routine and the main loop. Every routine
    works against an `Emulator`, which supplies the screens and records the
    clicks. */
module AutoTower {
  import opened Common
  import opened Matching
  import opened Host

  /** IMAGE_MATCH_THRESHOLD, also passed explicitly as 0.8 everywhere else. */
  const Threshold: real := 0.8

  /** max_shops in main_loop. */
  const MaxShops: nat := 4

  /** The 60-second waits for the entry buttons, at one capture per half second. */
  const EntryPolls: nat := 120

  /** Heights of the three dialog bubbles as percentages of the window height. */
  const BubbleRows: seq<nat> := [70, 80, 90]

  /** Distance of the dialog bubbles from the window's left edge. */
  const BubbleColumn: int := 300

  /** The blind click on a dialog's first option, relative to the window. */
  const FallbackOffset: Point := Point(200, 350)

  /** What the clicks of the purchase loop can be aimed at. */
  const PurchaseTargets: set<Target> := {OnToken(Buy), OnToken(Confirm), OnToken(Note), OnToken(Hundred)}

  /** What select_choice_or_first can click. */
  const DialogTargets: set<Target> := {OnToken(Choice), OnToken(Tag), Fallback}

  /** The screen point click_bubble uses for bubble `index` of window `r`. */
  function BubblePoint(r: Rect, index: nat): (p: Point)
    requires index < |BubbleRows|
    ensures p.x == r.left + BubbleColumn
  {
    Point(r.left + BubbleColumn, r.top + Percent(r.height, BubbleRows[index]))
  }

  /** The bubbles lie inside the window, first to third from top to bottom. */
  lemma BubblesStackDownward(r: Rect)
    requires r.height >= 0
    ensures r.top <= BubblePoint(r, 0).y <= BubblePoint(r, 1).y <= BubblePoint(r, 2).y <= r.top + r.height
  {
    PercentMonotone(r.height, 70, 80);
    PercentMonotone(r.height, 80, 90);
  }

  /** Click `i` of trace `t` is one the purchase loop may make: a buy button;
      a confirm button found on the capture right after a buy click; a note
      item on a capture without a buy button; a 100-point item on a capture
      with neither. */
  ghost predicate PurchaseStep(emu: Emulator, t: seq<Action>, i: int)
    requires 0 <= i < |t|
  {
    var a := t[i];
    || emu.ClickedOn(a, Buy, Threshold)
    || (0 < i && t[i - 1].target == OnToken(Buy) && a.capture == t[i - 1].capture + 1
        && emu.ClickedOn(a, Confirm, Threshold))
    || (emu.Lacks(a.capture, Buy, Threshold) && emu.ClickedOn(a, Note, Threshold))
    || (emu.Lacks(a.capture, Buy, Threshold) && emu.Lacks(a.capture, Note, Threshold)
        && emu.ClickedOn(a, Hundred, Threshold))
  }

  /** Click `i` of trace `t` is one the shop floor may make: a purchase step,
      or a refresh, tag or back button where its capture showed it. */
  ghost predicate ShopClick(emu: Emulator, t: seq<Action>, i: int)
    requires 0 <= i < |t|
  {
    || PurchaseStep(emu, t, i)
    || emu.ClickedOn(t[i], Refresh, Threshold)
    || emu.ClickedOn(t[i], Tag, Threshold)
    || emu.ClickedOn(t[i], Back, Threshold)
  }

  /** Click `i` of trace `t` is one handle_shop may make: a bubble or a
      shop-floor click. */
  ghost predicate InShop(emu: Emulator, t: seq<Action>, i: int)
    requires 0 <= i < |t|
  {
    t[i].target.Bubble? || ShopClick(emu, t, i)
  }

  /** What the clicks on the shop floor can be aimed at. */
  const FloorTargets: set<Target> :=
    {OnToken(Buy), OnToken(Confirm), OnToken(Note), OnToken(Hundred), OnToken(Refresh), OnToken(Tag), OnToken(Back)}

  /** Capture `k` offers nothing to buy. */
  ghost predicate NothingToBuy(emu: Emulator, k: int)
  {
    emu.Lacks(k, Buy, Threshold) && emu.Lacks(k, Note, Threshold) && emu.Lacks(k, Hundred, Threshold)
  }

  /** Appending clicks does not change what an earlier click was. */
  lemma StepKept(emu: Emulator, t: seq<Action>, extra: seq<Action>, i: nat)
    requires i < |t|
    ensures PurchaseStep(emu, t, i) ==> PurchaseStep(emu, t + extra, i)
    ensures ShopClick(emu, t, i) ==> ShopClick(emu, t + extra, i)
    ensures InShop(emu, t, i) ==> InShop(emu, t + extra, i)
  {
    assert (t + extra)[i] == t[i];
    if 0 < i {
      assert (t + extra)[i - 1] == t[i - 1];
    }
  }

  lemma PurchaseStepsKept(emu: Emulator, t: seq<Action>, extra: seq<Action>, from: nat)
    requires forall i :: from <= i < |t| ==> PurchaseStep(emu, t, i)
    ensures forall i :: from <= i < |t| ==> PurchaseStep(emu, t + extra, i)
  {
    forall i | from <= i < |t| ensures PurchaseStep(emu, t + extra, i) {
      StepKept(emu, t, extra, i);
    }
  }

  lemma ShopClicksKept(emu: Emulator, t: seq<Action>, extra: seq<Action>, from: nat)
    requires forall i :: from <= i < |t| ==> ShopClick(emu, t, i)
    ensures forall i :: from <= i < |t| ==> ShopClick(emu, t + extra, i)
  {
    forall i | from <= i < |t| ensures ShopClick(emu, t + extra, i) {
      StepKept(emu, t, extra, i);
    }
  }

  /** A shop trace `after` grown from `before` by clicks aimed only into
      `allowed`: the earlier shop clicks stay what they were, and no other
      target's count moves. */
  lemma ShopGrowth(emu: Emulator, start: seq<Action>, before: seq<Action>, after: seq<Action>, allowed: set<Target>)
    requires start <= before <= after
    requires forall i :: |start| <= i < |before| ==> InShop(emu, before, i)
    requires forall i :: |before| <= i < |after| ==> InShop(emu, after, i) && after[i].target in allowed
    ensures forall i :: |start| <= i < |after| ==> InShop(emu, after, i)
    ensures forall t :: t !in allowed ==> Count(after, t) == Count(before, t)
    ensures (forall t :: t in allowed ==> !t.Bubble?) ==> Bubbles(after) == Bubbles(before)
  {
    var extra := after[|before|..];
    assert after == before + extra;
    forall i | |start| <= i < |before| ensures InShop(emu, after, i) {
      StepKept(emu, before, extra, i);
    }
    GrowthWithin(before, after, allowed);
  }

  /** The clicks of `t` from position `from` on are shop clicks aimed into
      `allowed`. */
  ghost predicate ShopTail(emu: Emulator, t: seq<Action>, from: nat, allowed: set<Target>)
  {
    forall i {:trigger InShop(emu, t, i)} :: from <= i < |t| ==> InShop(emu, t, i) && t[i].target in allowed
  }

  /** Shop clicks aimed into `allowed`, followed by more such clicks, are
      still shop clicks aimed into `allowed`. */
  lemma ShopKept(emu: Emulator, start: seq<Action>, before: seq<Action>, after: seq<Action>, allowed: set<Target>)
    requires start <= before <= after
    requires ShopTail(emu, before, |start|, allowed)
    requires ShopTail(emu, after, |before|, allowed)
    ensures ShopTail(emu, after, |start|, allowed)
  {
    var extra := after[|before|..];
    assert after == before + extra;
    forall i | |start| <= i < |before| ensures InShop(emu, after, i) && after[i].target in allowed {
      StepKept(emu, before, extra, i);
    }
  }

  /** wait_and_click: capture up to `polls` times and click the centre of
      `name` the first time it shows; Ok(false) is the timeout. A template
      that cannot be loaded stops the run before any capture. */
  method WaitAndClick(emu: Emulator, name: Token, polls: nat, threshold: real) returns (r: Outcome<bool>)
    requires emu.Valid()
    modifies emu
    ensures emu.Valid() && old(emu.seen) <= emu.seen
    ensures name !in emu.templates ==>
      r == Halted(TemplateMissing(name)) && emu.seen == old(emu.seen) && emu.trace == old(emu.trace)
    ensures r.Ok? ==> name in emu.templates
    ensures r != Ok(true) ==> emu.trace == old(emu.trace)
    ensures r == Ok(true) ==>
      && old(emu.seen) < emu.seen
      && emu.Shows(emu.seen - 1, name, threshold)
      && emu.trace == old(emu.trace) + [emu.TokenClick(emu.seen - 1, name, threshold)]
    ensures r == Ok(false) ==> emu.seen == old(emu.seen) + polls
    ensures r.Ok? ==>
      forall k :: old(emu.seen) <= k < emu.seen - (if r.value then 1 else 0) ==> emu.Lacks(k, name, threshold)
  {
    if name !in emu.templates {
      return Halted(TemplateMissing(name));
    }
    var i := 0;
    while i < polls
      invariant 0 <= i <= polls
      invariant emu.Valid() && emu.seen == old(emu.seen) + i && emu.trace == old(emu.trace)
      invariant forall k :: old(emu.seen) <= k < emu.seen ==> emu.Lacks(k, name, threshold)
    {
      var f :- emu.Capture();
      var pos := emu.Locate(f, name, threshold);
      if pos.Some? {
        emu.Press(OnToken(name), Absolute(f.rect, pos.value));
        return Ok(true);
      }
      i := i + 1;
    }
    return Ok(false);
  }

  /** click_relative: click at an offset from the top-left corner of `rect`,
      the window of the latest capture. */
  method ClickRelative(emu: Emulator, dx: int, dy: int, rect: Rect, target: Target)
    requires emu.Valid() && 0 < emu.seen && emu.screens[emu.seen - 1].Window?
    modifies emu`trace
    ensures emu.trace == old(emu.trace) + [Click(target, Point(rect.left + dx, rect.top + dy), emu.seen - 1)]
  {
    emu.Press(target, Point(rect.left + dx, rect.top + dy));
  }

  /** continuous_fast_click: one capture fixes the point ten pixels inside the
      left edge at half height, and the burst clicks there. */
  method ContinuousFastClick(emu: Emulator) returns (r: Outcome<()>)
    requires emu.Valid()
    modifies emu
    ensures emu.Valid() && old(emu.seen) <= emu.seen
    ensures r.Halted? ==> emu.trace == old(emu.trace)
    ensures r.Ok? ==>
      && emu.seen == old(emu.seen) + 1
      && emu.screens[old(emu.seen)].Window?
      && emu.trace == old(emu.trace) + [Click(FastForward, LeftEdge(emu.RectAt(old(emu.seen))), old(emu.seen))]
  {
    var f :- emu.Capture();
    emu.Press(FastForward, LeftEdge(f.rect));
    return Ok(());
  }

  /** select_choice_or_first: one capture, then exactly one click — on the
      thumbs-up if it shows, otherwise on the tag bubble if it shows,
      otherwise blindly at (200, 350) from the window's corner. */
  method SelectChoiceOrFirst(emu: Emulator) returns (r: Outcome<()>)
    requires emu.Valid()
    modifies emu
    ensures emu.Valid() && old(emu.seen) <= emu.seen
    ensures r.Halted? ==> emu.trace == old(emu.trace)
    ensures r.Ok? ==>
      && emu.seen == old(emu.seen) + 1
      && emu.screens[old(emu.seen)].Window?
      && |emu.trace| == |old(emu.trace)| + 1
      && old(emu.trace) <= emu.trace
      && emu.trace[|emu.trace| - 1].target in DialogTargets
    ensures r.Ok? ==>
      var k, a := old(emu.seen), emu.trace[|emu.trace| - 1];
      && (emu.Shows(k, Choice, Threshold) ==> emu.ClickedOn(a, Choice, Threshold))
      && (emu.Lacks(k, Choice, Threshold) && emu.Shows(k, Tag, Threshold) ==> emu.ClickedOn(a, Tag, Threshold))
      && (emu.Lacks(k, Choice, Threshold) && emu.Lacks(k, Tag, Threshold) ==>
            a == Click(Fallback, Absolute(emu.RectAt(k), FallbackOffset), k))
  {
    var f :- emu.Capture();
    var pos := emu.Locate(f, Choice, Threshold);
    if pos.Some? {
      emu.Press(OnToken(Choice), Absolute(f.rect, pos.value));
      return Ok(());
    }
    pos := emu.Locate(f, Tag, Threshold);
    if pos.Some? {
      emu.Press(OnToken(Tag), Absolute(f.rect, pos.value));
      return Ok(());
    }
    ClickRelative(emu, FallbackOffset.x, FallbackOffset.y, f.rect, Fallback);
    return Ok(());
  }

  /** click_bubble: one capture, then a click on bubble `index` of its window. */
  method ClickBubble(emu: Emulator, index: nat) returns (r: Outcome<()>)
    requires emu.Valid() && index < |BubbleRows|
    modifies emu
    ensures emu.Valid() && old(emu.seen) <= emu.seen
    ensures r.Halted? ==> emu.trace == old(emu.trace)
    ensures r.Ok? ==>
      && emu.seen == old(emu.seen) + 1
      && emu.screens[old(emu.seen)].Window?
      && emu.trace == old(emu.trace) + [Click(Bubble(index), BubblePoint(emu.RectAt(old(emu.seen)), index), old(emu.seen))]
  {
    var f :- emu.Capture();
    ClickRelative(emu, BubbleColumn, Percent(f.rect.height, BubbleRows[index]), f.rect, Bubble(index));
    return Ok(());
  }

  /** The clicks one pass of purchase_items makes on capture `k`: the buy
      button if it shows, followed by the confirm button if the next capture
      shows it; else the note item; else the 100-point item; else nothing. */
  ghost function PassClicks(emu: Emulator, k: nat): seq<Action>
    requires k < |emu.screens| && emu.screens[k].Window?
  {
    if emu.Shows(k, Buy, Threshold) then
      [emu.TokenClick(k, Buy, Threshold)]
        + (if emu.Shows(k + 1, Confirm, Threshold) then [emu.TokenClick(k + 1, Confirm, Threshold)] else [])
    else if emu.Shows(k, Note, Threshold) then [emu.TokenClick(k, Note, Threshold)]
    else if emu.Shows(k, Hundred, Threshold) then [emu.TokenClick(k, Hundred, Threshold)]
    else []
  }

  /** The capture after the pass on capture `k`: a buy click costs one more
      capture, the confirm probe. */
  ghost function PassEnd(emu: Emulator, k: nat): nat
  {
    if emu.Shows(k, Buy, Threshold) then k + 2 else k + 1
  }

  /** The clicks purchase_items makes when its first capture is number `k`:
      pass after pass, up to the first capture offering nothing. */
  ghost function PurchaseClicks(emu: Emulator, k: nat): seq<Action>
    decreases |emu.screens| - k
  {
    if k < |emu.screens| && emu.screens[k].Window? && !NothingToBuy(emu, k) then
      PassClicks(emu, k) + PurchaseClicks(emu, PassEnd(emu, k))
    else []
  }

  /** The capture after the last one purchase_items takes when its first is
      number `k`. */
  ghost function PurchaseEnd(emu: Emulator, k: nat): (e: nat)
    ensures k < e
    decreases |emu.screens| - k
  {
    if k < |emu.screens| && emu.screens[k].Window? && !NothingToBuy(emu, k) then
      PurchaseEnd(emu, PassEnd(emu, k))
    else k + 1
  }

  /** The pass on capture `k` is the first of purchase_items from `k` on,
      unless that capture offers nothing, where the purchase loop ends. */
  lemma PassUnfolds(emu: Emulator, k: nat, before: seq<Action>, after: seq<Action>)
    requires k < |emu.screens| && emu.screens[k].Window?
    requires after == before + PassClicks(emu, k)
    ensures !NothingToBuy(emu, k) ==>
      && before + PurchaseClicks(emu, k) == after + PurchaseClicks(emu, PassEnd(emu, k))
      && PurchaseEnd(emu, k) == PurchaseEnd(emu, PassEnd(emu, k))
    ensures NothingToBuy(emu, k) ==> after == before && PurchaseClicks(emu, k) == [] && PurchaseEnd(emu, k) == k + 1
  {
    if !NothingToBuy(emu, k) {
      var pass, rest := PassClicks(emu, k), PurchaseClicks(emu, PassEnd(emu, k));
      assert PurchaseClicks(emu, k) == pass + rest;
      assert before + (pass + rest) == before + pass + rest;
    } else {
      assert PassClicks(emu, k) == [];
    }
  }

  /** The buy branch of a pass on capture `k`, whose frame `f` showed the
      buy button at `at`: click it, then one capture probing for the confirm
      button, and a click on that if it shows. */
  method BuyAndConfirm(emu: Emulator, f: Frame, at: Point, ghost k: nat) returns (r: Outcome<()>)
    requires emu.Valid() && emu.seen == k + 1
    requires emu.screens[k] == Window(f) && emu.Locate(f, Buy, Threshold) == Some(at)
    modifies emu
    ensures emu.Valid() && old(emu.seen) <= emu.seen && old(emu.trace) <= emu.trace
    ensures forall i :: |old(emu.trace)| <= i < |emu.trace| ==> emu.trace[i].target in PurchaseTargets
    ensures forall i :: |old(emu.trace)| <= i < |emu.trace| ==> PurchaseStep(emu, emu.trace, i)
    ensures r.Ok? ==> emu.trace == old(emu.trace) + PassClicks(emu, k) && emu.seen == PassEnd(emu, k)
  {
    emu.Press(OnToken(Buy), Absolute(f.rect, at));
    assert emu.ClickedOn(emu.trace[|old(emu.trace)|], Buy, Threshold);
    var f2 :- emu.Capture();
    var confirm := emu.Locate(f2, Confirm, Threshold);
    if confirm.Some? {
      emu.Press(OnToken(Confirm), Absolute(f2.rect, confirm.value));
      assert emu.ClickedOn(emu.trace[|old(emu.trace)|], Buy, Threshold);
      assert emu.ClickedOn(emu.trace[|old(emu.trace)| + 1], Confirm, Threshold);
      assert PurchaseStep(emu, emu.trace, |old(emu.trace)| + 1);
    }
    return Ok(());
  }

  /** One pass of the purchase loop: one capture and, when it offers
      something, the click on it (a buy click is followed by one capture
      probing for the confirm button). Ok(false): nothing was offered. */
  method PurchaseRound(emu: Emulator) returns (r: Outcome<bool>)
    requires emu.Valid()
    modifies emu
    ensures emu.Valid() && old(emu.seen) <= emu.seen && old(emu.trace) <= emu.trace
    ensures forall i :: |old(emu.trace)| <= i < |emu.trace| ==> emu.trace[i].target in PurchaseTargets
    ensures forall i :: |old(emu.trace)| <= i < |emu.trace| ==> PurchaseStep(emu, emu.trace, i)
    ensures r.Ok? ==> old(emu.seen) < emu.seen
    ensures r == Ok(false) ==> emu.trace == old(emu.trace) && NothingToBuy(emu, emu.seen - 1)
    ensures r.Ok? ==>
      && emu.screens[old(emu.seen)].Window?
      && (r.value <==> !NothingToBuy(emu, old(emu.seen)))
      && emu.trace == old(emu.trace) + PassClicks(emu, old(emu.seen))
      && emu.seen == PassEnd(emu, old(emu.seen))
  {
    var f :- emu.Capture();
    var k := emu.seen - 1;
    var buy := emu.Locate(f, Buy, Threshold);
    if buy.Some? {
      var bought := BuyAndConfirm(emu, f, buy.value, k);
      if bought.Halted? {
        return Halted(bought.halt);
      }
      return Ok(true);
    }
    assert emu.Lacks(k, Buy, Threshold);
    var note := emu.Locate(f, Note, Threshold);
    var hundred := emu.Locate(f, Hundred, Threshold);
    if note.Some? {
      emu.Press(OnToken(Note), Absolute(f.rect, note.value));
      assert emu.ClickedOn(emu.trace[|old(emu.trace)|], Note, Threshold);
      return Ok(true);
    }
    if hundred.Some? {
      emu.Press(OnToken(Hundred), Absolute(f.rect, hundred.value));
      assert emu.ClickedOn(emu.trace[|old(emu.trace)|], Hundred, Threshold);
      return Ok(true);
    }
    return Ok(false);
  }

  /** purchase_items: keep buying until a capture offers nothing. A buy button
      takes precedence, then a note item, then a 100-point item. */
  method PurchaseItems(emu: Emulator) returns (r: Outcome<()>)
    requires emu.Valid()
    modifies emu
    ensures emu.Valid() && old(emu.seen) <= emu.seen && old(emu.trace) <= emu.trace
    ensures forall i :: |old(emu.trace)| <= i < |emu.trace| ==> emu.trace[i].target in PurchaseTargets
    ensures forall i :: |old(emu.trace)| <= i < |emu.trace| ==> PurchaseStep(emu, emu.trace, i)
    ensures r.Ok? ==> old(emu.seen) < emu.seen && NothingToBuy(emu, emu.seen - 1)
    ensures r.Ok? ==>
      && emu.trace == old(emu.trace) + PurchaseClicks(emu, old(emu.seen))
      && emu.seen == PurchaseEnd(emu, old(emu.seen))
  {
    while true
      invariant emu.Valid() && old(emu.seen) <= emu.seen && old(emu.trace) <= emu.trace
      invariant forall i :: |old(emu.trace)| <= i < |emu.trace| ==> emu.trace[i].target in PurchaseTargets
      invariant forall i :: |old(emu.trace)| <= i < |emu.trace| ==> PurchaseStep(emu, emu.trace, i)
      invariant old(emu.trace) + PurchaseClicks(emu, old(emu.seen)) == emu.trace + PurchaseClicks(emu, emu.seen)
      invariant PurchaseEnd(emu, old(emu.seen)) == PurchaseEnd(emu, emu.seen)
      decreases |emu.screens| - emu.seen
    {
      var before := emu.trace;
      ghost var k := emu.seen;
      var round := PurchaseRound(emu);
      if round.Ok? {
        PassUnfolds(emu, k, before, emu.trace);
      }
      assert emu.trace == before + emu.trace[|before|..];
      PurchaseStepsKept(emu, before, emu.trace[|before|..], |old(emu.trace)|);
      if round.Halted? {
        return Halted(round.halt);
      }
      if !round.value {
        break;
      }
    }
    return Ok(());
  }

  /** What the clicks of the refresh loop can be aimed at. */
  const RestockTargets: set<Target> :=
    {OnToken(Buy), OnToken(Confirm), OnToken(Note), OnToken(Hundred), OnToken(Refresh)}

  /** The trace `t` followed by the clicks of at most `n` refresh rounds
      polled first on capture `k`: while the poll shows the refresh button,
      the click on it and then the purchase loop from the next capture on,
      the next poll following the capture that loop ended on. */
  ghost function Refilled(emu: Emulator, t: seq<Action>, k: nat, n: nat): seq<Action>
    decreases n
  {
    if n > 0 && emu.Shows(k, Refresh, Threshold) then
      Refilled(emu, t + [emu.TokenClick(k, Refresh, Threshold)] + PurchaseClicks(emu, k + 1), PurchaseEnd(emu, k + 1), n - 1)
    else t
  }

  /** How many of those `n` rounds found the refresh button. */
  ghost function Refills(emu: Emulator, k: nat, n: nat): nat
    decreases n
  {
    if n > 0 && emu.Shows(k, Refresh, Threshold) then Refills(emu, PurchaseEnd(emu, k + 1), n - 1) + 1 else 0
  }

  /** The first capture after those rounds: the poll that lacked the
      button, or the end of the last purchase loop after `n` rounds. */
  ghost function RefillEnd(emu: Emulator, k: nat, n: nat): nat
    decreases n
  {
    if n == 0 then k
    else if emu.Shows(k, Refresh, Threshold) then RefillEnd(emu, PurchaseEnd(emu, k + 1), n - 1)
    else k + 1
  }

  /** At most `n` rounds find the button, and when fewer than `n` find it,
      the last capture polled is the one that lacked it. */
  lemma {:induction false} RefillShape(emu: Emulator, k: nat, n: nat)
    ensures Refills(emu, k, n) <= n && k <= RefillEnd(emu, k, n)
    ensures Refills(emu, k, n) < n ==> k < RefillEnd(emu, k, n) && !emu.Shows(RefillEnd(emu, k, n) - 1, Refresh, Threshold)
    decreases n
  {
    if n > 0 && emu.Shows(k, Refresh, Threshold) {
      RefillShape(emu, PurchaseEnd(emu, k + 1), n - 1);
    }
  }

  /** One round of the refresh loop: a capture and, when it shows the refresh
      button, a click on it and a new purchase loop. Ok(false): no button. */
  method RefreshOnce(emu: Emulator, ghost rounds: nat) returns (r: Outcome<bool>)
    requires emu.Valid() && 0 < rounds
    modifies emu
    ensures emu.Valid() && old(emu.seen) <= emu.seen && old(emu.trace) <= emu.trace
    ensures ShopTail(emu, emu.trace, |old(emu.trace)|, RestockTargets)
    ensures Count(emu.trace, OnToken(Refresh)) <= Count(old(emu.trace), OnToken(Refresh)) + 1
    ensures r == Ok(true) ==> Count(emu.trace, OnToken(Refresh)) == Count(old(emu.trace), OnToken(Refresh)) + 1
    ensures r == Ok(false) ==>
      && emu.trace == old(emu.trace)
      && emu.seen == old(emu.seen) + 1 && emu.Lacks(emu.seen - 1, Refresh, Threshold)
    ensures r.Ok? ==>
      && old(emu.seen) < emu.seen && emu.screens[old(emu.seen)].Window?
      && (r.value <==> emu.Shows(old(emu.seen), Refresh, Threshold))
    ensures r == Ok(true) ==>
      && Refilled(emu, old(emu.trace), old(emu.seen), rounds) == Refilled(emu, emu.trace, emu.seen, rounds - 1)
      && Refills(emu, old(emu.seen), rounds) == Refills(emu, emu.seen, rounds - 1) + 1
      && RefillEnd(emu, old(emu.seen), rounds) == RefillEnd(emu, emu.seen, rounds - 1)
    ensures r == Ok(false) ==>
      && Refilled(emu, old(emu.trace), old(emu.seen), rounds) == emu.trace
      && Refills(emu, old(emu.seen), rounds) == 0
      && RefillEnd(emu, old(emu.seen), rounds) == emu.seen
  {
    var f :- emu.Capture();
    var pos := emu.Locate(f, Refresh, Threshold);
    if pos.None? {
      return Ok(false);
    }
    var bought := Restock(emu, f, pos.value, old(emu.seen));
    if bought.Halted? {
      return Halted(bought.halt);
    }
    return Ok(true);
  }

  /** A click on token `t` where the latest capture, number `k` with frame
      `f`, located it at `at`. */
  method PressToken(emu: Emulator, f: Frame, t: Token, at: Point, ghost k: nat)
    requires emu.Valid() && emu.seen == k + 1
    requires emu.screens[k] == Window(f) && emu.Locate(f, t, Threshold) == Some(at)
    modifies emu`trace
    ensures emu.Shows(k, t, Threshold) && emu.ClickedOn(emu.TokenClick(k, t, Threshold), t, Threshold)
    ensures emu.trace == old(emu.trace) + [emu.TokenClick(k, t, Threshold)]
  {
    emu.Press(OnToken(t), Absolute(f.rect, at));
  }

  /** The refresh branch of a round: click the refresh button where the
      latest capture `f` located it, at `at`, and buy again. */
  method Restock(emu: Emulator, f: Frame, at: Point, ghost k: nat) returns (r: Outcome<()>)
    requires emu.Valid() && emu.seen == k + 1
    requires emu.screens[k] == Window(f) && emu.Locate(f, Refresh, Threshold) == Some(at)
    modifies emu
    ensures emu.Valid() && old(emu.seen) <= emu.seen && old(emu.trace) <= emu.trace
    ensures ShopTail(emu, emu.trace, |old(emu.trace)|, RestockTargets)
    ensures Count(emu.trace, OnToken(Refresh)) == Count(old(emu.trace), OnToken(Refresh)) + 1
    ensures r.Ok? ==>
      && emu.trace == old(emu.trace) + [emu.TokenClick(k, Refresh, Threshold)] + PurchaseClicks(emu, k + 1)
      && emu.seen == PurchaseEnd(emu, k + 1)
  {
    ghost var t0 := emu.trace;
    PressToken(emu, f, Refresh, at, k);
    ghost var t1 := emu.trace;
    r := PurchaseItems(emu);
    RestockTally(emu, t0, emu.TokenClick(k, Refresh, Threshold), t1, emu.trace);
  }

  /** A refresh click where the capture showed the button, followed by
      purchase steps, adds one refresh click and only restocking clicks. */
  lemma RestockTally(emu: Emulator, t0: seq<Action>, click: Action, t1: seq<Action>, t2: seq<Action>)
    requires click.target == OnToken(Refresh) && emu.ClickedOn(click, Refresh, Threshold)
    requires t1 == t0 + [click] && t1 <= t2
    requires forall i :: |t1| <= i < |t2| ==> t2[i].target in PurchaseTargets
    requires forall i :: |t1| <= i < |t2| ==> PurchaseStep(emu, t2, i)
    ensures t0 <= t2
    ensures forall i :: |t0| <= i < |t2| ==> InShop(emu, t2, i) && t2[i].target in RestockTargets
    ensures Count(t2, OnToken(Refresh)) == Count(t0, OnToken(Refresh)) + 1
  {
    assert t1[|t0|] == click;
    CountSnoc(t0, click, OnToken(Refresh));
    ShopGrowth(emu, t0, t0, t1, {OnToken(Refresh)});
    ShopGrowth(emu, t0, t1, t2, PurchaseTargets);
    forall i | |t0| <= i < |t2| ensures t2[i].target in RestockTargets {
      if i == |t0| {
        assert t2[i] == click;
      }
    }
  }

  /** The refresh loop of the final shop: up to two rounds of clicking the
      refresh button and buying again. Ok(n) reports the n refreshes made;
      fewer than two means the poll after the last refresh round showed no
      refresh button. The clicks and captures are those of `Refilled`. */
  method RefreshCycles(emu: Emulator) returns (r: Outcome<nat>)
    requires emu.Valid()
    modifies emu
    ensures emu.Valid() && old(emu.seen) <= emu.seen && old(emu.trace) <= emu.trace
    ensures ShopTail(emu, emu.trace, |old(emu.trace)|, RestockTargets)
    ensures Count(emu.trace, OnToken(Refresh)) <= Count(old(emu.trace), OnToken(Refresh)) + 2
    ensures r.Ok? ==>
      r.value <= 2 && Count(emu.trace, OnToken(Refresh)) == Count(old(emu.trace), OnToken(Refresh)) + r.value
    ensures r.Ok? ==>
      && emu.trace == Refilled(emu, old(emu.trace), old(emu.seen), 2)
      && r.value == Refills(emu, old(emu.seen), 2)
      && emu.seen == RefillEnd(emu, old(emu.seen), 2)
    ensures r.Ok? && r.value < 2 ==> emu.Lacks(emu.seen - 1, Refresh, Threshold)
  {
    var refreshes := 0;
    while refreshes < 2
      invariant refreshes <= 2
      invariant emu.Valid() && old(emu.seen) <= emu.seen && old(emu.trace) <= emu.trace
      invariant ShopTail(emu, emu.trace, |old(emu.trace)|, RestockTargets)
      invariant Count(emu.trace, OnToken(Refresh)) == Count(old(emu.trace), OnToken(Refresh)) + refreshes
      invariant Refilled(emu, old(emu.trace), old(emu.seen), 2) == Refilled(emu, emu.trace, emu.seen, 2 - refreshes)
      invariant Refills(emu, old(emu.seen), 2) == Refills(emu, emu.seen, 2 - refreshes) + refreshes
      invariant RefillEnd(emu, old(emu.seen), 2) == RefillEnd(emu, emu.seen, 2 - refreshes)
    {
      var before := emu.trace;
      var again := RefreshOnce(emu, 2 - refreshes);
      ShopKept(emu, old(emu.trace), before, emu.trace, RestockTargets);
      if again.Halted? {
        return Halted(again.halt);
      }
      if !again.value {
        return Ok(refreshes);
      }
      refreshes := refreshes + 1;
    }
    return Ok(refreshes);
  }

  /** The trace `t` followed by the tag sweep from capture `k` on: a click
      on the tag of every capture that shows one, up to the first capture
      that does not. */
  ghost function Swept(emu: Emulator, t: seq<Action>, k: nat): seq<Action>
    decreases |emu.screens| - k
  {
    if emu.Shows(k, Tag, Threshold) then Swept(emu, t + [emu.TokenClick(k, Tag, Threshold)], k + 1) else t
  }

  /** The first capture from `k` on that shows no tag. */
  ghost function SweepEnd(emu: Emulator, k: nat): (e: nat)
    ensures k <= e
    decreases |emu.screens| - k
  {
    if emu.Shows(k, Tag, Threshold) then SweepEnd(emu, k + 1) else k
  }

  /** The sweep from `k` keeps what was before it and looks at the captures
      from `k` up to `SweepEnd`, one click each. */
  lemma {:induction false} SweptLength(emu: Emulator, t: seq<Action>, k: nat)
    ensures |Swept(emu, t, k)| == |t| + SweepEnd(emu, k) - k
    ensures t <= Swept(emu, t, k)
    decreases |emu.screens| - k
  {
    if emu.Shows(k, Tag, Threshold) {
      SweptLength(emu, t + [emu.TokenClick(k, Tag, Threshold)], k + 1);
    }
  }

  /** Click `i` of the sweep from `k` is on the tag of capture `k` plus its
      position in the sweep: the captures are taken in order, one click each. */
  lemma {:induction false} SweptAt(emu: Emulator, t: seq<Action>, k: nat, i: nat)
    requires |t| <= i < |Swept(emu, t, k)|
    ensures emu.Shows(k + (i - |t|), Tag, Threshold)
    ensures Swept(emu, t, k)[i] == emu.TokenClick(k + (i - |t|), Tag, Threshold)
    decreases |emu.screens| - k
  {
    var t' := t + [emu.TokenClick(k, Tag, Threshold)];
    if i == |t| {
      SweptLength(emu, t', k + 1);
      assert Swept(emu, t', k + 1)[i] == t'[i];
    } else {
      SweptAt(emu, t', k + 1, i);
      assert k + 1 + (i - |t'|) == k + (i - |t|);
    }
  }

  /** The sweep from `k` stops on the first capture without a tag: every
      capture before it shows one. */
  lemma {:induction false} SweepStops(emu: Emulator, k: nat)
    ensures !emu.Shows(SweepEnd(emu, k), Tag, Threshold)
    ensures forall j :: k <= j < SweepEnd(emu, k) ==> emu.Shows(j, Tag, Threshold)
    decreases |emu.screens| - k
  {
    if emu.Shows(k, Tag, Threshold) {
      SweepStops(emu, k + 1);
    }
  }

  /** The tag sweep: click the tag on each capture until one shows none. */
  method SweepTags(emu: Emulator) returns (r: Outcome<()>)
    requires emu.Valid()
    modifies emu
    ensures emu.Valid() && old(emu.seen) <= emu.seen && old(emu.trace) <= emu.trace
    ensures forall i :: |old(emu.trace)| <= i < |emu.trace| ==>
      emu.ClickedOn(emu.trace[i], Tag, Threshold) && emu.trace[i].target == OnToken(Tag)
    ensures forall i :: |old(emu.trace)| <= i < |emu.trace| ==> emu.trace[i].capture == old(emu.seen) + (i - |old(emu.trace)|)
    ensures r.Ok? ==>
      && emu.trace == Swept(emu, old(emu.trace), old(emu.seen))
      && emu.seen == SweepEnd(emu, old(emu.seen)) + 1
      && emu.Lacks(SweepEnd(emu, old(emu.seen)), Tag, Threshold)
  {
    while true
      invariant emu.Valid() && old(emu.seen) <= emu.seen && old(emu.trace) <= emu.trace
      invariant forall i :: |old(emu.trace)| <= i < |emu.trace| ==>
        emu.ClickedOn(emu.trace[i], Tag, Threshold) && emu.trace[i].target == OnToken(Tag)
      invariant |emu.trace| - |old(emu.trace)| == emu.seen - old(emu.seen)
      invariant forall i :: |old(emu.trace)| <= i < |emu.trace| ==> emu.trace[i].capture == old(emu.seen) + (i - |old(emu.trace)|)
      invariant Swept(emu, old(emu.trace), old(emu.seen)) == Swept(emu, emu.trace, emu.seen)
      invariant SweepEnd(emu, old(emu.seen)) == SweepEnd(emu, emu.seen)
      decreases |emu.screens| - emu.seen
    {
      var more :- SweepStep(emu, old(emu.trace), old(emu.seen));
      if !more {
        break;
      }
    }
    return Ok(());
  }

  /** One round of the tag sweep that began on capture `k0` with the trace
      `t0`: a capture, and a click on the tag icon if it shows. Ok(false)
      means it did not, which ends the sweep. */
  method SweepStep(emu: Emulator, ghost t0: seq<Action>, ghost k0: nat) returns (r: Outcome<bool>)
    requires emu.Valid() && k0 <= emu.seen && t0 <= emu.trace
    requires forall i :: |t0| <= i < |emu.trace| ==>
      emu.ClickedOn(emu.trace[i], Tag, Threshold) && emu.trace[i].target == OnToken(Tag)
    requires |emu.trace| - |t0| == emu.seen - k0
    requires forall i :: |t0| <= i < |emu.trace| ==> emu.trace[i].capture == k0 + (i - |t0|)
    requires Swept(emu, t0, k0) == Swept(emu, emu.trace, emu.seen)
    requires SweepEnd(emu, k0) == SweepEnd(emu, emu.seen)
    modifies emu
    ensures emu.Valid() && old(emu.seen) <= emu.seen && t0 <= emu.trace
    ensures forall i :: |t0| <= i < |emu.trace| ==>
      emu.ClickedOn(emu.trace[i], Tag, Threshold) && emu.trace[i].target == OnToken(Tag)
    ensures forall i :: |t0| <= i < |emu.trace| ==> emu.trace[i].capture == k0 + (i - |t0|)
    ensures r == Ok(true) ==>
      && old(emu.seen) < emu.seen
      && |emu.trace| - |t0| == emu.seen - k0
      && Swept(emu, t0, k0) == Swept(emu, emu.trace, emu.seen)
      && SweepEnd(emu, k0) == SweepEnd(emu, emu.seen)
    ensures r == Ok(false) ==>
      && emu.trace == Swept(emu, t0, k0)
      && emu.seen == SweepEnd(emu, k0) + 1
      && emu.Lacks(SweepEnd(emu, k0), Tag, Threshold)
  {
    var f :- emu.Capture();
    var pos := emu.Locate(f, Tag, Threshold);
    if pos.None? {
      return Ok(false);
    }
    emu.Press(OnToken(Tag), Absolute(f.rect, pos.value));
    assert emu.ClickedOn(emu.trace[|emu.trace| - 1], Tag, Threshold);
    return Ok(true);
  }

  /** The trace `t` followed by the back probe on capture `k`: the click on
      the back arrow if that capture shows it. */
  ghost function Backed(emu: Emulator, t: seq<Action>, k: nat): seq<Action>
  {
    if emu.Shows(k, Back, Threshold) then t + [emu.TokenClick(k, Back, Threshold)] else t
  }

  /** The exit probe: one capture, and a click on the back arrow if it shows.
      Ok(b) tells whether it was clicked. */
  method ProbeBack(emu: Emulator) returns (r: Outcome<bool>)
    requires emu.Valid()
    modifies emu
    ensures emu.Valid() && old(emu.seen) <= emu.seen
    ensures r.Halted? ==> emu.trace == old(emu.trace)
    ensures r.Ok? ==>
      && emu.seen == old(emu.seen) + 1
      && emu.screens[old(emu.seen)].Window?
      && (r.value <==> emu.Shows(old(emu.seen), Back, Threshold))
      && emu.trace == Backed(emu, old(emu.trace), old(emu.seen))
  {
    var f :- emu.Capture();
    var pos := emu.Locate(f, Back, Threshold);
    if pos.Some? {
      emu.Press(OnToken(Back), Absolute(f.rect, pos.value));
      return Ok(true);
    }
    return Ok(false);
  }

  /** A back probe appended to a shop trace keeps it a shop trace and adds at
      most one back click, exactly when the probe found the arrow. */
  lemma BackProbeGrowth(emu: Emulator, start: seq<Action>, before: seq<Action>, after: seq<Action>, k: nat)
    requires start <= before
    requires forall i :: |start| <= i < |before| ==> InShop(emu, before, i)
    requires after == Backed(emu, before, k)
    ensures start <= after
    ensures forall i :: |start| <= i < |after| ==> InShop(emu, after, i)
    ensures forall i :: |before| <= i < |after| ==> after[i].target == OnToken(Back)
    ensures Count(after, OnToken(Back)) == Count(before, OnToken(Back)) + (if emu.Shows(k, Back, Threshold) then 1 else 0)
    ensures forall t :: t != OnToken(Back) ==> Count(after, t) == Count(before, t)
    ensures Bubbles(after) == Bubbles(before)
  {
    if emu.Shows(k, Back, Threshold) {
      assert emu.ClickedOn(after[|before|], Back, Threshold);
      ShopGrowth(emu, start, before, after, {OnToken(Back)});
      CountSnoc(before, after[|before|], OnToken(Back));
    }
  }

  /** The trace `t` followed by the end of a final shop that refreshed
      twice, from capture `k` on: the tag sweep, then the back probe on the
      capture after the one that showed no tag. */
  ghost function SweptOut(emu: Emulator, t: seq<Action>, k: nat): seq<Action>
  {
    Backed(emu, Swept(emu, t, k), SweepEnd(emu, k) + 1)
  }

  /** The end of a final shop after two refreshes, from capture `k` on,
      clicks the tag on the consecutive captures from `k` up to the first
      that shows none, then the back arrow exactly when the capture after
      that one shows it. */
  lemma SweptOutShape(emu: Emulator, t: seq<Action>, k: nat)
    ensures var e := SweepEnd(emu, k);
      && t <= SweptOut(emu, t, k)
      && |SweptOut(emu, t, k)| == |t| + (e - k) + (if emu.Shows(e + 1, Back, Threshold) then 1 else 0)
      && (forall i :: |t| <= i < |t| + (e - k) ==>
            emu.Shows(k + (i - |t|), Tag, Threshold) && SweptOut(emu, t, k)[i] == emu.TokenClick(k + (i - |t|), Tag, Threshold))
      && !emu.Shows(e, Tag, Threshold)
      && (emu.Shows(e + 1, Back, Threshold) ==> SweptOut(emu, t, k)[|t| + (e - k)] == emu.TokenClick(e + 1, Back, Threshold))
  {
    var swept := Swept(emu, t, k);
    SweptLength(emu, t, k);
    SweepStops(emu, k);
    assert swept <= SweptOut(emu, t, k);
    forall i | |t| <= i < |t| + (SweepEnd(emu, k) - k)
      ensures emu.Shows(k + (i - |t|), Tag, Threshold) && SweptOut(emu, t, k)[i] == emu.TokenClick(k + (i - |t|), Tag, Threshold)
    {
      SweptAt(emu, t, k, i);
    }
  }

  /** The end of the final shop after two refreshes: sweep the tags, then
      probe for the back arrow. */
  method SweepAndExit(emu: Emulator) returns (r: Outcome<()>)
    requires emu.Valid()
    modifies emu
    ensures emu.Valid() && old(emu.seen) <= emu.seen && old(emu.trace) <= emu.trace
    ensures forall i :: |old(emu.trace)| <= i < |emu.trace| ==>
      InShop(emu, emu.trace, i) && emu.trace[i].target in {OnToken(Tag), OnToken(Back)}
    ensures Count(emu.trace, OnToken(Back)) <= Count(old(emu.trace), OnToken(Back)) + 1
    ensures r.Ok? ==>
      && emu.trace == SweptOut(emu, old(emu.trace), old(emu.seen))
      && emu.seen == SweepEnd(emu, old(emu.seen)) + 2
      && emu.Lacks(SweepEnd(emu, old(emu.seen)), Tag, Threshold)
      && emu.screens[SweepEnd(emu, old(emu.seen)) + 1].Window?
      && (Count(emu.trace, OnToken(Back)) > Count(old(emu.trace), OnToken(Back)) <==> emu.Shows(SweepEnd(emu, old(emu.seen)) + 1, Back, Threshold))
  {
    var start := emu.trace;
    var swept := SweepTags(emu);
    ShopGrowth(emu, start, start, emu.trace, {OnToken(Tag)});
    if swept.Halted? {
      return Halted(swept.halt);
    }
    var before := emu.trace;
    var k := emu.seen;
    var left := ProbeBack(emu);
    if left.Halted? {
      return Halted(left.halt);
    }
    BackProbeGrowth(emu, start, before, emu.trace, k);
    return Ok(());
  }

  /** The counts handle_shop promises between two traces: the refresh
      button at most twice and only in the final shop, the back arrow at most
      once, no tag outside the final shop, and neither tags nor the back arrow
      in a final shop that did not refresh twice. */
  ghost predicate ShopCounts(before: seq<Action>, after: seq<Action>, final: bool)
  {
    && Count(after, OnToken(Refresh)) <= Count(before, OnToken(Refresh)) + (if final then 2 else 0)
    && Count(after, OnToken(Back)) <= Count(before, OnToken(Back)) + 1
    && (!final ==> Count(after, OnToken(Tag)) == Count(before, OnToken(Tag)))
    && (final && Count(after, OnToken(Refresh)) < Count(before, OnToken(Refresh)) + 2 ==>
          && Count(after, OnToken(Tag)) == Count(before, OnToken(Tag))
          && Count(after, OnToken(Back)) == Count(before, OnToken(Back)))
  }

  /** The counts a purchase loop leaves alone carry ShopCounts from the
      trace after the loop back to the trace before it. */
  lemma CountsShift(start: seq<Action>, before: seq<Action>, after: seq<Action>, final: bool)
    requires forall t :: t !in PurchaseTargets ==> Count(before, t) == Count(start, t)
    requires ShopCounts(before, after, final)
    ensures ShopCounts(start, after, final)
  {
    assert OnToken(Refresh) !in PurchaseTargets && OnToken(Tag) !in PurchaseTargets && OnToken(Back) !in PurchaseTargets;
  }

  /** The trace `t` followed by what the final shop does after its first
      purchase loop, from capture `k` on: the refresh rounds and, after two
      of them, the tag sweep and the back probe. */
  ghost function FinalClicks(emu: Emulator, t: seq<Action>, k: nat): seq<Action>
  {
    if Refills(emu, k, 2) < 2 then Refilled(emu, t, k, 2)
    else SweptOut(emu, Refilled(emu, t, k, 2), RefillEnd(emu, k, 2))
  }

  /** The first capture after the final shop's floor from capture `k` on. */
  ghost function FinalEnd(emu: Emulator, k: nat): nat
  {
    if Refills(emu, k, 2) < 2 then RefillEnd(emu, k, 2) else SweepEnd(emu, RefillEnd(emu, k, 2)) + 2
  }

  /** The rest of the final shop after its first purchase loop: the refresh
      loop and, after two refreshes only, the tag sweep and the back probe. */
  method FinalFloor(emu: Emulator) returns (r: Outcome<()>)
    requires emu.Valid()
    modifies emu
    ensures emu.Valid() && old(emu.seen) <= emu.seen && old(emu.trace) <= emu.trace
    ensures forall i :: |old(emu.trace)| <= i < |emu.trace| ==>
      InShop(emu, emu.trace, i) && emu.trace[i].target in FloorTargets
    ensures ShopCounts(old(emu.trace), emu.trace, true)
    ensures r.Ok? ==> emu.trace == FinalClicks(emu, old(emu.trace), old(emu.seen)) && emu.seen == FinalEnd(emu, old(emu.seen))
  {
    var start := emu.trace;
    var refreshed := RefreshCycles(emu);
    ShopGrowth(emu, start, start, emu.trace, RestockTargets);
    if refreshed.Halted? || refreshed.value < 2 {
      return if refreshed.Halted? then Halted(refreshed.halt) else Ok(());
    }
    var before := emu.trace;
    var exited := SweepAndExit(emu);
    ShopGrowth(emu, start, before, emu.trace, {OnToken(Tag), OnToken(Back)});
    if exited.Halted? {
      return Halted(exited.halt);
    }
    return Ok(());
  }

  /** The trace `t` followed by what handle_shop does after its first
      purchase loop, from capture `k` on: the rest of the final shop, or
      else the back probe on capture `k`. */
  ghost function AfterPurchase(emu: Emulator, t: seq<Action>, k: nat, final: bool): seq<Action>
  {
    if final then FinalClicks(emu, t, k) else Backed(emu, t, k)
  }

  /** The first capture after those steps. */
  ghost function AfterPurchaseEnd(emu: Emulator, k: nat, final: bool): nat
  {
    if final then FinalEnd(emu, k) else k + 1
  }

  /** The trace `t` followed by the shop floor from capture `k` on: the
      purchase loop, then the steps after it. */
  ghost function FloorClicks(emu: Emulator, t: seq<Action>, k: nat, final: bool): seq<Action>
  {
    AfterPurchase(emu, t + PurchaseClicks(emu, k), PurchaseEnd(emu, k), final)
  }

  /** The first capture after the shop floor from capture `k` on. */
  ghost function FloorEnd(emu: Emulator, k: nat, final: bool): nat
  {
    AfterPurchaseEnd(emu, PurchaseEnd(emu, k), final)
  }

  /** What handle_shop does after its first purchase loop: in the final
      shop the refresh loop and what follows it, in any other shop the
      probe for the back arrow. */
  method FloorExit(emu: Emulator, final: bool) returns (r: Outcome<()>)
    requires emu.Valid()
    modifies emu
    ensures emu.Valid() && old(emu.seen) <= emu.seen && old(emu.trace) <= emu.trace
    ensures forall i :: |old(emu.trace)| <= i < |emu.trace| ==>
      InShop(emu, emu.trace, i) && emu.trace[i].target in FloorTargets
    ensures ShopCounts(old(emu.trace), emu.trace, final)
    ensures r.Ok? && !final ==>
      && emu.seen == old(emu.seen) + 1
      && emu.screens[old(emu.seen)].Window?
      && (Count(emu.trace, OnToken(Back)) > Count(old(emu.trace), OnToken(Back)) <==> emu.Shows(old(emu.seen), Back, Threshold))
    ensures r.Ok? ==> emu.trace == AfterPurchase(emu, old(emu.trace), old(emu.seen), final) && emu.seen == AfterPurchaseEnd(emu, old(emu.seen), final)
  {
    var start := emu.trace;
    if final {
      r := FinalFloor(emu);
    } else {
      var k := emu.seen;
      var left := ProbeBack(emu);
      if left.Halted? {
        return Halted(left.halt);
      }
      BackProbeGrowth(emu, start, start, emu.trace, k);
      r := Ok(());
    }
  }

  /** Everything handle_shop does between entering and leaving: buy, then
      either (not the final shop) probe for the back arrow, or (the final
      shop) run the refresh loop and, after two refreshes only, sweep the
      tags and probe for the back arrow. */
  method ShopFloor(emu: Emulator, final: bool) returns (r: Outcome<()>)
    requires emu.Valid()
    modifies emu
    ensures emu.Valid() && old(emu.seen) <= emu.seen && old(emu.trace) <= emu.trace
    ensures forall i :: |old(emu.trace)| <= i < |emu.trace| ==>
      InShop(emu, emu.trace, i) && emu.trace[i].target in FloorTargets
    ensures ShopCounts(old(emu.trace), emu.trace, final)
    ensures r.Ok? && !final ==>
      && PurchaseEnd(emu, old(emu.seen)) < |emu.screens| && emu.screens[PurchaseEnd(emu, old(emu.seen))].Window?
      && (Count(emu.trace, OnToken(Back)) > Count(old(emu.trace), OnToken(Back)) <==> emu.Shows(PurchaseEnd(emu, old(emu.seen)), Back, Threshold))
    ensures r.Ok? ==> emu.trace == FloorClicks(emu, old(emu.trace), old(emu.seen), final) && emu.seen == FloorEnd(emu, old(emu.seen), final)
  {
    var start := emu.trace;
    var bought := PurchaseItems(emu);
    ShopGrowth(emu, start, start, emu.trace, PurchaseTargets);
    if bought.Halted? {
      return Halted(bought.halt);
    }
    var before := emu.trace;
    r := FloorExit(emu, final);
    FloorJoin(emu, start, before, emu.trace);
    CountsShift(start, before, emu.trace, final);
  }

  /** A purchase loop followed by the steps after it keeps every click a
      shop click aimed at the shop floor. */
  lemma FloorJoin(emu: Emulator, start: seq<Action>, before: seq<Action>, after: seq<Action>)
    requires start <= before <= after
    requires forall i :: |start| <= i < |before| ==> InShop(emu, before, i)
    requires forall i :: |start| <= i < |before| ==> before[i].target in PurchaseTargets
    requires forall i :: |before| <= i < |after| ==> InShop(emu, after, i) && after[i].target in FloorTargets
    ensures forall i :: |start| <= i < |after| ==> InShop(emu, after, i) && after[i].target in FloorTargets
  {
    ShopGrowth(emu, start, before, after, FloorTargets);
    forall i | |start| <= i < |before| ensures after[i].target in FloorTargets {
      assert after[i] == before[i];
    }
  }

  /** A bubble click appended to a shop trace keeps it a shop trace, extends
      the bubble order by that bubble and moves no count but its own. */
  lemma BubbleGrowth(emu: Emulator, start: seq<Action>, before: seq<Action>, after: seq<Action>, a: Action)
    requires start <= before
    requires forall i :: |start| <= i < |before| ==> InShop(emu, before, i)
    requires a.target.Bubble? && after == before + [a]
    ensures start <= after
    ensures forall i :: |start| <= i < |after| ==> InShop(emu, after, i)
    ensures forall t :: t != a.target ==> Count(after, t) == Count(before, t)
    ensures Bubbles(after) == Bubbles(before) + [a.target.index]
  {
    ShopGrowth(emu, start, before, after, {a.target});
    BubblesSnoc(before, a);
  }

  /** The approach to a shop: the second bubble twice, then the first. */
  method ApproachShop(emu: Emulator) returns (r: Outcome<()>)
    requires emu.Valid()
    modifies emu
    ensures emu.Valid() && old(emu.seen) <= emu.seen && old(emu.trace) <= emu.trace
    ensures forall i :: |old(emu.trace)| <= i < |emu.trace| ==> emu.trace[i].target in {Bubble(0), Bubble(1)}
    ensures r.Ok? ==> Bubbles(emu.trace) == Bubbles(old(emu.trace)) + [1, 1, 0]
    ensures r.Ok? ==> |old(emu.trace)| < |emu.trace| && emu.trace[|emu.trace| - 1].target == Bubble(0)
  {
    ghost var t0 := emu.trace;
    var step :- ClickBubble(emu, 1);
    ghost var t1 := emu.trace;
    step :- ClickBubble(emu, 1);
    ghost var t2 := emu.trace;
    step :- ClickBubble(emu, 0);
    ApproachTally(t0, t1, t2, emu.trace);
    return Ok(());
  }

  /** The second bubble twice, then the first, add [1, 1, 0] to the bubble
      clicks and end on the first bubble. */
  lemma ApproachTally(t0: seq<Action>, t1: seq<Action>, t2: seq<Action>, t3: seq<Action>)
    requires |t1| == |t0| + 1 && t1[..|t0|] == t0 && t1[|t0|].target == Bubble(1)
    requires |t2| == |t1| + 1 && t2[..|t1|] == t1 && t2[|t1|].target == Bubble(1)
    requires |t3| == |t2| + 1 && t3[..|t2|] == t2 && t3[|t2|].target == Bubble(0)
    ensures Bubbles(t3) == Bubbles(t0) + [1, 1, 0]
    ensures t0 <= t3 && t3[|t3| - 1].target == Bubble(0)
    ensures forall i :: |t0| <= i < |t3| ==> t3[i].target in {Bubble(0), Bubble(1)}
  {
    assert Bubbles(t1) == Bubbles(t0) + [1];
    assert Bubbles(t2) == Bubbles(t1) + [1];
    assert Bubbles(t3) == Bubbles(t2) + [0];
    assert Bubbles(t0) + [1] + [1] + [0] == Bubbles(t0) + [1, 1, 0];
    forall i | |t0| <= i < |t3| ensures t3[i].target in {Bubble(0), Bubble(1)} {
      if i < |t2| {
        assert t3[i] == t2[i];
        if i < |t1| {
          assert t2[i] == t1[i];
        }
      }
    }
  }

  /** Floor clicks are among the clicks a shop can make once it has been
      left by the third bubble. */
  lemma FloorWithin(emu: Emulator, start: seq<Action>, floor: seq<Action>)
    requires forall i :: |start| <= i < |floor| ==> InShop(emu, floor, i) && floor[i].target in FloorTargets
    ensures forall i :: |start| <= i < |floor| ==> InShop(emu, floor, i) && floor[i].target in FloorTargets + {Bubble(2)}
    ensures AllWithin(floor, |start|, FloorTargets)
  {
  }

  /** The click on the third bubble after the shop floor keeps the trace a
      shop trace, adds 2 to the bubble order and moves no floor count. */
  lemma ExitGrowth(emu: Emulator, start: seq<Action>, floor: seq<Action>, after: seq<Action>, a: Action, final: bool)
    requires start <= floor
    requires forall i :: |start| <= i < |floor| ==> InShop(emu, floor, i) && floor[i].target in FloorTargets
    requires ShopCounts(start, floor, final)
    requires a.target == Bubble(2) && after == floor + [a]
    ensures forall i :: |start| <= i < |after| ==> InShop(emu, after, i) && after[i].target in FloorTargets + {Bubble(2)}
    ensures ShopCounts(start, after, final)
    ensures Bubbles(after) == Bubbles(start) + [2]
    ensures start <= floor <= after && AllWithin(floor, |start|, FloorTargets)
  {
    FloorWithin(emu, start, floor);
    ShopGrowth(emu, start, start, floor, FloorTargets);
    BubbleGrowth(emu, start, floor, after, a);
  }

  /** The shop floor and the way out: everything handle_shop does after the
      approach, ending on the third bubble. */
  method LeaveShop(emu: Emulator, final: bool) returns (r: Outcome<()>, ghost floor: seq<Action>, ghost exit: Action)
    requires emu.Valid()
    modifies emu
    ensures emu.Valid() && old(emu.seen) <= emu.seen && old(emu.trace) <= emu.trace
    ensures forall i :: |old(emu.trace)| <= i < |emu.trace| ==>
      InShop(emu, emu.trace, i) && emu.trace[i].target in FloorTargets + {Bubble(2)}
    ensures r.Ok? ==> Bubbles(emu.trace) == Bubbles(old(emu.trace)) + [2]
    ensures r.Ok? ==>
      && old(emu.trace) <= floor && emu.trace == floor + [exit]
      && AllWithin(floor, |old(emu.trace)|, FloorTargets)
      && exit.target == Bubble(2)
    ensures ShopCounts(old(emu.trace), emu.trace, final)
    ensures r.Ok? ==>
      && floor == FloorClicks(emu, old(emu.trace), old(emu.seen), final)
      && emu.seen == FloorEnd(emu, old(emu.seen), final) + 1
      && emu.screens[FloorEnd(emu, old(emu.seen), final)].Window?
      && exit == Click(Bubble(2), BubblePoint(emu.RectAt(FloorEnd(emu, old(emu.seen), final)), 2), FloorEnd(emu, old(emu.seen), final))
  {
    var start := emu.trace;
    exit := Click(Bubble(2), Point(0, 0), 0);
    var worked := ShopFloor(emu, final);
    floor := emu.trace;
    FloorWithin(emu, start, floor);
    if worked.Halted? {
      return Halted(worked.halt), floor, exit;
    }
    var left := ClickBubble(emu, 2);
    if left.Halted? {
      return Halted(left.halt), floor, exit;
    }
    exit := emu.trace[|floor|];
    ExitGrowth(emu, start, floor, emu.trace, exit, final);
    return Ok(()), floor, exit;
  }

  /** An approach by the bubbles followed by the rest of a shop keeps every
      click a shop click and leaves the counts as the rest made them. */
  lemma ShopTally(emu: Emulator, t0: seq<Action>, t1: seq<Action>, t2: seq<Action>, final: bool)
    requires t0 <= t1 <= t2
    requires forall i :: |t0| <= i < |t1| ==> t1[i].target in {Bubble(0), Bubble(1)}
    requires forall i :: |t1| <= i < |t2| ==> InShop(emu, t2, i)
    requires ShopCounts(t1, t2, final)
    ensures forall i :: |t0| <= i < |t2| ==> InShop(emu, t2, i)
    ensures ShopCounts(t0, t2, final)
  {
    forall i | |t0| <= i < |t1| ensures InShop(emu, t1, i) {
    }
    ShopGrowth(emu, t0, t0, t1, {Bubble(0), Bubble(1)});
    forall i | |t0| <= i < |t1| ensures InShop(emu, t2, i) {
      StepKept(emu, t1, t2[|t1|..], i);
      assert t1 + t2[|t1|..] == t2;
    }
  }

  /** handle_shop: enter by the bubbles, work the shop floor, then pick the
      third bubble to leave. The refresh button is clicked only in the final
      shop and at most twice there; the tags are swept and the back arrow
      clicked there after two refreshes only. `entered` is where the floor
      begins: the whole approach comes before every floor click. */
  method HandleShop(emu: Emulator, final: bool) returns (r: Outcome<()>, ghost entered: nat)
    requires emu.Valid()
    modifies emu
    ensures emu.Valid() && old(emu.seen) <= emu.seen && old(emu.trace) <= emu.trace
    ensures forall i :: |old(emu.trace)| <= i < |emu.trace| ==> InShop(emu, emu.trace, i)
    ensures r.Ok? ==> Bubbles(emu.trace) == Bubbles(old(emu.trace)) + [1, 1, 0, 2]
    ensures r.Ok? ==> Visit(old(emu.trace), emu.trace, entered, {Bubble(0), Bubble(1)}, FloorTargets)
    ensures r.Ok? ==> emu.trace[|emu.trace| - 1].target == Bubble(2)
    ensures ShopCounts(old(emu.trace), emu.trace, final)
  {
    var start := emu.trace;
    r := ApproachShop(emu);
    entered := |emu.trace|;
    var inside := emu.trace;
    ghost var floor, exit := inside, Click(Bubble(2), Point(0, 0), 0);
    if r.Ok? {
      r, floor, exit := LeaveShop(emu, final);
    }
    ShopTally(emu, start, inside, emu.trace, final);
    if r.Ok? {
      assert [1, 1, 0] + [2] == [1, 1, 0, 2];
      VisitAssembled(start, inside, floor, exit, emu.trace, {Bubble(0), Bubble(1)}, FloorTargets);
    }
  }

  /** The shop branch of main_loop with `shops` shops behind it: the visit
      is the final one when it is the last the loop allows. */
  method ShopTurn(emu: Emulator, shops: nat) returns (r: Outcome<()>)
    requires emu.Valid()
    modifies emu
    ensures emu.Valid() && old(emu.seen) <= emu.seen && old(emu.trace) <= emu.trace
    ensures r.Ok? ==> Bubbles(emu.trace) == Bubbles(old(emu.trace)) + [1, 1, 0, 2]
    ensures Count(emu.trace, OnToken(Refresh)) <= Count(old(emu.trace), OnToken(Refresh)) + (if shops == MaxShops - 1 then 2 else 0)
  {
    var final := shops == MaxShops - 1;
    ghost var entered;
    r, entered := HandleShop(emu, final);
  }

  /** The dialog branch of main_loop: one dialog click, on no bubble and not
      on the refresh button. */
  method DialogTurn(emu: Emulator) returns (r: Outcome<()>)
    requires emu.Valid()
    modifies emu
    ensures emu.Valid() && old(emu.seen) <= emu.seen && old(emu.trace) <= emu.trace
    ensures r.Ok? ==> |emu.trace| == |old(emu.trace)| + 1 && emu.trace[|old(emu.trace)|].target in DialogTargets
    ensures Bubbles(emu.trace) == Bubbles(old(emu.trace))
    ensures Count(emu.trace, OnToken(Refresh)) == Count(old(emu.trace), OnToken(Refresh))
  {
    r := SelectChoiceOrFirst(emu);
    assert AllWithin(emu.trace, |old(emu.trace)|, DialogTargets);
    CountKept(old(emu.trace), emu.trace, DialogTargets, OnToken(Refresh));
    BubblesKept(old(emu.trace), emu.trace, DialogTargets);
  }

  /** What one pass of the main loop did after its burst. */
  datatype Turn = Saved | Shopped | Chose | Idled

  /** The main loop's choice on detection capture `d` with `shops` shops
      behind it: the save button wins; then a shop notice while fewer than
      MaxShops shops were entered; then a thumbs-up or tag icon; else nothing. */
  ghost predicate Dispatched(emu: Emulator, d: int, shops: nat, turn: Turn)
  {
    && 0 <= d < |emu.screens| && emu.screens[d].Window?
    && match turn
       case Saved => emu.Shows(d, Save, Threshold)
       case Shopped =>
         emu.Lacks(d, Save, Threshold) && emu.Shows(d, EnterShop, Threshold) && shops < MaxShops
       case Chose =>
         && emu.Lacks(d, Save, Threshold)
         && !(emu.Shows(d, EnterShop, Threshold) && shops < MaxShops)
         && (emu.Shows(d, Choice, Threshold) || emu.Shows(d, Tag, Threshold))
       case Idled =>
         && emu.Lacks(d, Save, Threshold)
         && !(emu.Shows(d, EnterShop, Threshold) && shops < MaxShops)
         && emu.Lacks(d, Choice, Threshold) && emu.Lacks(d, Tag, Threshold)
  }

  /** Every detection capture selects exactly one branch of the main loop. */
  lemma DispatchIsAFunction(emu: Emulator, d: int, shops: nat)
    requires 0 <= d < |emu.screens| && emu.screens[d].Window?
    ensures exists turn :: Dispatched(emu, d, shops, turn)
    ensures forall t1, t2 :: Dispatched(emu, d, shops, t1) && Dispatched(emu, d, shops, t2) ==> t1 == t2
  {
    if emu.Shows(d, Save, Threshold) {
      assert Dispatched(emu, d, shops, Saved);
    } else if emu.Shows(d, EnterShop, Threshold) && shops < MaxShops {
      assert Dispatched(emu, d, shops, Shopped);
    } else if emu.Shows(d, Choice, Threshold) || emu.Shows(d, Tag, Threshold) {
      assert Dispatched(emu, d, shops, Chose);
    } else {
      assert Dispatched(emu, d, shops, Idled);
    }
  }

  /** The second half of a pass of main_loop: one detection capture and the
      branch it selects. */
  method Respond(emu: Emulator, shops: nat) returns (r: Outcome<Turn>)
    requires emu.Valid()
    modifies emu
    ensures emu.Valid() && old(emu.seen) <= emu.seen && old(emu.trace) <= emu.trace
    ensures r.Ok? ==> old(emu.seen) < emu.seen && Dispatched(emu, old(emu.seen), shops, r.value)
    ensures r == Ok(Saved) ==> emu.trace == old(emu.trace) + [emu.TokenClick(old(emu.seen), Save, Threshold)]
    ensures r == Ok(Idled) ==> emu.trace == old(emu.trace)
    ensures r == Ok(Chose) ==>
      |emu.trace| == |old(emu.trace)| + 1 && emu.trace[|old(emu.trace)|].target in DialogTargets
    ensures r.Ok? ==> Bubbles(emu.trace) == Bubbles(old(emu.trace)) + (if r.value == Shopped then [1, 1, 0, 2] else [])
    ensures Count(emu.trace, OnToken(Refresh)) <= Count(old(emu.trace), OnToken(Refresh)) + (if shops == MaxShops - 1 then 2 else 0)
    ensures r.Ok? && r.value != Shopped ==> Count(emu.trace, OnToken(Refresh)) == Count(old(emu.trace), OnToken(Refresh))
  {
    var f :- emu.Capture();
    var save := emu.Locate(f, Save, Threshold);
    var shop := emu.Locate(f, EnterShop, Threshold);
    var choice := emu.Locate(f, Choice, Threshold);
    var tag := emu.Locate(f, Tag, Threshold);
    var turn :=
      if save.Some? then Saved
      else if shop.Some? && shops < MaxShops then Shopped
      else if choice.Some? || tag.Some? then Chose
      else Idled;
    assert Dispatched(emu, old(emu.seen), shops, turn);
    r := Ok(turn);
    if turn == Saved {
      emu.Press(OnToken(Save), Absolute(f.rect, save.value));
      CountKept(old(emu.trace), emu.trace, {OnToken(Save)}, OnToken(Refresh));
      BubblesKept(old(emu.trace), emu.trace, {OnToken(Save)});
    } else if turn == Shopped {
      var done := ShopTurn(emu, shops);
      if done.Halted? {
        r := Halted(done.halt);
      }
    } else if turn == Chose {
      var chose := DialogTurn(emu);
      if chose.Halted? {
        r := Halted(chose.halt);
      }
    }
  }

  /** One pass of main_loop: the burst, then the detection capture and the
      branch it selects. The refresh button can only be clicked in the shop
      entered with three shops behind. */
  method Iteration(emu: Emulator, shops: nat) returns (r: Outcome<Turn>)
    requires emu.Valid()
    modifies emu
    ensures emu.Valid() && old(emu.seen) <= emu.seen && old(emu.trace) <= emu.trace
    ensures r.Ok? ==>
      && old(emu.seen) + 2 <= emu.seen
      && Dispatched(emu, old(emu.seen) + 1, shops, r.value)
      && |old(emu.trace)| < |emu.trace|
      && emu.screens[old(emu.seen)].Window?
      && emu.trace[|old(emu.trace)|] == Click(FastForward, LeftEdge(emu.RectAt(old(emu.seen))), old(emu.seen))
    ensures r == Ok(Saved) ==>
      emu.trace == old(emu.trace) + [emu.trace[|old(emu.trace)|], emu.TokenClick(old(emu.seen) + 1, Save, Threshold)]
    ensures r == Ok(Saved) ==> emu.ClickedOn(emu.trace[|emu.trace| - 1], Save, Threshold)
    ensures r == Ok(Idled) ==> |emu.trace| == |old(emu.trace)| + 1
    ensures r == Ok(Chose) ==>
      |emu.trace| == |old(emu.trace)| + 2 && emu.trace[|old(emu.trace)| + 1].target in DialogTargets
    ensures r.Ok? ==> Bubbles(emu.trace) == Bubbles(old(emu.trace)) + (if r.value == Shopped then [1, 1, 0, 2] else [])
    ensures Count(emu.trace, OnToken(Refresh)) <= Count(old(emu.trace), OnToken(Refresh)) + (if shops == MaxShops - 1 then 2 else 0)
    ensures r.Ok? && r.value != Shopped ==> Count(emu.trace, OnToken(Refresh)) == Count(old(emu.trace), OnToken(Refresh))
  {
    var burst :- ContinuousFastClick(emu);
    var afterBurst := emu.trace;
    GrowthWithin(old(emu.trace), afterBurst, {FastForward});
    r := Respond(emu, shops);
    PrefixSplit(afterBurst, emu.trace);
  }

  /** The entry buttons of a run, quick start, next and start battle, each
      waited for up to sixty seconds; a timeout is ignored and the next
      button awaited. */
  method EnterRun(emu: Emulator) returns (r: Outcome<()>)
    requires emu.Valid()
    modifies emu
    ensures emu.Valid() && old(emu.trace) <= emu.trace
    ensures QuickStart !in emu.templates ==> r == Halted(TemplateMissing(QuickStart)) && emu.trace == old(emu.trace)
    ensures r.Ok? ==> QuickStart in emu.templates && Next in emu.templates && StartBattle in emu.templates
    ensures |emu.trace| <= |old(emu.trace)| + 3
    ensures forall i :: |old(emu.trace)| <= i < |emu.trace| ==>
      emu.trace[i].target in {OnToken(QuickStart), OnToken(Next), OnToken(StartBattle)}
    ensures forall i :: |old(emu.trace)| <= i < |emu.trace| ==>
      emu.trace[i].target.OnToken? && emu.ClickedOn(emu.trace[i], emu.trace[i].target.token, Threshold)
  {
    var entered :- WaitAndClick(emu, QuickStart, EntryPolls, Threshold);
    entered :- WaitAndClick(emu, Next, EntryPolls, Threshold);
    entered :- WaitAndClick(emu, StartBattle, EntryPolls, Threshold);
    return Ok(());
  }

  /** The passes of main_loop after the entry buttons, until one clicks the
      save button. At most MaxShops shops are entered, each with the shop's
      bubble order, and the refresh button is clicked at most twice. */
  method RunPasses(emu: Emulator) returns (r: Outcome<()>, ghost shops: nat)
    requires emu.Valid()
    modifies emu
    ensures emu.Valid() && old(emu.trace) <= emu.trace
    ensures Count(emu.trace, OnToken(Refresh)) <= Count(old(emu.trace), OnToken(Refresh)) + 2
    ensures r.Ok? ==> shops <= MaxShops && Bubbles(emu.trace) == Bubbles(old(emu.trace)) + Visits(shops)
    ensures r.Ok? ==> |old(emu.trace)| < |emu.trace| && emu.ClickedOn(emu.trace[|emu.trace| - 1], Save, Threshold)
  {
    shops := 0;
    var shopCounter := 0;
    while true
      invariant emu.Valid() && old(emu.trace) <= emu.trace && shops == shopCounter <= MaxShops
      invariant Bubbles(emu.trace) == Bubbles(old(emu.trace)) + Visits(shops)
      invariant Count(emu.trace, OnToken(Refresh)) <= Count(old(emu.trace), OnToken(Refresh)) + (if shops == MaxShops then 2 else 0)
      decreases |emu.screens| - emu.seen
    {
      var turn :- CountedIteration(emu, shopCounter, old(emu.trace));
      if turn == Saved {
        return Ok(()), shops;
      }
      if turn == Shopped {
        shopCounter := shopCounter + 1;
        shops := shopCounter;
      }
    }
  }

  /** One pass of main_loop with `shops` shops behind it, in a run that
      began with the trace `t0`: the pass keeps the run's bubble order a
      whole number of visits and the refresh clicks within the final shop's
      two. */
  method CountedIteration(emu: Emulator, shops: nat, ghost t0: seq<Action>) returns (r: Outcome<Turn>)
    requires emu.Valid() && shops <= MaxShops && t0 <= emu.trace
    requires Bubbles(emu.trace) == Bubbles(t0) + Visits(shops)
    requires Count(emu.trace, OnToken(Refresh)) <= Count(t0, OnToken(Refresh)) + (if shops == MaxShops then 2 else 0)
    modifies emu
    ensures emu.Valid() && old(emu.seen) <= emu.seen && t0 <= emu.trace
    ensures Count(emu.trace, OnToken(Refresh)) <= Count(t0, OnToken(Refresh)) + 2
    ensures r == Ok(Shopped) ==> shops < MaxShops
    ensures r.Ok? ==>
      var next := if r.value == Shopped then shops + 1 else shops;
      && old(emu.seen) < emu.seen
      && Bubbles(emu.trace) == Bubbles(t0) + Visits(next)
      && Count(emu.trace, OnToken(Refresh)) <= Count(t0, OnToken(Refresh)) + (if next == MaxShops then 2 else 0)
    ensures r == Ok(Saved) ==> |t0| < |emu.trace| && emu.ClickedOn(emu.trace[|emu.trace| - 1], Save, Threshold)
  {
    ghost var t1 := emu.trace;
    r := Iteration(emu, shops);
    PassCounted(t0, t1, emu.trace, shops, r);
  }

  /** One more pass keeps the run's bubble order a whole number of visits
      and the refresh clicks within the final shop's two. */
  lemma PassCounted(t0: seq<Action>, t1: seq<Action>, t2: seq<Action>, shops: nat, r: Outcome<Turn>)
    requires shops <= MaxShops && (r == Ok(Shopped) ==> shops < MaxShops)
    requires Bubbles(t1) == Bubbles(t0) + Visits(shops)
    requires Count(t1, OnToken(Refresh)) <= Count(t0, OnToken(Refresh)) + (if shops == MaxShops then 2 else 0)
    requires r.Ok? ==> Bubbles(t2) == Bubbles(t1) + (if r.value == Shopped then [1, 1, 0, 2] else [])
    requires Count(t2, OnToken(Refresh)) <= Count(t1, OnToken(Refresh)) + (if shops == MaxShops - 1 then 2 else 0)
    requires r.Ok? && r.value != Shopped ==> Count(t2, OnToken(Refresh)) == Count(t1, OnToken(Refresh))
    ensures Count(t2, OnToken(Refresh)) <= Count(t0, OnToken(Refresh)) + 2
    ensures r.Ok? ==>
      var next := if r.value == Shopped then shops + 1 else shops;
      && Bubbles(t2) == Bubbles(t0) + Visits(next)
      && Count(t2, OnToken(Refresh)) <= Count(t0, OnToken(Refresh)) + (if next == MaxShops then 2 else 0)
  {
    if r == Ok(Shopped) {
      assert Visits(shops + 1) == Visits(shops) + [1, 1, 0, 2];
    }
  }

  /** main_loop: enter the run, then run passes until one clicks the save
      button. At most MaxShops shops are entered, each with the shop's bubble
      order, and the refresh button is clicked at most twice in the whole
      run, however it ends. */
  method MainLoop(emu: Emulator) returns (r: Outcome<()>, ghost shops: nat)
    requires emu.Valid()
    modifies emu
    ensures emu.Valid() && old(emu.trace) <= emu.trace
    ensures QuickStart !in emu.templates ==> r == Halted(TemplateMissing(QuickStart)) && emu.trace == old(emu.trace)
    ensures Count(emu.trace, OnToken(Refresh)) <= Count(old(emu.trace), OnToken(Refresh)) + 2
    ensures r.Ok? ==> shops <= MaxShops && Bubbles(emu.trace) == Bubbles(old(emu.trace)) + Visits(shops)
    ensures r.Ok? ==>
      && |old(emu.trace)| < |emu.trace|
      && emu.ClickedOn(emu.trace[|emu.trace| - 1], Save, Threshold)
  {
    shops := 0;
    var entered := EnterRun(emu);
    GrowthWithin(old(emu.trace), emu.trace, {OnToken(QuickStart), OnToken(Next), OnToken(StartBattle)});
    if entered.Halted? {
      return Halted(entered.halt), shops;
    }
    r, shops := RunPasses(emu);
  }
}

=== FILE: auto_tower_test.dfy ===
/** The controller of auto_tower_test.py: the revision with hotkeys, the
    select-and-confirm dialogs, purchases of every matching item and reward
    claiming. Every capture, and some clicks, first pass
    check_pause_and_running. */
module AutoTowerTest {
  import opened Common
  import opened Matching
  import opened MultiMatch
  import opened Host
  import opened Hotkeys

  /** IMAGE_MATCH_THRESHOLD, also passed explicitly as 0.8. */
  const Threshold: real := 0.8

  /** The looser threshold used for the select and select_confirm icons. */
  const SelectThreshold: real := 0.7

  /** max_shops in main_loop. */
  const MaxShops: nat := 4

  /** The 60-second waits for the entry buttons, at one capture per half second. */
  const EntryPolls: nat := 120

  /** The 3-second wait for the confirm button of a selection, at 0.2 s a poll. */
  const ConfirmPolls: nat := 15

  /** The 6-second wait for a reward to claim, at 0.2 s a poll. */
  const ThumbPolls: nat := 30

  /** Heights of the three dialog bubbles as percentages of the window height. */
  const BubbleRows: seq<nat> := [40, 60, 80]

  /** Distance of the dialog bubbles from the window's left edge. */
  const BubbleColumn: int := 500

  /** The blind dialog click lies this percentage of the width in. */
  const FallbackShare: nat := 20

  /** The buttons whose waits the skip hotkey cuts short. */
  const InitialButtons: set<Token> := {QuickStart, Next, StartBattle}

  /** What claiming a reward can click. */
  const ThumbTargets: set<Target> := {OnToken(Select), OnToken(SelectConfirm), Blank}

  /** What select_choice_or_first can click. */
  const DialogTargets: set<Target> := {OnToken(Select), OnToken(SelectConfirm), OnToken(Choice), Fallback}

  /** What one purchase pass over `item` can click. */
  function BuyTargets(item: Token, claim: bool): set<Target>
  {
    {OnToken(item), OnToken(Buy), OnToken(Confirm), Blank} + (if claim then ThumbTargets else {})
  }

  /** What purchase_items can click. */
  const PurchaseTargets: set<Target> :=
    {OnToken(Note), OnToken(Hundred), OnToken(Buy), OnToken(Confirm), Blank, OnToken(Select), OnToken(SelectConfirm)}

  /** What purchase_items and the refresh loop can click. */
  const RestockTargets: set<Target> := PurchaseTargets + {OnToken(Refresh)}

  /** What the clicks on the shop floor can be aimed at. */
  const FloorTargets: set<Target> := RestockTargets + {OnToken(Tag), OnToken(Back)}

  /** What the approach to a shop can click. */
  const ApproachTargets: set<Target> := {Bubble(0), Bubble(1), OnToken(Select), OnToken(SelectConfirm), Blank}

  /** How the sets of click targets nest, and what they leave out. */
  lemma TargetSets()
    ensures BuyTargets(Note, false) <= PurchaseTargets && BuyTargets(Hundred, true) <= PurchaseTargets
    ensures PurchaseTargets <= RestockTargets <= FloorTargets && ThumbTargets <= ApproachTargets
    ensures OnToken(Refresh) in RestockTargets && OnToken(Tag) in FloorTargets && OnToken(Back) in FloorTargets
    ensures OnToken(Refresh) !in PurchaseTargets && OnToken(Tag) !in RestockTargets && OnToken(Back) !in RestockTargets
    ensures forall t :: t in FloorTargets ==> !t.Bubble?
    ensures forall t :: t in ThumbTargets ==> !t.Bubble?
    ensures OnToken(Refresh) !in ApproachTargets && OnToken(Tag) !in ApproachTargets && OnToken(Back) !in ApproachTargets
  {
  }

  /** The screen point click_bubble uses for bubble `index` of window `r`. */
  function BubblePoint(r: Rect, index: nat): (p: Point)
    requires index < |BubbleRows|
    ensures p.x == r.left + BubbleColumn
  {
    Point(r.left + BubbleColumn, r.top + Percent(r.height, BubbleRows[index]))
  }

  /** The bubbles lie inside the window, first to third from top to bottom. */
  lemma BubblesStackDownward(r: Rect)
    requires r.height >= 0
    ensures r.top <= BubblePoint(r, 0).y <= BubblePoint(r, 1).y <= BubblePoint(r, 2).y <= r.top + r.height
  {
    PercentMonotone(r.height, 40, 60);
    PercentMonotone(r.height, 60, 80);
  }

  /** The blind dialog click: left + int(width * 0.2), top + height // 2. */
  function FallbackPoint(r: Rect): (p: Point)
    ensures r.width >= 0 && r.height >= 0 ==>
      r.left <= p.x <= r.left + r.width && r.top <= p.y <= r.top + r.height
  {
    var p := Point(r.left + Percent(r.width, FallbackShare), r.top + r.height / 2);
    if r.width >= 0 then PercentMonotone(r.width, FallbackShare, 100); p else p
  }

  /** The clicks of one reward claim: none; the select icon alone; or the
      select icon, the confirm icon and the blank strip of the confirm's
      capture. */
  ghost predicate ThumbShape(emu: Emulator, s: seq<Action>)
  {
    || s == []
    || (|s| == 1 && emu.ClickedOn(s[0], Select, SelectThreshold))
    || (&& |s| == 3
        && emu.ClickedOn(s[0], Select, SelectThreshold)
        && emu.ClickedOn(s[1], SelectConfirm, SelectThreshold)
        && s[0].capture < s[1].capture
        && s[2] == Click(Blank, LeftEdge(emu.RectAt(s[1].capture)), s[1].capture))
  }

  /** check_pause_and_running as the controller relies on it: a stop request
      already made ends the run, a pass leaves the run going and unpaused, and
      a skip request is never withdrawn. */
  method CheckPoint(keys: Flags) returns (r: Outcome<()>)
    requires keys.Valid()
    modifies keys
    ensures keys.Valid()
    ensures old(keys.skipInitial) ==> keys.skipInitial
    ensures !old(keys.running) ==> r == Halted(StopRequested)
    ensures r.Ok? ==> keys.running && !keys.paused
  {
    r := keys.CheckPauseAndRunning();
  }

  /** capture_emulator of this revision: the check point, then the capture. */
  method Capture(emu: Emulator, keys: Flags) returns (r: Outcome<Frame>)
    requires emu.Valid() && keys.Valid()
    modifies emu`seen, keys
    ensures emu.Valid() && keys.Valid() && old(emu.seen) <= emu.seen <= old(emu.seen) + 1
    ensures old(keys.skipInitial) ==> keys.skipInitial
    ensures !old(keys.running) ==> r == Halted(StopRequested) && emu.seen == old(emu.seen)
    ensures r.Ok? ==>
      && keys.running && !keys.paused
      && emu.seen == old(emu.seen) + 1
      && emu.screens[emu.seen - 1] == Window(r.value)
  {
    var go :- CheckPoint(keys);
    r := emu.Capture();
  }

  /** click_blank: the check point, then a click on the blank strip near the
      left edge of `rect`, the window of the latest capture. */
  method ClickBlank(emu: Emulator, keys: Flags, rect: Rect) returns (r: Outcome<()>)
    requires emu.Valid() && keys.Valid() && 0 < emu.seen && emu.screens[emu.seen - 1].Window?
    modifies emu`trace, keys
    ensures keys.Valid()
    ensures old(keys.skipInitial) ==> keys.skipInitial
    ensures r.Halted? ==> emu.trace == old(emu.trace)
    ensures r.Ok? ==> emu.trace == old(emu.trace) + [Click(Blank, LeftEdge(rect), emu.seen - 1)]
  {
    var go :- CheckPoint(keys);
    emu.Press(Blank, LeftEdge(rect));
    return Ok(());
  }

  /** click_relative of this revision: the check point, then a click at an
      offset from the corner of `rect`, the window of the latest capture. */
  method ClickRelative(emu: Emulator, keys: Flags, dx: int, dy: int, rect: Rect, target: Target) returns (r: Outcome<()>)
    requires emu.Valid() && keys.Valid() && 0 < emu.seen && emu.screens[emu.seen - 1].Window?
    modifies emu`trace, keys
    ensures keys.Valid()
    ensures old(keys.skipInitial) ==> keys.skipInitial
    ensures r.Halted? ==> emu.trace == old(emu.trace)
    ensures r.Ok? ==> emu.trace == old(emu.trace) + [Click(target, Point(rect.left + dx, rect.top + dy), emu.seen - 1)]
  {
    var go :- CheckPoint(keys);
    emu.Press(target, Point(rect.left + dx, rect.top + dy));
    return Ok(());
  }

  /** wait_and_click of this revision: like the original, but each poll
      passes the check point first, and for an entry button a skip request
      ends the wait at once with Ok(false) and no capture. */
  method WaitAndClick(emu: Emulator, keys: Flags, name: Token, polls: nat, threshold: real) returns (r: Outcome<bool>)
    requires emu.Valid() && keys.Valid()
    modifies emu, keys
    ensures emu.Valid() && keys.Valid() && old(emu.seen) <= emu.seen
    ensures old(keys.skipInitial) ==> keys.skipInitial
    ensures name !in emu.templates ==>
      r == Halted(TemplateMissing(name)) && emu.seen == old(emu.seen) && emu.trace == old(emu.trace)
    ensures name in emu.templates && 0 < polls && !old(keys.running) ==>
      r == Halted(StopRequested) && emu.trace == old(emu.trace)
    ensures name in InitialButtons && old(keys.skipInitial) && r.Ok? ==>
      r == Ok(false) && emu.seen == old(emu.seen) && emu.trace == old(emu.trace)
    ensures r != Ok(true) ==> emu.trace == old(emu.trace)
    ensures r == Ok(true) ==>
      && old(emu.seen) < emu.seen
      && emu.Shows(emu.seen - 1, name, threshold)
      && emu.trace == old(emu.trace) + [emu.TokenClick(emu.seen - 1, name, threshold)]
    ensures r.Ok? ==>
      forall k :: old(emu.seen) <= k < emu.seen - (if r.value then 1 else 0) ==> emu.Lacks(k, name, threshold)
    ensures name in emu.templates && name !in InitialButtons && r == Ok(false) ==>
      emu.seen == old(emu.seen) + polls
  {
    if name !in emu.templates {
      return Halted(TemplateMissing(name));
    }
    var initial := name in InitialButtons;
    var i := 0;
    while i < polls
      invariant 0 <= i <= polls
      invariant emu.Valid() && keys.Valid() && old(emu.seen) <= emu.seen && emu.trace == old(emu.trace)
      invariant old(keys.skipInitial) ==> keys.skipInitial
      invariant i == 0 ==> emu.seen == old(emu.seen) && keys.running == old(keys.running)
      invariant old(keys.skipInitial) && initial ==> i == 0
      invariant !old(keys.running) ==> i == 0
      invariant !initial ==> emu.seen == old(emu.seen) + i
      invariant forall k :: old(emu.seen) <= k < emu.seen ==> emu.Lacks(k, name, threshold)
    {
      var go :- CheckPoint(keys);
      if initial && keys.skipInitial {
        return Ok(false);
      }
      var f :- Capture(emu, keys);
      var pos := emu.Locate(f, name, threshold);
      if pos.Some? {
        emu.Press(OnToken(name), Absolute(f.rect, pos.value));
        return Ok(true);
      }
      i := i + 1;
    }
    return Ok(false);
  }

  /** continuous_fast_click of this revision: one capture fixes the point ten
      pixels inside the left edge at half height; the burst passes the check
      point and clicks there. */
  method ContinuousFastClick(emu: Emulator, keys: Flags) returns (r: Outcome<()>)
    requires emu.Valid() && keys.Valid()
    modifies emu, keys
    ensures emu.Valid() && keys.Valid() && old(emu.seen) <= emu.seen
    ensures old(keys.skipInitial) ==> keys.skipInitial
    ensures r.Halted? ==> emu.trace == old(emu.trace)
    ensures r.Ok? ==>
      && emu.seen == old(emu.seen) + 1
      && emu.screens[old(emu.seen)].Window?
      && emu.trace == old(emu.trace) + [Click(FastForward, LeftEdge(emu.RectAt(old(emu.seen))), old(emu.seen))]
  {
    var f :- Capture(emu, keys);
    var go :- CheckPoint(keys);
    emu.Press(FastForward, LeftEdge(f.rect));
    return Ok(());
  }

  /** The wait for the confirm button of a selection: up to ConfirmPolls
      polls, each a check point and a capture; the first capture that shows
      the button gets its click. Ok(b) tells whether it was clicked. */
  method ConfirmSelection(emu: Emulator, keys: Flags) returns (r: Outcome<bool>)
    requires emu.Valid() && keys.Valid()
    modifies emu, keys
    ensures emu.Valid() && keys.Valid() && old(emu.seen) <= emu.seen
    ensures old(keys.skipInitial) ==> keys.skipInitial
    ensures r != Ok(true) ==> emu.trace == old(emu.trace)
    ensures r == Ok(true) ==>
      && old(emu.seen) < emu.seen
      && emu.seen <= old(emu.seen) + ConfirmPolls
      && emu.Shows(emu.seen - 1, SelectConfirm, SelectThreshold)
      && emu.trace == old(emu.trace) + [emu.TokenClick(emu.seen - 1, SelectConfirm, SelectThreshold)]
    ensures r.Ok? ==>
      forall k :: old(emu.seen) <= k < emu.seen - (if r.value then 1 else 0) ==> emu.Lacks(k, SelectConfirm, SelectThreshold)
    ensures r == Ok(false) ==> emu.seen == old(emu.seen) + ConfirmPolls
  {
    var i := 0;
    while i < ConfirmPolls
      invariant 0 <= i <= ConfirmPolls
      invariant emu.Valid() && keys.Valid() && emu.seen == old(emu.seen) + i && emu.trace == old(emu.trace)
      invariant old(keys.skipInitial) ==> keys.skipInitial
      invariant forall k :: old(emu.seen) <= k < emu.seen ==> emu.Lacks(k, SelectConfirm, SelectThreshold)
    {
      var go :- CheckPoint(keys);
      var f :- Capture(emu, keys);
      var pos := emu.Locate(f, SelectConfirm, SelectThreshold);
      if pos.Some? {
        emu.Press(OnToken(SelectConfirm), Absolute(f.rect, pos.value));
        return Ok(true);
      }
      i := i + 1;
    }
    return Ok(false);
  }

  /** select_choice_or_first of this revision: one capture, then the select
      icon (at the looser threshold) followed by the wait for its confirm
      button; otherwise the thumbs-up; otherwise a blind click a fifth of the
      width in, half way down. */
  method SelectChoiceOrFirst(emu: Emulator, keys: Flags) returns (r: Outcome<()>)
    requires emu.Valid() && keys.Valid()
    modifies emu, keys
    ensures emu.Valid() && keys.Valid() && old(emu.seen) <= emu.seen && old(emu.trace) <= emu.trace
    ensures old(keys.skipInitial) ==> keys.skipInitial
    ensures forall i :: |old(emu.trace)| <= i < |emu.trace| ==> emu.trace[i].target in DialogTargets
    ensures r.Ok? ==>
      && old(emu.seen) < emu.seen
      && emu.screens[old(emu.seen)].Window?
      && |old(emu.trace)| < |emu.trace|
    ensures r.Ok? ==>
      var k, a := old(emu.seen), emu.trace[|old(emu.trace)|];
      && (emu.Shows(k, Select, SelectThreshold) ==>
            && a == emu.TokenClick(k, Select, SelectThreshold)
            && |emu.trace| <= |old(emu.trace)| + 2
            && (|emu.trace| == |old(emu.trace)| + 2 ==>
                  emu.ClickedOn(emu.trace[|old(emu.trace)| + 1], SelectConfirm, SelectThreshold)))
      && (emu.Lacks(k, Select, SelectThreshold) && emu.Shows(k, Choice, Threshold) ==>
            emu.trace == old(emu.trace) + [emu.TokenClick(k, Choice, Threshold)])
      && (emu.Lacks(k, Select, SelectThreshold) && emu.Lacks(k, Choice, Threshold) ==>
            emu.trace == old(emu.trace) + [Click(Fallback, FallbackPoint(emu.RectAt(k)), k)])
  {
    var f :- Capture(emu, keys);
    var go :- CheckPoint(keys);
    var pos := emu.Locate(f, Select, SelectThreshold);
    if pos.Some? {
      emu.Press(OnToken(Select), Absolute(f.rect, pos.value));
      var clicked := emu.trace;
      var confirmed :- ConfirmSelection(emu, keys);
      return Ok(());
    }
    pos := emu.Locate(f, Choice, Threshold);
    if pos.Some? {
      emu.Press(OnToken(Choice), Absolute(f.rect, pos.value));
      return Ok(());
    }
    emu.Press(Fallback, FallbackPoint(f.rect));
    return Ok(());
  }

  /** A select click, the confirm click found on a later capture and the
      blank click with that capture's geometry make a whole reward claim. */
  lemma ThumbAssembled(emu: Emulator, k: nat, t0: seq<Action>, sel: Action,
                       t1: seq<Action>, t2: seq<Action>, t3: seq<Action>)
    requires emu.ClickedOn(sel, Select, SelectThreshold) && sel.capture < k
    requires t1 == t0 + [sel]
    requires emu.Shows(k, SelectConfirm, SelectThreshold)
    requires t2 == t1 + [emu.TokenClick(k, SelectConfirm, SelectThreshold)]
    requires t3 == t2 + [Click(Blank, LeftEdge(emu.screens[k].frame.rect), k)]
    ensures ThumbShape(emu, t3[|t0|..])
  {
    var s := t3[|t0|..];
    assert s == [sel, emu.TokenClick(k, SelectConfirm, SelectThreshold), Click(Blank, LeftEdge(emu.screens[k].frame.rect), k)];
  }

  /** The captures and clicks of one reward claim that polls from capture
      `from` on and whose last capture is `end - 1`. Without both templates,
      nothing. Otherwise: ThumbPolls captures all lacking the select icon and
      no click; or the select icon clicked on the first capture showing it,
      then ConfirmPolls captures all lacking its confirm button; or the
      select click, the confirm button clicked on the first capture after it
      that shows it, and the blank click that closes the claim. */
  ghost predicate ThumbClaim(emu: Emulator, from: nat, end: nat, s: seq<Action>)
  {
    if Select !in emu.templates || SelectConfirm !in emu.templates then s == [] && end == from
    else
      && ThumbShape(emu, s)
      && (s == [] ==> end == from + ThumbPolls && forall k :: from <= k < end ==> emu.Lacks(k, Select, SelectThreshold))
      && (s != [] ==>
            var j := s[0].capture;
            && from <= j < from + ThumbPolls
            && (forall k :: from <= k < j ==> emu.Lacks(k, Select, SelectThreshold))
            && (|s| == 1 ==>
                  end == j + 1 + ConfirmPolls && forall k :: j < k < end ==> emu.Lacks(k, SelectConfirm, SelectThreshold))
            && (|s| == 3 ==>
                  && end == s[1].capture + 1 && end <= j + 1 + ConfirmPolls
                  && forall k :: j < k < s[1].capture ==> emu.Lacks(k, SelectConfirm, SelectThreshold)))
  }

  /** take_thumb_reward: nothing at all unless both the select and the
      select_confirm templates load; otherwise up to ThumbPolls polls for the
      select icon, whose click is followed by the wait for its confirm button
      and, once that is clicked, a click on the blank strip. */
  method TakeThumbReward(emu: Emulator, keys: Flags) returns (r: Outcome<()>)
    requires emu.Valid() && keys.Valid()
    modifies emu, keys
    ensures emu.Valid() && keys.Valid() && old(emu.seen) <= emu.seen && old(emu.trace) <= emu.trace
    ensures old(keys.skipInitial) ==> keys.skipInitial
    ensures Select !in emu.templates || SelectConfirm !in emu.templates ==>
      r == Ok(()) && emu.seen == old(emu.seen) && emu.trace == old(emu.trace)
    ensures forall i :: |old(emu.trace)| <= i < |emu.trace| ==> emu.trace[i].target in ThumbTargets
    ensures r.Ok? ==> ThumbShape(emu, emu.trace[|old(emu.trace)|..])
    ensures r.Ok? ==> ThumbClaim(emu, old(emu.seen), emu.seen, emu.trace[|old(emu.trace)|..])
  {
    if Select !in emu.templates || SelectConfirm !in emu.templates {
      assert emu.trace[|old(emu.trace)|..] == [];
      return Ok(());
    }
    var i := 0;
    while i < ThumbPolls
      invariant 0 <= i <= ThumbPolls
      invariant emu.Valid() && keys.Valid() && emu.seen == old(emu.seen) + i && emu.trace == old(emu.trace)
      invariant old(keys.skipInitial) ==> keys.skipInitial
      invariant forall k :: old(emu.seen) <= k < emu.seen ==> emu.Lacks(k, Select, SelectThreshold)
    {
      var go :- CheckPoint(keys);
      var f :- Capture(emu, keys);
      var pos := emu.Locate(f, Select, SelectThreshold);
      if pos.Some? {
        emu.Press(OnToken(Select), Absolute(f.rect, pos.value));
        ghost var selected := emu.trace;
        ghost var sel := selected[|old(emu.trace)|];
        assert emu.ClickedOn(sel, Select, SelectThreshold);
        var confirmed :- ConfirmSelection(emu, keys);
        if confirmed {
          ghost var k := emu.seen - 1;
          ghost var picked := emu.trace;
          var blank :- ClickBlank(emu, keys, emu.screens[emu.seen - 1].frame.rect);
          ThumbAssembled(emu, k, old(emu.trace), sel, selected, picked, emu.trace);
        } else {
          assert emu.trace[|old(emu.trace)|..] == [sel];
        }
        return Ok(());
      }
      i := i + 1;
    }
    assert emu.trace[|old(emu.trace)|..] == [];
    return Ok(());
  }

  /** The clicks of a checkout in the window of capture `c`: the confirm
      button if that capture shows it, then three clicks on its blank strip. */
  ghost function CheckoutClicks(emu: Emulator, c: nat): (s: seq<Action>)
    requires c < |emu.screens| && emu.screens[c].Window?
    ensures 3 <= |s| <= 4
  {
    var blank := Click(Blank, LeftEdge(emu.RectAt(c)), c);
    (if emu.Shows(c, Confirm, Threshold) then [emu.TokenClick(c, Confirm, Threshold)] else []) + [blank, blank, blank]
  }

  /** The clicks that buying one matched item makes: the item itself at
      `at` in the window of its capture; then, if the next capture shows the
      buy button, that button, the checkout in the capture after, and (when
      `claim`) one reward claim; if the buy button does not show, nothing
      more. `end` is the first capture after the purchase. */
  ghost predicate ItemPurchase(emu: Emulator, s: seq<Action>, item: Token, at: Point, claim: bool, end: nat)
  {
    && |s| >= 1
    && var k := s[0].capture;
       && k < |emu.screens| && emu.screens[k].Window?
       && s[0] == Click(OnToken(item), Absolute(emu.RectAt(k), at), k)
       && if |s| == 1 then emu.Lacks(k + 1, Buy, Threshold) && end == k + 2
          else
            && emu.Shows(k + 1, Buy, Threshold)
            && s[1] == emu.TokenClick(k + 1, Buy, Threshold)
            && k + 2 < |emu.screens| && emu.screens[k + 2].Window?
            && var paid := 2 + |CheckoutClicks(emu, k + 2)|;
               && paid <= |s|
               && s[2..paid] == CheckoutClicks(emu, k + 2)
               && (if claim then ThumbClaim(emu, k + 3, end, s[paid..]) else |s| == paid && end == k + 3)
  }

  /** The checkout after a buy click: the confirm probe, the confirm button if
      it shows, and three clicks on the blank strip of the probe's window. */
  method Checkout(emu: Emulator, keys: Flags) returns (r: Outcome<()>)
    requires emu.Valid() && keys.Valid()
    modifies emu, keys
    ensures emu.Valid() && keys.Valid() && old(emu.seen) <= emu.seen && old(emu.trace) <= emu.trace
    ensures old(keys.skipInitial) ==> keys.skipInitial
    ensures AllWithin(emu.trace, |old(emu.trace)|, {OnToken(Confirm), Blank})
    ensures r.Ok? ==>
      && emu.seen == old(emu.seen) + 1
      && emu.screens[old(emu.seen)].Window?
      && emu.trace == old(emu.trace) + CheckoutClicks(emu, old(emu.seen))
  {
    var f :- Capture(emu, keys);
    var confirm := emu.Locate(f, Confirm, Threshold);
    if confirm.Some? {
      emu.Press(OnToken(Confirm), Absolute(f.rect, confirm.value));
    }
    var probed := emu.trace;
    var blank :- ClickBlank(emu, keys, f.rect);
    blank :- ClickBlank(emu, keys, f.rect);
    blank :- ClickBlank(emu, keys, f.rect);
    var b := Click(Blank, LeftEdge(f.rect), emu.seen - 1);
    assert emu.trace == probed + [b, b, b];
    return Ok(());
  }

  /** The click on an item matched at `at` (frame-local) in the window of
      capture `k`. */
  ghost function ItemClick(emu: Emulator, item: Token, at: Point, k: nat): Action
    requires k < |emu.screens| && emu.screens[k].Window?
  {
    Click(OnToken(item), Absolute(emu.RectAt(k), at), k)
  }

  /** The first half of buying one item: the check point, a capture, the
      click on the item, a second capture and, if it shows the buy button,
      the click on that button. Ok(b) tells whether the buy button was
      clicked. */
  method PickItem(emu: Emulator, keys: Flags, item: Token, at: Point) returns (r: Outcome<bool>)
    requires emu.Valid() && keys.Valid()
    modifies emu, keys
    ensures emu.Valid() && keys.Valid() && old(emu.seen) <= emu.seen && old(emu.trace) <= emu.trace
    ensures old(keys.skipInitial) ==> keys.skipInitial
    ensures AllWithin(emu.trace, |old(emu.trace)|, {OnToken(item), OnToken(Buy)})
    ensures r.Ok? ==>
      var k := old(emu.seen);
      && emu.seen == k + 2
      && emu.screens[k].Window? && emu.screens[k + 1].Window?
      && (r.value <==> emu.Shows(k + 1, Buy, Threshold))
      && emu.trace == old(emu.trace) + [ItemClick(emu, item, at, k)]
           + (if r.value then [emu.TokenClick(k + 1, Buy, Threshold)] else [])
  {
    var go :- CheckPoint(keys);
    var f1 :- Capture(emu, keys);
    emu.Press(OnToken(item), Absolute(f1.rect, at));
    var f2 :- Capture(emu, keys);
    var buy := emu.Locate(f2, Buy, Threshold);
    if buy.None? {
      return Ok(false);
    }
    emu.Press(OnToken(Buy), Absolute(f2.rect, buy.value));
    return Ok(true);
  }

  /** An item click followed by a capture without the buy button is a whole
      ItemPurchase. */
  lemma NothingBought(emu: Emulator, item: Token, at: Point, k: nat, t0: seq<Action>, t1: seq<Action>)
    requires k + 1 < |emu.screens| && emu.screens[k].Window? && emu.Lacks(k + 1, Buy, Threshold)
    requires t1 == t0 + [ItemClick(emu, item, at, k)] + []
    ensures ItemPurchase(emu, t1[|t0|..], item, at, false, k + 2) && ItemPurchase(emu, t1[|t0|..], item, at, true, k + 2)
  {
    assert t1[|t0|..] == [ItemClick(emu, item, at, k)];
  }

  /** The item click, the buy click, the checkout and (when `claim`) a
      reward claim, appended in turn, make an ItemPurchase. */
  lemma PurchaseAssembled(emu: Emulator, item: Token, at: Point, claim: bool, k: nat, end: nat,
                          t0: seq<Action>, t1: seq<Action>, t2: seq<Action>, t3: seq<Action>)
    requires k + 2 < |emu.screens| && emu.screens[k].Window? && emu.screens[k + 2].Window?
    requires emu.Shows(k + 1, Buy, Threshold)
    requires t1 == t0 + [ItemClick(emu, item, at, k)] + [emu.TokenClick(k + 1, Buy, Threshold)]
    requires t2 == t1 + CheckoutClicks(emu, k + 2)
    requires t2 <= t3
    requires claim ==> ThumbClaim(emu, k + 3, end, t3[|t2|..])
    requires !claim ==> t3 == t2 && end == k + 3
    ensures ItemPurchase(emu, t3[|t0|..], item, at, claim, end)
  {
    SplitPurchase(t0, ItemClick(emu, item, at, k), emu.TokenClick(k + 1, Buy, Threshold),
                  CheckoutClicks(emu, k + 2), t2, t3);
  }

  /** Where the parts of a purchase lie in the trace that grew from `t0`. */
  lemma SplitPurchase(t0: seq<Action>, a: Action, b: Action, co: seq<Action>, t2: seq<Action>, t3: seq<Action>)
    requires t2 == t0 + [a] + [b] + co && t2 <= t3
    ensures var s := t3[|t0|..];
      && |s| >= 2 + |co| && s[0] == a && s[1] == b
      && s[2..2 + |co|] == co && s[2 + |co|..] == t3[|t2|..]
  {
    var rest := t3[|t2|..];
    PrefixSplit(t2, t3);
    assert t3 == t0 + ([a, b] + co + rest);
    var s := t3[|t0|..];
    assert s == [a, b] + co + rest;
  }

  /** Buying one item matched at `at` (frame-local), as the inner loop of
      each purchase pass does. */
  method BuyOne(emu: Emulator, keys: Flags, item: Token, at: Point, claim: bool) returns (r: Outcome<()>)
    requires emu.Valid() && keys.Valid()
    modifies emu, keys
    ensures emu.Valid() && keys.Valid() && old(emu.seen) <= emu.seen && old(emu.trace) <= emu.trace
    ensures old(keys.skipInitial) ==> keys.skipInitial
    ensures AllWithin(emu.trace, |old(emu.trace)|, BuyTargets(item, claim))
    ensures r.Ok? ==> old(emu.seen) < emu.seen && ItemPurchase(emu, emu.trace[|old(emu.trace)|..], item, at, claim, emu.seen)
    ensures r.Ok? ==> emu.trace[|old(emu.trace)|].capture == old(emu.seen)
  {
    ghost var t0, k := emu.trace, emu.seen;
    var bought := PickItem(emu, keys, item, at);
    WithinJoin(t0, emu.trace, |t0|, {}, {OnToken(item), OnToken(Buy)}, BuyTargets(item, claim));
    if bought.Halted? {
      return Halted(bought.halt);
    }
    if !bought.value {
      NothingBought(emu, item, at, k, t0, emu.trace);
      return Ok(());
    }
    ghost var t1 := emu.trace;
    var paid := Checkout(emu, keys);
    WithinJoin(t1, emu.trace, |t0|, BuyTargets(item, claim), {OnToken(Confirm), Blank}, BuyTargets(item, claim));
    if paid.Halted? {
      return Halted(paid.halt);
    }
    ghost var t2 := emu.trace;
    if claim {
      var claimed := TakeThumbReward(emu, keys);
      WithinJoin(t2, emu.trace, |t0|, BuyTargets(item, claim), ThumbTargets, BuyTargets(item, claim));
      if claimed.Halted? {
        return Halted(claimed.halt);
      }
    }
    PurchaseAssembled(emu, item, at, claim, k, emu.seen, t0, t1, t2, emu.trace);
    return Ok(());
  }

  /** Capture `k` found the window and not a single match of `item`. */
  ghost predicate Cleared(emu: Emulator, k: int, item: Token)
  {
    0 <= k < |emu.screens| && emu.screens[k].Window? && emu.Scan(emu.screens[k].frame, item, Threshold) == []
  }

  /** The head of a purchase pass: the check point, a capture and every
      match of `item` in it. */
  method ScanFor(emu: Emulator, keys: Flags, item: Token) returns (r: Outcome<seq<Point>>)
    requires emu.Valid() && keys.Valid()
    modifies emu`seen, keys
    ensures emu.Valid() && keys.Valid() && old(emu.seen) <= emu.seen
    ensures old(keys.skipInitial) ==> keys.skipInitial
    ensures r.Ok? ==>
      && emu.seen == old(emu.seen) + 1
      && emu.screens[emu.seen - 1].Window?
      && r.value == emu.Scan(emu.screens[emu.seen - 1].frame, item, Threshold)
      && (r.value == [] ==> Cleared(emu, emu.seen - 1, item))
  {
    var go :- CheckPoint(keys);
    var f :- Capture(emu, keys);
    var positions := FindAllMatches(Some(f.ScoresOf(item)), emu.Template(item), Threshold);
    return Ok(positions);
  }

  /** Runs of clicks joined end to end. */
  ghost function Concat(runs: seq<seq<Action>>): seq<Action>
  {
    if runs == [] then [] else Concat(runs[..|runs| - 1]) + runs[|runs| - 1]
  }

  /** `buys` are the purchases of the items matched at the first |buys|
      of `positions`, in order and back to back: purchase j starts on
      capture marks[j] and the next capture after it is marks[j + 1]. */
  ghost predicate Purchases(emu: Emulator, buys: seq<seq<Action>>, marks: seq<nat>, item: Token, positions: seq<Point>, claim: bool)
    decreases |buys|
  {
    && |buys| <= |positions| && |marks| == |buys| + 1
    && (buys != [] ==>
          var j := |buys| - 1;
          && Purchases(emu, buys[..j], marks[..j + 1], item, positions, claim)
          && ItemPurchase(emu, buys[j], item, positions[j], claim, marks[j + 1])
          && buys[j][0].capture == marks[j])
  }

  /** One more purchase, of the next matched position starting where the
      last one ended, extends them. */
  lemma PurchasesSnoc(emu: Emulator, buys: seq<seq<Action>>, marks: seq<nat>, seg: seq<Action>, end: nat,
                      item: Token, positions: seq<Point>, claim: bool)
    requires Purchases(emu, buys, marks, item, positions, claim) && |buys| < |positions|
    requires ItemPurchase(emu, seg, item, positions[|buys|], claim, end) && seg[0].capture == marks[|buys|]
    ensures Purchases(emu, buys + [seg], marks + [end], item, positions, claim)
  {
    assert (buys + [seg])[..|buys|] == buys;
    assert (marks + [end])[..|buys| + 1] == marks;
  }

  /** Joining one more run appends it. */
  lemma ConcatSnoc(t0: seq<Action>, runs: seq<seq<Action>>, run: seq<Action>)
    ensures t0 + Concat(runs + [run]) == t0 + Concat(runs) + run
  {
    assert (runs + [run])[..|runs|] == runs;
  }

  /** The inner loop of a purchase pass: buy the item at each matched
      position in turn. `buys` holds the clicks of each purchase and
      `marks` the captures where they start and end. */
  method BuyEach(emu: Emulator, keys: Flags, item: Token, positions: seq<Point>, claim: bool)
    returns (r: Outcome<()>, ghost buys: seq<seq<Action>>, ghost marks: seq<nat>)
    requires emu.Valid() && keys.Valid()
    modifies emu, keys
    ensures emu.Valid() && keys.Valid() && old(emu.seen) <= emu.seen && old(emu.trace) <= emu.trace
    ensures old(keys.skipInitial) ==> keys.skipInitial
    ensures AllWithin(emu.trace, |old(emu.trace)|, BuyTargets(item, claim))
    ensures r.Ok? ==>
      && |buys| == |positions|
      && Purchases(emu, buys, marks, item, positions, claim)
      && marks[0] == old(emu.seen) && marks[|buys|] == emu.seen
      && emu.trace == old(emu.trace) + Concat(buys)
  {
    buys, marks := [], [emu.seen];
    assert old(emu.trace) + Concat(buys) == old(emu.trace);
    for j := 0 to |positions|
      invariant emu.Valid() && keys.Valid() && old(emu.seen) <= emu.seen
      invariant old(keys.skipInitial) ==> keys.skipInitial
      invariant AllWithin(emu.trace, |old(emu.trace)|, BuyTargets(item, claim))
      invariant |buys| == j && Purchases(emu, buys, marks, item, positions, claim)
      invariant marks[0] == old(emu.seen) && marks[|buys|] == emu.seen
      invariant emu.trace == old(emu.trace) + Concat(buys)
    {
      var bought;
      bought, buys, marks := BuyNext(emu, keys, item, positions, j, claim, old(emu.trace), buys, marks);
      if bought.Halted? {
        return Halted(bought.halt), buys, marks;
      }
    }
    return Ok(()), buys, marks;
  }

  /** One step of the inner loop: buy the item at position `j`, and
      extend the purchases of the pass so far by it. */
  method BuyNext(emu: Emulator, keys: Flags, item: Token, positions: seq<Point>, j: nat, claim: bool,
                 ghost t0: seq<Action>, ghost buys: seq<seq<Action>>, ghost marks: seq<nat>)
    returns (r: Outcome<()>, ghost next: seq<seq<Action>>, ghost nextMarks: seq<nat>)
    requires emu.Valid() && keys.Valid()
    requires |buys| == j < |positions| && Purchases(emu, buys, marks, item, positions, claim)
    requires marks[|buys|] == emu.seen && emu.trace == t0 + Concat(buys)
    requires AllWithin(emu.trace, |t0|, BuyTargets(item, claim))
    modifies emu, keys
    ensures emu.Valid() && keys.Valid() && old(emu.seen) <= emu.seen
    ensures old(keys.skipInitial) ==> keys.skipInitial
    ensures t0 <= emu.trace && AllWithin(emu.trace, |t0|, BuyTargets(item, claim))
    ensures r.Halted? ==> next == buys && nextMarks == marks
    ensures r.Ok? ==>
      && |next| == |buys| + 1 && Purchases(emu, next, nextMarks, item, positions, claim)
      && nextMarks[0] == marks[0] && nextMarks[|next|] == emu.seen
      && emu.trace == t0 + Concat(next)
  {
    next, nextMarks := buys, marks;
    var before := emu.trace;
    r := BuyOne(emu, keys, item, positions[j], claim);
    WithinJoin(before, emu.trace, |t0|, BuyTargets(item, claim), BuyTargets(item, claim), BuyTargets(item, claim));
    if r.Halted? {
      return;
    }
    BuyStep(emu, t0, before, emu.trace, buys, marks, emu.seen, item, positions, claim);
    next, nextMarks := buys + [emu.trace[|before|..]], marks + [emu.seen];
  }

  /** One more purchase after the earlier ones of a pass, starting on the
      capture where they end, extends them and their clicks. */
  lemma BuyStep(emu: Emulator, t0: seq<Action>, before: seq<Action>, after: seq<Action>,
                buys: seq<seq<Action>>, marks: seq<nat>, end: nat, item: Token, positions: seq<Point>, claim: bool)
    requires Purchases(emu, buys, marks, item, positions, claim) && |buys| < |positions|
    requires before == t0 + Concat(buys) && before <= after && |before| < |after|
    requires ItemPurchase(emu, after[|before|..], item, positions[|buys|], claim, end)
    requires after[|before|].capture == marks[|buys|]
    ensures Purchases(emu, buys + [after[|before|..]], marks + [end], item, positions, claim)
    ensures (marks + [end])[0] == marks[0] && (marks + [end])[|buys| + 1] == end
    ensures after == t0 + Concat(buys + [after[|before|..]])
  {
    var seg := after[|before|..];
    PrefixSplit(before, after);
    PurchasesSnoc(emu, buys, marks, seg, end, item, positions, claim);
    ConcatSnoc(t0, buys, seg);
  }

  /** One round of a purchase pass: the capture `scan`, the positions of
      every match of the item in it, the clicks of buying each, the
      captures where those purchases start and end, and `end`, the first
      capture after the round. */
  datatype Round = Round(scan: nat, positions: seq<Point>, buys: seq<seq<Action>>, marks: seq<nat>, end: nat)

  /** A round that found matches bought every one of them, in order, the
      first on the capture right after the scan and each of the others on
      the capture after the one before it. */
  ghost predicate RoundDone(emu: Emulator, item: Token, claim: bool, p: Round)
  {
    && p.scan < |emu.screens| && emu.screens[p.scan].Window?
    && p.positions == emu.Scan(emu.screens[p.scan].frame, item, Threshold)
    && p.positions != []
    && |p.buys| == |p.positions|
    && Purchases(emu, p.buys, p.marks, item, p.positions, claim)
    && p.marks[0] == p.scan + 1 && p.marks[|p.buys|] == p.end
  }

  /** The capture after rounds that start at capture `from`. */
  ghost function LastEnd(ps: seq<Round>, from: nat): nat
  {
    if ps == [] then from else ps[|ps| - 1].end
  }

  /** Every round is done, the first scanned on capture `from` and each
      other one on the capture after the round before it. */
  ghost predicate RoundsDone(emu: Emulator, item: Token, claim: bool, ps: seq<Round>, from: nat)
  {
    ps == [] ||
      var prior := ps[..|ps| - 1];
      && RoundsDone(emu, item, claim, prior, from)
      && RoundDone(emu, item, claim, ps[|ps| - 1])
      && ps[|ps| - 1].scan == LastEnd(prior, from)
  }

  /** The clicks of a sequence of rounds, end to end. */
  ghost function RoundClicks(ps: seq<Round>): seq<Action>
  {
    if ps == [] then [] else RoundClicks(ps[..|ps| - 1]) + Concat(ps[|ps| - 1].buys)
  }

  /** A finished round, scanned where the earlier ones end, extends them. */
  lemma RoundsSnoc(emu: Emulator, item: Token, claim: bool, ps: seq<Round>, p: Round, from: nat)
    requires RoundsDone(emu, item, claim, ps, from) && RoundDone(emu, item, claim, p)
    requires p.scan == LastEnd(ps, from)
    ensures RoundsDone(emu, item, claim, ps + [p], from) && LastEnd(ps + [p], from) == p.end
  {
    assert (ps + [p])[..|ps|] == ps;
  }

  /** The clicks of one more round follow those of the earlier ones. */
  lemma RoundClicksSnoc(t0: seq<Action>, ps: seq<Round>, p: Round)
    ensures t0 + RoundClicks(ps + [p]) == t0 + RoundClicks(ps) + Concat(p.buys)
  {
    assert (ps + [p])[..|ps|] == ps;
  }

  /** One purchase pass: the rounds that found matches, the capture the
      pass started on and the capture that ended it by matching nothing. */
  datatype Pass = Pass(rounds: seq<Round>, from: nat, cleared: nat)

  /** A finished purchase pass over `item`: the rounds were scanned back to
      back from capture `from` on, and capture `cleared`, the one right
      after the last round (or `from` itself), found no match. */
  ghost predicate PassDone(emu: Emulator, item: Token, claim: bool, pass: Pass)
  {
    match pass
    case Pass(rounds, from, cleared) =>
      && RoundsDone(emu, item, claim, rounds, from)
      && cleared == LastEnd(rounds, from)
      && Cleared(emu, cleared, item)
  }

  /** One round of a purchase pass: capture, find every match of `item`,
      and buy each in turn. Ok(false) when the capture matched nothing;
      otherwise `round` is the round scanned on the first capture, and the
      clicks are its purchases. */
  method BuyRound(emu: Emulator, keys: Flags, item: Token, claim: bool) returns (r: Outcome<bool>, ghost round: Round)
    requires emu.Valid() && keys.Valid()
    modifies emu, keys
    ensures emu.Valid() && keys.Valid() && old(emu.seen) <= emu.seen && old(emu.trace) <= emu.trace
    ensures old(keys.skipInitial) ==> keys.skipInitial
    ensures AllWithin(emu.trace, |old(emu.trace)|, BuyTargets(item, claim))
    ensures r.Ok? ==> old(emu.seen) < emu.seen
    ensures r.Ok? && !r.value ==>
      && emu.seen == old(emu.seen) + 1
      && Cleared(emu, old(emu.seen), item)
      && emu.trace == old(emu.trace)
    ensures r.Ok? && r.value ==>
      && RoundDone(emu, item, claim, round)
      && round.scan == old(emu.seen) && round.end == emu.seen
      && emu.trace == old(emu.trace) + Concat(round.buys)
  {
    round := Round(emu.seen, [], [], [], emu.seen);
    var positions :- ScanFor(emu, keys, item);
    if positions == [] {
      return Ok(false), round;
    }
    var bought, buys, marks := BuyEach(emu, keys, item, positions, claim);
    if bought.Halted? {
      return Halted(bought.halt), round;
    }
    round := Round(round.scan, positions, buys, marks, emu.seen);
    return Ok(true), round;
  }

  /** One purchase pass of purchase_items over `item` (the note pass, or with
      `claim` the 100-point pass): rounds until a capture matches nothing.
      `pass` holds the rounds that found matches and the captures where the
      pass starts and ends. */
  method BuyAll(emu: Emulator, keys: Flags, item: Token, claim: bool) returns (r: Outcome<()>, ghost pass: Pass)
    requires emu.Valid() && keys.Valid()
    modifies emu, keys
    ensures emu.Valid() && keys.Valid() && old(emu.seen) <= emu.seen && old(emu.trace) <= emu.trace
    ensures old(keys.skipInitial) ==> keys.skipInitial
    ensures AllWithin(emu.trace, |old(emu.trace)|, BuyTargets(item, claim))
    ensures r.Ok? ==>
      && old(emu.seen) < emu.seen
      && pass.from == old(emu.seen) && pass.cleared == emu.seen - 1
      && PassDone(emu, item, claim, pass)
      && emu.trace == old(emu.trace) + RoundClicks(pass.rounds)
  {
    ghost var rounds: seq<Round> := [];
    pass := Pass(rounds, emu.seen, emu.seen);
    while true
      invariant emu.Valid() && keys.Valid() && old(emu.seen) <= emu.seen && old(emu.trace) <= emu.trace
      invariant old(keys.skipInitial) ==> keys.skipInitial
      invariant AllWithin(emu.trace, |old(emu.trace)|, BuyTargets(item, claim))
      invariant RoundsDone(emu, item, claim, rounds, old(emu.seen))
      invariant emu.seen == LastEnd(rounds, old(emu.seen))
      invariant emu.trace == old(emu.trace) + RoundClicks(rounds)
      decreases |emu.screens| - emu.seen
    {
      ghost var before := emu.trace;
      var more, round := BuyRound(emu, keys, item, claim);
      WithinJoin(before, emu.trace, |old(emu.trace)|, BuyTargets(item, claim), BuyTargets(item, claim), BuyTargets(item, claim));
      if more.Halted? {
        return Halted(more.halt), pass;
      }
      if !more.value {
        break;
      }
      RoundsSnoc(emu, item, claim, rounds, round, old(emu.seen));
      RoundClicksSnoc(old(emu.trace), rounds, round);
      rounds := rounds + [round];
    }
    pass := Pass(rounds, old(emu.seen), emu.seen - 1);
    return Ok(()), pass;
  }

  /** purchase_items of this revision: nothing at all when neither the note
      nor the 100-point template loads; otherwise the note pass, then the
      100-point pass, which alone claims rewards and starts on the capture
      right after the one that ended the note pass. `notesEnd` marks where
      the note pass's clicks end. */
  method PurchaseItems(emu: Emulator, keys: Flags)
    returns (r: Outcome<()>, ghost notesEnd: nat, ghost notes: Pass, ghost hundreds: Pass)
    requires emu.Valid() && keys.Valid()
    modifies emu, keys
    ensures emu.Valid() && keys.Valid() && old(emu.seen) <= emu.seen && old(emu.trace) <= emu.trace
    ensures old(keys.skipInitial) ==> keys.skipInitial
    ensures Note !in emu.templates && Hundred !in emu.templates ==>
      r == Ok(()) && emu.seen == old(emu.seen) && emu.trace == old(emu.trace)
    ensures |old(emu.trace)| <= notesEnd <= |emu.trace|
    ensures forall i :: |old(emu.trace)| <= i < notesEnd ==> emu.trace[i].target in BuyTargets(Note, false)
    ensures AllWithin(emu.trace, notesEnd, BuyTargets(Hundred, true))
    ensures AllWithin(emu.trace, |old(emu.trace)|, PurchaseTargets)
    ensures r.Ok? && (Note in emu.templates || Hundred in emu.templates) ==>
      && notes.from == old(emu.seen) && hundreds.from == notes.cleared + 1 && hundreds.cleared == emu.seen - 1
      && PassDone(emu, Note, false, notes)
      && PassDone(emu, Hundred, true, hundreds)
      && notesEnd == |old(emu.trace)| + |RoundClicks(notes.rounds)|
      && emu.trace == old(emu.trace) + RoundClicks(notes.rounds) + RoundClicks(hundreds.rounds)
    ensures r.Ok? ==> Purchased(emu, old(emu.seen), notes, hundreds, emu.seen) && emu.trace == Bought(old(emu.trace), notes, hundreds)
  {
    notesEnd, notes, hundreds := |emu.trace|, Pass([], emu.seen, emu.seen), Pass([], emu.seen, emu.seen);
    ghost var t1 := emu.trace;
    r := Ok(());
    if Note in emu.templates || Hundred in emu.templates {
      r, notes := BuyAll(emu, keys, Note, false);
      notesEnd, t1 := |emu.trace|, emu.trace;
      if r.Ok? {
        r, hundreds := BuyAll(emu, keys, Hundred, true);
      }
    }
    PassesWithin(old(emu.trace), t1, emu.trace);
  }

  /** purchase_items run from capture `k` to capture `end` as the passes
      `notes` and `hundreds`: with neither template loaded it takes no
      capture and makes no round; otherwise the note pass starts on `k`, the
      100-point pass on the capture after the one that cleared the note
      pass, and the capture that cleared the 100-point pass is the last. */
  ghost predicate Purchased(emu: Emulator, k: nat, notes: Pass, hundreds: Pass, end: nat)
  {
    if Note in emu.templates || Hundred in emu.templates then
      && notes.from == k && hundreds.from == notes.cleared + 1 && hundreds.cleared + 1 == end
      && PassDone(emu, Note, false, notes)
      && PassDone(emu, Hundred, true, hundreds)
    else
      notes.rounds == [] && hundreds.rounds == [] && end == k
  }

  /** The trace `t` followed by the clicks of the passes `notes` and
      `hundreds`. */
  ghost function Bought(t: seq<Action>, notes: Pass, hundreds: Pass): seq<Action>
  {
    t + RoundClicks(notes.rounds) + RoundClicks(hundreds.rounds)
  }

  /** The clicks of the note pass, then those of the 100-point pass, are
      all purchase clicks. */
  lemma PassesWithin(t0: seq<Action>, t1: seq<Action>, t2: seq<Action>)
    requires t0 <= t1 && t1 <= t2
    requires AllWithin(t1, |t0|, BuyTargets(Note, false)) && AllWithin(t2, |t1|, BuyTargets(Hundred, true))
    ensures forall i :: |t0| <= i < |t1| ==> t2[i].target in BuyTargets(Note, false)
    ensures AllWithin(t2, |t0|, PurchaseTargets)
  {
    TargetSets();
    WithinJoin(t1, t2, |t0|, BuyTargets(Note, false), BuyTargets(Hundred, true), PurchaseTargets);
    forall i | |t0| <= i < |t1| ensures t2[i].target in BuyTargets(Note, false) {
      assert t2[i] == t1[i];
    }
  }

  /** click_bubble of this revision: one capture, then a click (through
      click_relative, so after the check point) on bubble `index`. */
  method ClickBubble(emu: Emulator, keys: Flags, index: nat) returns (r: Outcome<()>)
    requires emu.Valid() && keys.Valid() && index < |BubbleRows|
    modifies emu, keys
    ensures emu.Valid() && keys.Valid() && old(emu.seen) <= emu.seen
    ensures old(keys.skipInitial) ==> keys.skipInitial
    ensures r.Halted? ==> emu.trace == old(emu.trace)
    ensures r.Ok? ==>
      && emu.seen == old(emu.seen) + 1
      && emu.screens[old(emu.seen)].Window?
      && emu.trace == old(emu.trace) + [Click(Bubble(index), BubblePoint(emu.RectAt(old(emu.seen)), index), old(emu.seen))]
  {
    var f :- Capture(emu, keys);
    r := ClickRelative(emu, keys, BubbleColumn, Percent(f.rect.height, BubbleRows[index]), f.rect, Bubble(index));
  }

  /** A click on bubble `index` where the window of its own capture puts it. */
  ghost predicate BubbleClick(emu: Emulator, a: Action, index: nat)
    requires index < |BubbleRows|
  {
    && a.capture < |emu.screens| && emu.screens[a.capture].Window?
    && a == Click(Bubble(index), BubblePoint(emu.RectAt(a.capture), index), a.capture)
  }

  /** The clicks of one approach step: the second bubble, then one reward
      claim. */
  ghost predicate BubbleThenClaim(emu: Emulator, s: seq<Action>)
  {
    |s| >= 1 && BubbleClick(emu, s[0], 1) && ThumbShape(emu, s[1..])
  }

  /** The approach recorded after `start` in `t`: two approach steps, the
      second beginning at `mid`, then a click on the first bubble. */
  ghost predicate Approach(emu: Emulator, start: seq<Action>, t: seq<Action>, mid: nat)
  {
    && |start| < mid < |t|
    && BubbleThenClaim(emu, t[|start|..mid])
    && BubbleThenClaim(emu, t[mid..|t| - 1])
    && BubbleClick(emu, t[|t| - 1], 0)
  }

  /** A bubble click and the reward claim recorded after it make one step. */
  lemma StepAssembled(emu: Emulator, t0: seq<Action>, t1: seq<Action>, t2: seq<Action>)
    requires |t1| == |t0| + 1 && t0 <= t1 && t1 <= t2
    requires BubbleClick(emu, t1[|t0|], 1) && ThumbShape(emu, t2[|t1|..])
    ensures BubbleThenClaim(emu, t2[|t0|..])
  {
    assert t2[|t0|..][0] == t1[|t0|];
    assert t2[|t0|..][1..] == t2[|t1|..];
  }

  /** Two steps and a first-bubble click recorded one after another make an
      approach. */
  lemma ApproachAssembled(emu: Emulator, t0: seq<Action>, t1: seq<Action>, t2: seq<Action>, t3: seq<Action>)
    requires t0 <= t1 && t1 <= t2 && t2 <= t3 && |t3| == |t2| + 1
    requires BubbleThenClaim(emu, t1[|t0|..]) && BubbleThenClaim(emu, t2[|t1|..])
    requires BubbleClick(emu, t3[|t2|], 0)
    ensures Approach(emu, t0, t3, |t1|)
  {
    var first, second := t1[|t0|..], t2[|t1|..];
    assert t3[|t0|..|t1|] == first;
    assert t3[|t1|..|t3| - 1] == second;
  }

  /** The bubble orders of the two steps and the first-bubble click add up. */
  lemma ApproachBubbles(b0: seq<nat>, b1: seq<nat>, b2: seq<nat>, b3: seq<nat>)
    requires b1 == b0 + [1] && b2 == b1 + [1] && b3 == b2 + [0]
    ensures b3 == b0 + [1, 1, 0]
  {
    assert b0 + [1] + [1] + [0] == b0 + [1, 1, 0];
  }

  /** One step of the approach: the second bubble, then a reward claim. */
  method BubbleAndReward(emu: Emulator, keys: Flags) returns (r: Outcome<()>)
    requires emu.Valid() && keys.Valid()
    modifies emu, keys
    ensures emu.Valid() && keys.Valid() && old(emu.seen) <= emu.seen && old(emu.trace) <= emu.trace
    ensures old(keys.skipInitial) ==> keys.skipInitial
    ensures AllWithin(emu.trace, |old(emu.trace)|, ApproachTargets)
    ensures r.Ok? ==> Bubbles(emu.trace) == Bubbles(old(emu.trace)) + [1]
    ensures r.Ok? ==> BubbleThenClaim(emu, emu.trace[|old(emu.trace)|..])
  {
    TargetSets();
    ghost var t0 := emu.trace;
    var step :- ClickBubble(emu, keys, 1);
    BubblesSnoc(t0, emu.trace[|t0|]);
    ghost var t1 := emu.trace;
    assert BubbleClick(emu, t1[|t0|], 1);
    r := TakeThumbReward(emu, keys);
    BubblesKept(t1, emu.trace, ThumbTargets);
    WithinJoin(t1, emu.trace, |t0|, ApproachTargets, ThumbTargets, ApproachTargets);
    if r.Ok? {
      StepAssembled(emu, t0, t1, emu.trace);
    }
  }

  /** The approach to a shop: the second bubble and a reward claim, twice,
      then the first bubble. `mid` is where the second step begins. */
  method ApproachShop(emu: Emulator, keys: Flags) returns (r: Outcome<()>, ghost mid: nat)
    requires emu.Valid() && keys.Valid()
    modifies emu, keys
    ensures emu.Valid() && keys.Valid() && old(emu.seen) <= emu.seen && old(emu.trace) <= emu.trace
    ensures old(keys.skipInitial) ==> keys.skipInitial
    ensures AllWithin(emu.trace, |old(emu.trace)|, ApproachTargets)
    ensures r.Ok? ==> Bubbles(emu.trace) == Bubbles(old(emu.trace)) + [1, 1, 0]
    ensures r.Ok? ==> |old(emu.trace)| < |emu.trace| && emu.trace[|emu.trace| - 1].target == Bubble(0)
    ensures r.Ok? ==> Approach(emu, old(emu.trace), emu.trace, mid)
  {
    ghost var t0 := emu.trace;
    mid := |t0|;
    r := BubbleAndReward(emu, keys);
    ghost var t1 := emu.trace;
    ghost var t2 := t1;
    if r.Ok? {
      mid := |t1|;
      r := BubbleAndReward(emu, keys);
      t2 := emu.trace;
      if r.Ok? {
        r := ClickBubble(emu, keys, 0);
        if r.Ok? {
          BubblesSnoc(t2, emu.trace[|t2|]);
          ApproachBubbles(Bubbles(t0), Bubbles(t1), Bubbles(t2), Bubbles(emu.trace));
          ApproachAssembled(emu, t0, t1, t2, emu.trace);
        }
      }
    }
    assert t0 <= emu.trace;
    assert AllWithin(emu.trace, |t2|, {Bubble(0)});
    WithinJoin(t1, t2, |t0|, ApproachTargets, ApproachTargets, ApproachTargets);
    WithinJoin(t2, emu.trace, |t0|, ApproachTargets, {Bubble(0)}, ApproachTargets);
  }

  /** A refresh round that found the button: the click on it, the two
      purchase passes that followed, and `end`, the first capture after
      them. */
  datatype Refill = Refill(click: Action, notes: Pass, hundreds: Pass, end: nat)

  /** The click is on the refresh button where its capture showed it, and
      purchase_items ran from the next capture on. */
  ghost predicate RefillDone(emu: Emulator, f: Refill)
  {
    emu.ClickedOn(f.click, Refresh, Threshold) && Purchased(emu, f.click.capture + 1, f.notes, f.hundreds, f.end)
  }

  /** The first capture after refresh rounds that start at capture `from`. */
  ghost function RefillEnd(fills: seq<Refill>, from: nat): nat
  {
    if fills == [] then from else fills[|fills| - 1].end
  }

  /** Every round is done, the first polled on capture `from` and each other
      one on the capture after the round before it. */
  ghost predicate RefillsDone(emu: Emulator, fills: seq<Refill>, from: nat)
  {
    && (fills != [] ==> fills[0].click.capture == from)
    && (forall j :: 0 <= j < |fills| ==> RefillDone(emu, fills[j]))
    && (forall j :: 0 < j < |fills| ==> fills[j].click.capture == fills[j - 1].end)
  }

  /** The trace `t` followed by the clicks of the refresh rounds: each
      round's refresh click, then its purchases. */
  ghost function RefillClicks(t: seq<Action>, fills: seq<Refill>): seq<Action>
  {
    if fills == [] then t
    else
      var f := fills[|fills| - 1];
      Bought(RefillClicks(t, fills[..|fills| - 1]) + [f.click], f.notes, f.hundreds)
  }

  /** A finished round, polled where the earlier ones end, extends them. */
  lemma RefillsSnoc(emu: Emulator, t: seq<Action>, fills: seq<Refill>, f: Refill, from: nat)
    requires RefillsDone(emu, fills, from) && RefillDone(emu, f)
    requires f.click.capture == RefillEnd(fills, from)
    ensures RefillsDone(emu, fills + [f], from) && RefillEnd(fills + [f], from) == f.end
    ensures RefillClicks(t, fills + [f]) == Bought(RefillClicks(t, fills) + [f.click], f.notes, f.hundreds)
  {
    var fs := fills + [f];
    assert fs[..|fills|] == fills;
    forall j | 0 < j < |fs| ensures fs[j].click.capture == fs[j - 1].end {
      if j == |fills| {
        assert fs[j - 1] == fills[|fills| - 1];
      }
    }
  }

  /** One round of the refresh loop: the check point and a capture; if it
      shows the refresh button, a click on it and purchase_items again.
      Ok(true): the button was clicked, and `fill` is the round, which
      extends the rounds `fills` made since the trace `t` and capture `from`. */
  method RefreshOnce(emu: Emulator, keys: Flags, ghost t: seq<Action>, ghost from: nat, ghost fills: seq<Refill>)
    returns (r: Outcome<bool>, ghost fill: Refill)
    requires emu.Valid() && keys.Valid()
    requires RefillsDone(emu, fills, from) && emu.trace == RefillClicks(t, fills) && emu.seen == RefillEnd(fills, from)
    modifies emu, keys
    ensures emu.Valid() && keys.Valid() && old(emu.seen) <= emu.seen && old(emu.trace) <= emu.trace
    ensures old(keys.skipInitial) ==> keys.skipInitial
    ensures AllWithin(emu.trace, |old(emu.trace)|, RestockTargets)
    ensures Count(emu.trace, OnToken(Refresh)) <= Count(old(emu.trace), OnToken(Refresh)) + 1
    ensures r.Ok? ==>
      Count(emu.trace, OnToken(Refresh)) == Count(old(emu.trace), OnToken(Refresh)) + (if r.value then 1 else 0)
    ensures r == Ok(false) ==>
      && emu.trace == RefillClicks(t, fills) && emu.seen == RefillEnd(fills, from) + 1
      && emu.Lacks(RefillEnd(fills, from), Refresh, Threshold)
    ensures r == Ok(true) ==>
      && RefillsDone(emu, fills + [fill], from)
      && emu.trace == RefillClicks(t, fills + [fill]) && emu.seen == RefillEnd(fills + [fill], from)
  {
    fill := Refill(Click(OnToken(Refresh), Point(0, 0), 0), Pass([], 0, 0), Pass([], 0, 0), 0);
    var go :- CheckPoint(keys);
    var f :- Capture(emu, keys);
    var pos := emu.Locate(f, Refresh, Threshold);
    if pos.None? {
      return Ok(false), fill;
    }
    ghost var t0 := emu.trace;
    ghost var click := Click(OnToken(Refresh), Absolute(f.rect, pos.value), emu.seen - 1);
    emu.Press(OnToken(Refresh), Absolute(f.rect, pos.value));
    assert emu.ClickedOn(click, Refresh, Threshold);
    ghost var t1 := emu.trace;
    var bought, notesEnd, notes, hundreds := PurchaseItems(emu, keys);
    RestockTally(t0, click, t1, emu.trace);
    fill := Refill(click, notes, hundreds, emu.seen);
    if bought.Halted? {
      return Halted(bought.halt), fill;
    }
    RefillsSnoc(emu, t, fills, fill, from);
    r := Ok(true);
  }

  /** A refresh click followed by purchases adds one refresh click and only
      restocking clicks. */
  lemma RestockTally(t0: seq<Action>, click: Action, t1: seq<Action>, t2: seq<Action>)
    requires click.target == OnToken(Refresh) && t1 == t0 + [click]
    requires t1 <= t2 && AllWithin(t2, |t1|, PurchaseTargets)
    ensures t0 <= t2 && AllWithin(t2, |t0|, RestockTargets)
    ensures Count(t2, OnToken(Refresh)) == Count(t0, OnToken(Refresh)) + 1
  {
    TargetSets();
    assert t1[|t0|] == click;
    CountSnoc(t0, click, OnToken(Refresh));
    CountKept(t1, t2, PurchaseTargets, OnToken(Refresh));
    WithinJoin(t1, t2, |t0|, RestockTargets, PurchaseTargets, RestockTargets);
  }

  /** The refresh loop of the final shop: up to two refresh rounds. Ok(n)
      reports the n refreshes, which are the rounds `fills`; fewer than two
      means the capture after the last round showed no refresh button. */
  method RefreshCycles(emu: Emulator, keys: Flags) returns (r: Outcome<nat>, ghost fills: seq<Refill>)
    requires emu.Valid() && keys.Valid()
    modifies emu, keys
    ensures emu.Valid() && keys.Valid() && old(emu.seen) <= emu.seen && old(emu.trace) <= emu.trace
    ensures old(keys.skipInitial) ==> keys.skipInitial
    ensures AllWithin(emu.trace, |old(emu.trace)|, RestockTargets)
    ensures Count(emu.trace, OnToken(Refresh)) <= Count(old(emu.trace), OnToken(Refresh)) + 2
    ensures r.Ok? ==>
      r.value <= 2 && Count(emu.trace, OnToken(Refresh)) == Count(old(emu.trace), OnToken(Refresh)) + r.value
    ensures r.Ok? ==>
      && r.value == |fills|
      && RefillsDone(emu, fills, old(emu.seen))
      && emu.trace == RefillClicks(old(emu.trace), fills)
    ensures r.Ok? && |fills| == 2 ==> emu.seen == RefillEnd(fills, old(emu.seen))
    ensures r.Ok? && |fills| < 2 ==>
      emu.seen == RefillEnd(fills, old(emu.seen)) + 1 && emu.Lacks(RefillEnd(fills, old(emu.seen)), Refresh, Threshold)
  {
    fills := [];
    var refreshes := 0;
    while refreshes < 2
      invariant refreshes <= 2 && refreshes == |fills|
      invariant emu.Valid() && keys.Valid() && old(emu.seen) <= emu.seen && old(emu.trace) <= emu.trace
      invariant old(keys.skipInitial) ==> keys.skipInitial
      invariant AllWithin(emu.trace, |old(emu.trace)|, RestockTargets)
      invariant Count(emu.trace, OnToken(Refresh)) == Count(old(emu.trace), OnToken(Refresh)) + refreshes
      invariant RefillsDone(emu, fills, old(emu.seen))
      invariant emu.trace == RefillClicks(old(emu.trace), fills)
      invariant emu.seen == RefillEnd(fills, old(emu.seen))
    {
      ghost var before := emu.trace;
      var again, fill := RefreshOnce(emu, keys, old(emu.trace), old(emu.seen), fills);
      WithinJoin(before, emu.trace, |old(emu.trace)|, RestockTargets, RestockTargets, RestockTargets);
      if again.Halted? {
        return Halted(again.halt), fills;
      }
      if !again.value {
        return Ok(refreshes), fills;
      }
      fills := fills + [fill];
      refreshes := refreshes + 1;
    }
    return Ok(refreshes), fills;
  }

  /** The trace `t` followed by the tag sweep from capture `k` on: a click
      on the tag of each capture that shows one, up to the first that does
      not. */
  ghost function Swept(emu: Emulator, t: seq<Action>, k: nat): seq<Action>
    decreases |emu.screens| - k
  {
    if emu.Shows(k, Tag, Threshold) then Swept(emu, t + [emu.TokenClick(k, Tag, Threshold)], k + 1) else t
  }

  /** The first capture from `k` on that shows no tag. */
  ghost function SweepEnd(emu: Emulator, k: nat): (e: nat)
    ensures k <= e
    decreases |emu.screens| - k
  {
    if emu.Shows(k, Tag, Threshold) then SweepEnd(emu, k + 1) else k
  }

  /** The sweep from `k` keeps what was before it and looks at the captures
      from `k` up to `SweepEnd`, one click each. */
  lemma {:induction false} SweptLength(emu: Emulator, t: seq<Action>, k: nat)
    ensures |Swept(emu, t, k)| == |t| + SweepEnd(emu, k) - k
    ensures t <= Swept(emu, t, k)
    decreases |emu.screens| - k
  {
    if emu.Shows(k, Tag, Threshold) {
      SweptLength(emu, t + [emu.TokenClick(k, Tag, Threshold)], k + 1);
    }
  }

  /** Click `i` of the sweep from `k` is on the tag of capture `k` plus its
      position in the sweep: the captures are taken in order, one click each. */
  lemma {:induction false} SweptAt(emu: Emulator, t: seq<Action>, k: nat, i: nat)
    requires |t| <= i < |Swept(emu, t, k)|
    ensures emu.Shows(k + (i - |t|), Tag, Threshold)
    ensures Swept(emu, t, k)[i] == emu.TokenClick(k + (i - |t|), Tag, Threshold)
    decreases |emu.screens| - k
  {
    var t' := t + [emu.TokenClick(k, Tag, Threshold)];
    if i == |t| {
      SweptLength(emu, t', k + 1);
      assert Swept(emu, t', k + 1)[i] == t'[i];
    } else {
      SweptAt(emu, t', k + 1, i);
      assert k + 1 + (i - |t'|) == k + (i - |t|);
    }
  }

  /** The sweep from `k` stops on the first capture without a tag: every
      capture before it shows one. */
  lemma {:induction false} SweepStops(emu: Emulator, k: nat)
    ensures !emu.Shows(SweepEnd(emu, k), Tag, Threshold)
    ensures forall j :: k <= j < SweepEnd(emu, k) ==> emu.Shows(j, Tag, Threshold)
    decreases |emu.screens| - k
  {
    if emu.Shows(k, Tag, Threshold) {
      SweepStops(emu, k + 1);
    }
  }

  /** The tag sweep after the second refresh: the check point and a capture,
      and a click on the tag icon, for as long as captures show one. */
  method SweepTags(emu: Emulator, keys: Flags) returns (r: Outcome<()>)
    requires emu.Valid() && keys.Valid()
    modifies emu, keys
    ensures emu.Valid() && keys.Valid() && old(emu.seen) <= emu.seen && old(emu.trace) <= emu.trace
    ensures old(keys.skipInitial) ==> keys.skipInitial
    ensures forall i :: |old(emu.trace)| <= i < |emu.trace| ==>
      emu.ClickedOn(emu.trace[i], Tag, Threshold) && emu.trace[i].target == OnToken(Tag)
    ensures forall i :: |old(emu.trace)| <= i < |emu.trace| ==> emu.trace[i].capture == old(emu.seen) + (i - |old(emu.trace)|)
    ensures r.Ok? ==>
      && emu.trace == Swept(emu, old(emu.trace), old(emu.seen))
      && emu.seen == SweepEnd(emu, old(emu.seen)) + 1
      && emu.Lacks(SweepEnd(emu, old(emu.seen)), Tag, Threshold)
  {
    while true
      invariant emu.Valid() && keys.Valid() && old(emu.seen) <= emu.seen && old(emu.trace) <= emu.trace
      invariant old(keys.skipInitial) ==> keys.skipInitial
      invariant forall i :: |old(emu.trace)| <= i < |emu.trace| ==>
        emu.ClickedOn(emu.trace[i], Tag, Threshold) && emu.trace[i].target == OnToken(Tag)
      invariant |emu.trace| - |old(emu.trace)| == emu.seen - old(emu.seen)
      invariant forall i :: |old(emu.trace)| <= i < |emu.trace| ==> emu.trace[i].capture == old(emu.seen) + (i - |old(emu.trace)|)
      invariant Swept(emu, old(emu.trace), old(emu.seen)) == Swept(emu, emu.trace, emu.seen)
      invariant SweepEnd(emu, old(emu.seen)) == SweepEnd(emu, emu.seen)
      decreases |emu.screens| - emu.seen
    {
      var more :- SweepStep(emu, keys, old(emu.trace), old(emu.seen));
      if !more {
        break;
      }
    }
    return Ok(());
  }

  /** One round of the tag sweep that began on capture `k0` with the trace
      `t0`: the check point, a capture, and a click on the tag icon if it
      shows. Ok(false) means it did not, which ends the sweep. */
  method SweepStep(emu: Emulator, keys: Flags, ghost t0: seq<Action>, ghost k0: nat) returns (r: Outcome<bool>)
    requires emu.Valid() && keys.Valid() && k0 <= emu.seen && t0 <= emu.trace
    requires forall i :: |t0| <= i < |emu.trace| ==>
      emu.ClickedOn(emu.trace[i], Tag, Threshold) && emu.trace[i].target == OnToken(Tag)
    requires |emu.trace| - |t0| == emu.seen - k0
    requires forall i :: |t0| <= i < |emu.trace| ==> emu.trace[i].capture == k0 + (i - |t0|)
    requires Swept(emu, t0, k0) == Swept(emu, emu.trace, emu.seen)
    requires SweepEnd(emu, k0) == SweepEnd(emu, emu.seen)
    modifies emu, keys
    ensures emu.Valid() && keys.Valid() && old(emu.seen) <= emu.seen && t0 <= emu.trace
    ensures old(keys.skipInitial) ==> keys.skipInitial
    ensures forall i :: |t0| <= i < |emu.trace| ==>
      emu.ClickedOn(emu.trace[i], Tag, Threshold) && emu.trace[i].target == OnToken(Tag)
    ensures forall i :: |t0| <= i < |emu.trace| ==> emu.trace[i].capture == k0 + (i - |t0|)
    ensures r == Ok(true) ==>
      && old(emu.seen) < emu.seen
      && |emu.trace| - |t0| == emu.seen - k0
      && Swept(emu, t0, k0) == Swept(emu, emu.trace, emu.seen)
      && SweepEnd(emu, k0) == SweepEnd(emu, emu.seen)
    ensures r == Ok(false) ==>
      && emu.trace == Swept(emu, t0, k0)
      && emu.seen == SweepEnd(emu, k0) + 1
      && emu.Lacks(SweepEnd(emu, k0), Tag, Threshold)
  {
    var go :- CheckPoint(keys);
    var f :- Capture(emu, keys);
    var pos := emu.Locate(f, Tag, Threshold);
    if pos.None? {
      return Ok(false);
    }
    emu.Press(OnToken(Tag), Absolute(f.rect, pos.value));
    assert emu.ClickedOn(emu.trace[|emu.trace| - 1], Tag, Threshold);
    return Ok(true);
  }

  /** The trace `t` followed by the back probe on capture `k`: the click on
      the back arrow if that capture shows it. */
  ghost function Backed(emu: Emulator, t: seq<Action>, k: nat): seq<Action>
  {
    if emu.Shows(k, Back, Threshold) then t + [emu.TokenClick(k, Back, Threshold)] else t
  }

  /** The exit probe: one capture, and a click on the back arrow if it shows.
      Ok(b) tells whether it was clicked. */
  method ProbeBack(emu: Emulator, keys: Flags) returns (r: Outcome<bool>)
    requires emu.Valid() && keys.Valid()
    modifies emu, keys
    ensures emu.Valid() && keys.Valid() && old(emu.seen) <= emu.seen
    ensures old(keys.skipInitial) ==> keys.skipInitial
    ensures r.Halted? ==> emu.trace == old(emu.trace)
    ensures r.Ok? ==>
      && emu.seen == old(emu.seen) + 1
      && emu.screens[old(emu.seen)].Window?
      && (r.value <==> emu.Shows(old(emu.seen), Back, Threshold))
      && emu.trace == Backed(emu, old(emu.trace), old(emu.seen))
  {
    var f :- Capture(emu, keys);
    var pos := emu.Locate(f, Back, Threshold);
    if pos.Some? {
      emu.Press(OnToken(Back), Absolute(f.rect, pos.value));
      return Ok(true);
    }
    return Ok(false);
  }

  /** A back probe appended to a trace adds at most one click, on the back
      arrow, exactly when capture `k` shows it. */
  lemma BackProbeGrowth(emu: Emulator, before: seq<Action>, after: seq<Action>, k: nat)
    requires after == Backed(emu, before, k)
    ensures before <= after
    ensures AllWithin(after, |before|, {OnToken(Back)})
    ensures Count(after, OnToken(Back)) == Count(before, OnToken(Back)) + (if emu.Shows(k, Back, Threshold) then 1 else 0)
    ensures Count(after, OnToken(Refresh)) == Count(before, OnToken(Refresh))
    ensures Count(after, OnToken(Tag)) == Count(before, OnToken(Tag))
  {
    if emu.Shows(k, Back, Threshold) {
      CountSnoc(before, after[|before|], OnToken(Back));
      CountSnoc(before, after[|before|], OnToken(Refresh));
      CountSnoc(before, after[|before|], OnToken(Tag));
    }
  }

  /** The trace `t` followed by the end of a final shop that refreshed
      twice, from capture `k` on: the tag sweep, then the back probe on the
      capture after the one that showed no tag. */
  ghost function SweptOut(emu: Emulator, t: seq<Action>, k: nat): seq<Action>
  {
    Backed(emu, Swept(emu, t, k), SweepEnd(emu, k) + 1)
  }

  /** The end of a final shop after two refreshes, from capture `k` on,
      clicks the tag on the consecutive captures from `k` up to the first
      that shows none, then the back arrow exactly when the capture after
      that one shows it. */
  lemma SweptOutShape(emu: Emulator, t: seq<Action>, k: nat)
    ensures var e := SweepEnd(emu, k);
      && t <= SweptOut(emu, t, k)
      && |SweptOut(emu, t, k)| == |t| + (e - k) + (if emu.Shows(e + 1, Back, Threshold) then 1 else 0)
      && (forall i :: |t| <= i < |t| + (e - k) ==>
            emu.Shows(k + (i - |t|), Tag, Threshold) && SweptOut(emu, t, k)[i] == emu.TokenClick(k + (i - |t|), Tag, Threshold))
      && !emu.Shows(e, Tag, Threshold)
      && (emu.Shows(e + 1, Back, Threshold) ==> SweptOut(emu, t, k)[|t| + (e - k)] == emu.TokenClick(e + 1, Back, Threshold))
  {
    var swept := Swept(emu, t, k);
    SweptLength(emu, t, k);
    SweepStops(emu, k);
    assert swept <= SweptOut(emu, t, k);
    forall i | |t| <= i < |t| + (SweepEnd(emu, k) - k)
      ensures emu.Shows(k + (i - |t|), Tag, Threshold) && SweptOut(emu, t, k)[i] == emu.TokenClick(k + (i - |t|), Tag, Threshold)
    {
      SweptAt(emu, t, k, i);
    }
  }

  /** The end of the final shop after two refreshes: sweep the tags, then
      probe for the back arrow. */
  method SweepAndExit(emu: Emulator, keys: Flags) returns (r: Outcome<()>)
    requires emu.Valid() && keys.Valid()
    modifies emu, keys
    ensures emu.Valid() && keys.Valid() && old(emu.seen) <= emu.seen && old(emu.trace) <= emu.trace
    ensures old(keys.skipInitial) ==> keys.skipInitial
    ensures AllWithin(emu.trace, |old(emu.trace)|, {OnToken(Tag), OnToken(Back)})
    ensures Count(emu.trace, OnToken(Refresh)) == Count(old(emu.trace), OnToken(Refresh))
    ensures Count(emu.trace, OnToken(Back)) <= Count(old(emu.trace), OnToken(Back)) + 1
    ensures r.Ok? ==>
      && emu.trace == SweptOut(emu, old(emu.trace), old(emu.seen))
      && emu.seen == SweepEnd(emu, old(emu.seen)) + 2
      && emu.Lacks(SweepEnd(emu, old(emu.seen)), Tag, Threshold)
      && emu.screens[SweepEnd(emu, old(emu.seen)) + 1].Window?
      && (Count(emu.trace, OnToken(Back)) > Count(old(emu.trace), OnToken(Back)) <==> emu.Shows(SweepEnd(emu, old(emu.seen)) + 1, Back, Threshold))
  {
    ghost var t0 := emu.trace;
    var swept := SweepTags(emu, keys);
    CountKept(t0, emu.trace, {OnToken(Tag)}, OnToken(Refresh));
    CountKept(t0, emu.trace, {OnToken(Tag)}, OnToken(Back));
    WithinJoin(t0, emu.trace, |t0|, {}, {OnToken(Tag)}, {OnToken(Tag), OnToken(Back)});
    if swept.Halted? {
      return Halted(swept.halt);
    }
    ghost var t1, k := emu.trace, emu.seen;
    var left := ProbeBack(emu, keys);
    if left.Halted? {
      return Halted(left.halt);
    }
    BackProbeGrowth(emu, t1, emu.trace, k);
    WithinJoin(t1, emu.trace, |t0|, {OnToken(Tag), OnToken(Back)}, {OnToken(Back)}, {OnToken(Tag), OnToken(Back)});
    return Ok(());
  }

  /** The refresh rounds `fills` of a final shop whose refresh loop starts
      on capture `k`: at most two, done back to back, and when fewer than
      two, the capture after the last showed no refresh button. */
  ghost predicate FinalDone(emu: Emulator, k: nat, fills: seq<Refill>)
  {
    && |fills| <= 2
    && RefillsDone(emu, fills, k)
    && (|fills| < 2 ==> emu.Lacks(RefillEnd(fills, k), Refresh, Threshold))
  }

  /** The trace `t` followed by what the final shop does after its first
      purchases, from capture `k` on, with the refresh rounds `fills`: those
      rounds and, after two of them, the tag sweep and the back probe. */
  ghost function FinalClicks(emu: Emulator, t: seq<Action>, k: nat, fills: seq<Refill>): seq<Action>
  {
    if |fills| < 2 then RefillClicks(t, fills)
    else SweptOut(emu, RefillClicks(t, fills), RefillEnd(fills, k))
  }

  /** The first capture after those steps. */
  ghost function FinalEnd(emu: Emulator, k: nat, fills: seq<Refill>): nat
  {
    if |fills| < 2 then RefillEnd(fills, k) + 1 else SweepEnd(emu, RefillEnd(fills, k)) + 2
  }

  /** The rest of the final shop after the first purchases: the refresh
      loop and, after two refreshes only, the tag sweep and the back probe.
      `fills` are the refresh rounds. */
  method FinalFloor(emu: Emulator, keys: Flags) returns (r: Outcome<()>, ghost fills: seq<Refill>)
    requires emu.Valid() && keys.Valid()
    modifies emu, keys
    ensures emu.Valid() && keys.Valid() && old(emu.seen) <= emu.seen && old(emu.trace) <= emu.trace
    ensures old(keys.skipInitial) ==> keys.skipInitial
    ensures AllWithin(emu.trace, |old(emu.trace)|, FloorTargets)
    ensures ShopCounts(old(emu.trace), emu.trace, true)
    ensures r.Ok? ==>
      && FinalDone(emu, old(emu.seen), fills)
      && emu.trace == FinalClicks(emu, old(emu.trace), old(emu.seen), fills)
      && emu.seen == FinalEnd(emu, old(emu.seen), fills)
  {
    TargetSets();
    ghost var t0 := emu.trace;
    var refreshed;
    refreshed, fills := RefreshCycles(emu, keys);
    CountKept(t0, emu.trace, RestockTargets, OnToken(Tag));
    CountKept(t0, emu.trace, RestockTargets, OnToken(Back));
    WithinJoin(t0, emu.trace, |t0|, {}, RestockTargets, FloorTargets);
    if refreshed.Halted? || refreshed.value < 2 {
      return if refreshed.Halted? then Halted(refreshed.halt) else Ok(()), fills;
    }
    ghost var t1 := emu.trace;
    r := SweepAndExit(emu, keys);
    WithinJoin(t1, emu.trace, |t0|, FloorTargets, {OnToken(Tag), OnToken(Back)}, FloorTargets);
  }

  /** The trace `t` followed by what handle_shop does after its first
      purchases, from capture `k` on: the rest of the final shop with the
      refresh rounds `fills`, or else the back probe on capture `k`. */
  ghost function AfterPurchase(emu: Emulator, t: seq<Action>, k: nat, final: bool, fills: seq<Refill>): seq<Action>
  {
    if final then FinalClicks(emu, t, k, fills) else Backed(emu, t, k)
  }

  /** The first capture after those steps. */
  ghost function AfterPurchaseEnd(emu: Emulator, k: nat, final: bool, fills: seq<Refill>): nat
  {
    if final then FinalEnd(emu, k, fills) else k + 1
  }

  /** What handle_shop does after the first purchases: the rest of the final
      shop, or (not the final shop) the probe for the back arrow. */
  method CloseFloor(emu: Emulator, keys: Flags, final: bool) returns (r: Outcome<()>, ghost fills: seq<Refill>)
    requires emu.Valid() && keys.Valid()
    modifies emu, keys
    ensures emu.Valid() && keys.Valid() && old(emu.seen) <= emu.seen && old(emu.trace) <= emu.trace
    ensures old(keys.skipInitial) ==> keys.skipInitial
    ensures AllWithin(emu.trace, |old(emu.trace)|, FloorTargets)
    ensures ShopCounts(old(emu.trace), emu.trace, final)
    ensures r.Ok? && !final ==>
      && fills == []
      && old(emu.seen) < |emu.screens| && emu.screens[old(emu.seen)].Window?
      && (Count(emu.trace, OnToken(Back)) > Count(old(emu.trace), OnToken(Back)) <==> emu.Shows(old(emu.seen), Back, Threshold))
    ensures r.Ok? && final ==> FinalDone(emu, old(emu.seen), fills)
    ensures r.Ok? ==>
      && emu.trace == AfterPurchase(emu, old(emu.trace), old(emu.seen), final, fills)
      && emu.seen == AfterPurchaseEnd(emu, old(emu.seen), final, fills)
  {
    ghost var t0, k := emu.trace, emu.seen;
    fills := [];
    if final {
      r, fills := FinalFloor(emu, keys);
    } else {
      var left := ProbeBack(emu, keys);
      if left.Halted? {
        return Halted(left.halt), fills;
      }
      BackProbeGrowth(emu, t0, emu.trace, k);
      WithinJoin(t0, emu.trace, |t0|, {}, {OnToken(Back)}, FloorTargets);
      return Ok(()), fills;
    }
  }

  /** What a shop floor did: the note and 100-point passes of its first
      purchases, `bought`, the first capture after them, and the refresh
      rounds of a final shop. */
  datatype Floor = Floor(notes: Pass, hundreds: Pass, bought: nat, fills: seq<Refill>)

  /** Everything handle_shop does between entering and leaving: buy, then
      close the floor. `floor` says what was bought and refreshed. */
  method ShopFloor(emu: Emulator, keys: Flags, final: bool) returns (r: Outcome<()>, ghost floor: Floor)
    requires emu.Valid() && keys.Valid()
    modifies emu, keys
    ensures emu.Valid() && keys.Valid() && old(emu.seen) <= emu.seen && old(emu.trace) <= emu.trace
    ensures old(keys.skipInitial) ==> keys.skipInitial
    ensures AllWithin(emu.trace, |old(emu.trace)|, FloorTargets)
    ensures ShopCounts(old(emu.trace), emu.trace, final)
    ensures r.Ok? ==> Purchased(emu, old(emu.seen), floor.notes, floor.hundreds, floor.bought)
    ensures r.Ok? && !final ==>
      && floor.fills == []
      && floor.bought < |emu.screens| && emu.screens[floor.bought].Window?
      && (Count(emu.trace, OnToken(Back)) > Count(old(emu.trace), OnToken(Back)) <==> emu.Shows(floor.bought, Back, Threshold))
    ensures r.Ok? && final ==> FinalDone(emu, floor.bought, floor.fills)
    ensures r.Ok? ==>
      && emu.trace == AfterPurchase(emu, Bought(old(emu.trace), floor.notes, floor.hundreds), floor.bought, final, floor.fills)
      && emu.seen == AfterPurchaseEnd(emu, floor.bought, final, floor.fills)
  {
    ghost var t0 := emu.trace;
    var bought, notesEnd, notes, hundreds := PurchaseItems(emu, keys);
    floor := Floor(notes, hundreds, emu.seen, []);
    ghost var t1 := emu.trace;
    if bought.Halted? {
      FloorTally(t0, t1, t1, final, false, false);
      return bought, floor;
    }
    ghost var fills;
    r, fills := CloseFloor(emu, keys, final);
    floor := floor.(fills := fills);
    FloorTally(t0, t1, emu.trace, final, r.Ok? && !final, emu.Shows(floor.bought, Back, Threshold));
  }

  /** Purchases leave the shop-floor counts as the closing of the floor
      made them. */
  lemma FloorTally(t0: seq<Action>, t1: seq<Action>, t2: seq<Action>, final: bool, closed: bool, shown: bool)
    requires t0 <= t1 && t1 <= t2
    requires AllWithin(t1, |t0|, PurchaseTargets) && AllWithin(t2, |t1|, FloorTargets)
    requires ShopCounts(t1, t2, final)
    requires closed ==> (Count(t2, OnToken(Back)) > Count(t1, OnToken(Back)) <==> shown)
    ensures AllWithin(t2, |t0|, FloorTargets) && ShopCounts(t0, t2, final)
    ensures closed ==> (Count(t2, OnToken(Back)) > Count(t0, OnToken(Back)) <==> shown)
  {
    TargetSets();
    WithinJoin(t1, t2, |t0|, PurchaseTargets, FloorTargets, FloorTargets);
    CountKept(t0, t1, PurchaseTargets, OnToken(Refresh));
    CountKept(t0, t1, PurchaseTargets, OnToken(Tag));
    CountKept(t0, t1, PurchaseTargets, OnToken(Back));
  }

  /** The counts handle_shop promises between two traces: the refresh
      button at most twice and only in the final shop, the back arrow at most
      once, no tag outside the final shop, and neither tags nor the back arrow
      in a final shop that did not refresh twice. */
  ghost predicate ShopCounts(before: seq<Action>, after: seq<Action>, final: bool)
  {
    && Count(after, OnToken(Refresh)) <= Count(before, OnToken(Refresh)) + (if final then 2 else 0)
    && Count(after, OnToken(Back)) <= Count(before, OnToken(Back)) + 1
    && (!final ==> Count(after, OnToken(Tag)) == Count(before, OnToken(Tag)))
    && (final && Count(after, OnToken(Refresh)) < Count(before, OnToken(Refresh)) + 2 ==>
          && Count(after, OnToken(Tag)) == Count(before, OnToken(Tag))
          && Count(after, OnToken(Back)) == Count(before, OnToken(Back)))
  }

  /** The approach and the closing bubble click (if `left`) leave the
      shop-floor counts as the floor made them. */
  lemma ShopTally(t0: seq<Action>, t1: seq<Action>, t2: seq<Action>, t3: seq<Action>, final: bool, left: bool, exit: Action)
    requires t0 <= t1 && t1 <= t2
    requires AllWithin(t1, |t0|, ApproachTargets)
    requires AllWithin(t2, |t1|, FloorTargets)
    requires ShopCounts(t1, t2, final)
    requires exit.target == Bubble(2)
    requires t3 == t2 + (if left then [exit] else [])
    ensures t0 <= t3 && ShopCounts(t0, t3, final)
    ensures Bubbles(t1) == Bubbles(t0) + [1, 1, 0] && left ==> Bubbles(t3) == Bubbles(t0) + [1, 1, 0, 2]
  {
    TargetSets();
    CountKept(t0, t1, ApproachTargets, OnToken(Refresh));
    CountKept(t0, t1, ApproachTargets, OnToken(Tag));
    CountKept(t0, t1, ApproachTargets, OnToken(Back));
    BubblesKept(t1, t2, FloorTargets);
    if left {
      CountSnoc(t2, exit, OnToken(Refresh));
      CountSnoc(t2, exit, OnToken(Tag));
      CountSnoc(t2, exit, OnToken(Back));
      BubblesSnoc(t2, exit);
      assert Bubbles(t0) + [1, 1, 0] + [2] == Bubbles(t0) + [1, 1, 0, 2];
    } else {
      assert t3 == t2;
    }
  }

  /** The shop floor and the way out: everything handle_shop does after the
      approach. `inside` is the trace when the floor is closed and `exit` the
      click on the third bubble that follows it. */
  method LeaveShop(emu: Emulator, keys: Flags, final: bool) returns (r: Outcome<()>, ghost floor: Floor, ghost inside: seq<Action>, ghost exit: Action)
    requires emu.Valid() && keys.Valid()
    modifies emu, keys
    ensures emu.Valid() && keys.Valid() && old(emu.seen) <= emu.seen
    ensures old(keys.skipInitial) ==> keys.skipInitial
    ensures old(emu.trace) <= inside && AllWithin(inside, |old(emu.trace)|, FloorTargets)
    ensures ShopCounts(old(emu.trace), inside, final)
    ensures exit.target == Bubble(2) && emu.trace == inside + (if r.Ok? then [exit] else [])
    ensures r.Ok? ==> Purchased(emu, old(emu.seen), floor.notes, floor.hundreds, floor.bought)
    ensures r.Ok? && !final ==>
      && floor.fills == []
      && floor.bought < |emu.screens| && emu.screens[floor.bought].Window?
      && (Count(inside, OnToken(Back)) > Count(old(emu.trace), OnToken(Back)) <==> emu.Shows(floor.bought, Back, Threshold))
    ensures r.Ok? && final ==> FinalDone(emu, floor.bought, floor.fills)
    ensures r.Ok? ==>
      && inside == AfterPurchase(emu, Bought(old(emu.trace), floor.notes, floor.hundreds), floor.bought, final, floor.fills)
      && emu.seen == AfterPurchaseEnd(emu, floor.bought, final, floor.fills) + 1
      && emu.screens[AfterPurchaseEnd(emu, floor.bought, final, floor.fills)].Window?
      && exit == Click(Bubble(2), BubblePoint(emu.RectAt(AfterPurchaseEnd(emu, floor.bought, final, floor.fills)), 2),
                       AfterPurchaseEnd(emu, floor.bought, final, floor.fills))
  {
    exit := Click(Bubble(2), Point(0, 0), 0);
    r, floor := ShopFloor(emu, keys, final);
    inside := emu.trace;
    if r.Halted? {
      return;
    }
    r := ClickBubble(emu, keys, 2);
    if r.Ok? {
      exit := emu.trace[|inside|];
    }
  }

  /** handle_shop of this revision: approach by the bubbles (claiming a
      reward after each second-bubble click), work the shop floor, then pick
      the third bubble to leave. `inside` is the trace on entering the floor,
      so the whole approach comes before every floor click; `mid` splits the
      approach into its two steps. */
  method HandleShop(emu: Emulator, keys: Flags, final: bool) returns (r: Outcome<()>, ghost mid: nat, ghost inside: seq<Action>)
    requires emu.Valid() && keys.Valid()
    modifies emu, keys
    ensures emu.Valid() && keys.Valid() && old(emu.seen) <= emu.seen && old(emu.trace) <= emu.trace
    ensures old(keys.skipInitial) ==> keys.skipInitial
    ensures r.Ok? ==> Bubbles(emu.trace) == Bubbles(old(emu.trace)) + [1, 1, 0, 2]
    ensures r.Ok? ==> emu.trace[|emu.trace| - 1].target == Bubble(2)
    ensures r.Ok? ==> Visit(old(emu.trace), emu.trace, |inside|, ApproachTargets, FloorTargets)
    ensures r.Ok? ==> inside <= emu.trace && Approach(emu, old(emu.trace), inside, mid)
    ensures ShopCounts(old(emu.trace), emu.trace, final)
  {
    ghost var t0 := emu.trace;
    r, mid := ApproachShop(emu, keys);
    inside := emu.trace;
    ghost var t1 := emu.trace;
    assert r.Ok? ==> t1[|t1| - 1].target == Bubble(0);
    ghost var t2 := t1;
    ghost var exit := Click(Bubble(2), Point(0, 0), 0);
    ghost var left := false;
    if r.Ok? {
      ghost var floor;
      r, floor, t2, exit := LeaveShop(emu, keys, final);
      left := r.Ok?;
      if r.Ok? {
        VisitAssembled(t0, t1, t2, exit, emu.trace, ApproachTargets, FloorTargets);
      }
    }
    ShopTally(t0, t1, t2, emu.trace, final, left, exit);
  }


  /** The shop branch of main_loop with `shops` shops behind it: the visit
      is the final one when it is the last the loop allows. */
  method ShopTurn(emu: Emulator, keys: Flags, shops: nat) returns (r: Outcome<()>)
    requires emu.Valid() && keys.Valid()
    modifies emu, keys
    ensures emu.Valid() && keys.Valid() && old(emu.seen) <= emu.seen && old(emu.trace) <= emu.trace
    ensures old(keys.skipInitial) ==> keys.skipInitial
    ensures r.Ok? ==> Bubbles(emu.trace) == Bubbles(old(emu.trace)) + [1, 1, 0, 2]
    ensures Count(emu.trace, OnToken(Refresh)) <= Count(old(emu.trace), OnToken(Refresh)) + (if shops == MaxShops - 1 then 2 else 0)
  {
    var final := shops == MaxShops - 1;
    ghost var mid, inside;
    r, mid, inside := HandleShop(emu, keys, final);
  }

  /** The dialog branch of main_loop: one or two dialog clicks, none of them
      on a bubble or on the refresh button. */
  method DialogTurn(emu: Emulator, keys: Flags) returns (r: Outcome<()>)
    requires emu.Valid() && keys.Valid()
    modifies emu, keys
    ensures emu.Valid() && keys.Valid() && old(emu.seen) <= emu.seen && old(emu.trace) <= emu.trace
    ensures old(keys.skipInitial) ==> keys.skipInitial
    ensures AllWithin(emu.trace, |old(emu.trace)|, DialogTargets)
    ensures r.Ok? ==> |old(emu.trace)| < |emu.trace| <= |old(emu.trace)| + 2
    ensures Bubbles(emu.trace) == Bubbles(old(emu.trace))
    ensures Count(emu.trace, OnToken(Refresh)) == Count(old(emu.trace), OnToken(Refresh))
  {
    r := SelectChoiceOrFirst(emu, keys);
    CountKept(old(emu.trace), emu.trace, DialogTargets, OnToken(Refresh));
    BubblesKept(old(emu.trace), emu.trace, DialogTargets);
  }

  datatype Turn = Saved | Shopped | Chose | Idled

  /** The main loop's choice on detection capture `d` with `shops` shops
      behind it: the save button wins; then a shop notice while fewer than
      MaxShops shops were entered; then the select icon (at the looser
      threshold) or a thumbs-up; else nothing. */
  ghost predicate Dispatched(emu: Emulator, d: int, shops: nat, turn: Turn)
  {
    && 0 <= d < |emu.screens| && emu.screens[d].Window?
    && match turn
       case Saved => emu.Shows(d, Save, Threshold)
       case Shopped =>
         emu.Lacks(d, Save, Threshold) && emu.Shows(d, EnterShop, Threshold) && shops < MaxShops
       case Chose =>
         && emu.Lacks(d, Save, Threshold)
         && !(emu.Shows(d, EnterShop, Threshold) && shops < MaxShops)
         && (emu.Shows(d, Select, SelectThreshold) || emu.Shows(d, Choice, Threshold))
       case Idled =>
         && emu.Lacks(d, Save, Threshold)
         && !(emu.Shows(d, EnterShop, Threshold) && shops < MaxShops)
         && emu.Lacks(d, Select, SelectThreshold) && emu.Lacks(d, Choice, Threshold)
  }

  /** Every detection capture selects exactly one branch of the main loop. */
  lemma DispatchIsAFunction(emu: Emulator, d: int, shops: nat)
    requires 0 <= d < |emu.screens| && emu.screens[d].Window?
    ensures exists turn :: Dispatched(emu, d, shops, turn)
    ensures forall t1, t2 :: Dispatched(emu, d, shops, t1) && Dispatched(emu, d, shops, t2) ==> t1 == t2
  {
    if emu.Shows(d, Save, Threshold) {
      assert Dispatched(emu, d, shops, Saved);
    } else if emu.Shows(d, EnterShop, Threshold) && shops < MaxShops {
      assert Dispatched(emu, d, shops, Shopped);
    } else if emu.Shows(d, Select, SelectThreshold) || emu.Shows(d, Choice, Threshold) {
      assert Dispatched(emu, d, shops, Chose);
    } else {
      assert Dispatched(emu, d, shops, Idled);
    }
  }

  /** The second half of a pass of main_loop: one detection capture and the
      branch it selects. */
  method Respond(emu: Emulator, keys: Flags, shops: nat) returns (r: Outcome<Turn>)
    requires emu.Valid() && keys.Valid()
    modifies emu, keys
    ensures emu.Valid() && keys.Valid() && old(emu.seen) <= emu.seen && old(emu.trace) <= emu.trace
    ensures old(keys.skipInitial) ==> keys.skipInitial
    ensures r.Ok? ==> old(emu.seen) < emu.seen && Dispatched(emu, old(emu.seen), shops, r.value)
    ensures r == Ok(Saved) ==> emu.trace == old(emu.trace) + [emu.TokenClick(old(emu.seen), Save, Threshold)]
    ensures r == Ok(Idled) ==> emu.trace == old(emu.trace)
    ensures r == Ok(Chose) ==>
      |old(emu.trace)| < |emu.trace| <= |old(emu.trace)| + 2 && AllWithin(emu.trace, |old(emu.trace)|, DialogTargets)
    ensures r.Ok? ==> Bubbles(emu.trace) == Bubbles(old(emu.trace)) + (if r.value == Shopped then [1, 1, 0, 2] else [])
    ensures Count(emu.trace, OnToken(Refresh)) <= Count(old(emu.trace), OnToken(Refresh)) + (if shops == MaxShops - 1 then 2 else 0)
    ensures r.Ok? && r.value != Shopped ==> Count(emu.trace, OnToken(Refresh)) == Count(old(emu.trace), OnToken(Refresh))
  {
    var f :- Capture(emu, keys);
    var save := emu.Locate(f, Save, Threshold);
    var shop := emu.Locate(f, EnterShop, Threshold);
    var select := emu.Locate(f, Select, SelectThreshold);
    var choice := emu.Locate(f, Choice, Threshold);
    var turn :=
      if save.Some? then Saved
      else if shop.Some? && shops < MaxShops then Shopped
      else if select.Some? || choice.Some? then Chose
      else Idled;
    assert Dispatched(emu, old(emu.seen), shops, turn);
    r := Ok(turn);
    if turn == Saved {
      emu.Press(OnToken(Save), Absolute(f.rect, save.value));
      CountKept(old(emu.trace), emu.trace, {OnToken(Save)}, OnToken(Refresh));
      BubblesKept(old(emu.trace), emu.trace, {OnToken(Save)});
    } else if turn == Shopped {
      var done := ShopTurn(emu, keys, shops);
      if done.Halted? {
        r := Halted(done.halt);
      }
    } else if turn == Chose {
      var chose := DialogTurn(emu, keys);
      if chose.Halted? {
        r := Halted(chose.halt);
      }
    }
  }

  /** One pass of main_loop: the check point, the burst, then the detection
      capture and the branch it selects. The refresh button can only be
      clicked in the shop entered with three shops behind. */
  method Iteration(emu: Emulator, keys: Flags, shops: nat) returns (r: Outcome<Turn>)
    requires emu.Valid() && keys.Valid()
    modifies emu, keys
    ensures emu.Valid() && keys.Valid() && old(emu.seen) <= emu.seen && old(emu.trace) <= emu.trace
    ensures old(keys.skipInitial) ==> keys.skipInitial
    ensures !old(keys.running) ==> r == Halted(StopRequested) && emu.trace == old(emu.trace)
    ensures r.Ok? ==>
      && old(emu.seen) + 2 <= emu.seen
      && Dispatched(emu, old(emu.seen) + 1, shops, r.value)
      && |old(emu.trace)| < |emu.trace|
      && emu.screens[old(emu.seen)].Window?
      && emu.trace[|old(emu.trace)|] == Click(FastForward, LeftEdge(emu.RectAt(old(emu.seen))), old(emu.seen))
    ensures r == Ok(Saved) ==>
      emu.trace == old(emu.trace) + [emu.trace[|old(emu.trace)|], emu.TokenClick(old(emu.seen) + 1, Save, Threshold)]
    ensures r == Ok(Saved) ==> emu.ClickedOn(emu.trace[|emu.trace| - 1], Save, Threshold)
    ensures r == Ok(Idled) ==> |emu.trace| == |old(emu.trace)| + 1
    ensures r.Ok? ==> Bubbles(emu.trace) == Bubbles(old(emu.trace)) + (if r.value == Shopped then [1, 1, 0, 2] else [])
    ensures Count(emu.trace, OnToken(Refresh)) <= Count(old(emu.trace), OnToken(Refresh)) + (if shops == MaxShops - 1 then 2 else 0)
    ensures r.Ok? && r.value != Shopped ==> Count(emu.trace, OnToken(Refresh)) == Count(old(emu.trace), OnToken(Refresh))
  {
    var go :- CheckPoint(keys);
    ghost var k := emu.seen;
    var burst :- ContinuousFastClick(emu, keys);
    ghost var afterBurst := emu.trace;
    r := Respond(emu, keys, shops);
    PassShape(emu, k, old(emu.trace), afterBurst, emu.trace, r);
    PassTally(old(emu.trace), Click(FastForward, LeftEdge(emu.RectAt(k)), k), afterBurst, emu.trace, shops, r);
  }

  /** The burst click followed by what the detection capture's branch
      clicked make up the pass main_loop promises: the clicks in order. */
  lemma PassShape(emu: Emulator, k: nat, t0: seq<Action>, t1: seq<Action>, t2: seq<Action>, r: Outcome<Turn>)
    requires k < |emu.screens| && emu.screens[k].Window?
    requires t1 == t0 + [Click(FastForward, LeftEdge(emu.RectAt(k)), k)]
    requires t1 <= t2
    requires r == Ok(Saved) ==> emu.Shows(k + 1, Save, Threshold) && t2 == t1 + [emu.TokenClick(k + 1, Save, Threshold)]
    requires r == Ok(Idled) ==> t2 == t1
    ensures t0 <= t2 && |t0| < |t2| && t2[|t0|] == Click(FastForward, LeftEdge(emu.RectAt(k)), k)
    ensures r == Ok(Saved) ==> t2 == t0 + [t2[|t0|], emu.TokenClick(k + 1, Save, Threshold)]
    ensures r == Ok(Saved) ==> emu.ClickedOn(t2[|t2| - 1], Save, Threshold)
    ensures r == Ok(Idled) ==> |t2| == |t0| + 1
  {
    assert t2[|t0|] == t1[|t0|];
  }

  /** The same pass, counted: the burst moves neither the bubble order nor
      the refresh count. */
  lemma PassTally(t0: seq<Action>, burst: Action, t1: seq<Action>, t2: seq<Action>, shops: nat, r: Outcome<Turn>)
    requires t1 == t0 + [burst] && burst.target == FastForward
    requires r.Ok? ==> Bubbles(t2) == Bubbles(t1) + (if r.value == Shopped then [1, 1, 0, 2] else [])
    requires Count(t2, OnToken(Refresh)) <= Count(t1, OnToken(Refresh)) + (if shops == MaxShops - 1 then 2 else 0)
    requires r.Ok? && r.value != Shopped ==> Count(t2, OnToken(Refresh)) == Count(t1, OnToken(Refresh))
    ensures r.Ok? ==> Bubbles(t2) == Bubbles(t0) + (if r.value == Shopped then [1, 1, 0, 2] else [])
    ensures Count(t2, OnToken(Refresh)) <= Count(t0, OnToken(Refresh)) + (if shops == MaxShops - 1 then 2 else 0)
    ensures r.Ok? && r.value != Shopped ==> Count(t2, OnToken(Refresh)) == Count(t0, OnToken(Refresh))
  {
    CountSnoc(t0, burst, OnToken(Refresh));
    BubblesSnoc(t0, burst);
  }

  /** The start of main_loop: the entry buttons quick start, next and start
      battle, each waited for up to sixty seconds (a timeout is ignored and
      the next button awaited, and a skip request ends each wait at once),
      then the skip request is cleared. */
  method EnterRun(emu: Emulator, keys: Flags) returns (r: Outcome<()>)
    requires emu.Valid() && keys.Valid()
    modifies emu, keys
    ensures emu.Valid() && keys.Valid() && old(emu.trace) <= emu.trace
    ensures QuickStart !in emu.templates ==> r == Halted(TemplateMissing(QuickStart)) && emu.trace == old(emu.trace)
    ensures QuickStart in emu.templates && !old(keys.running) ==> r == Halted(StopRequested) && emu.trace == old(emu.trace)
    ensures r.Ok? ==> QuickStart in emu.templates && Next in emu.templates && StartBattle in emu.templates
    ensures r.Ok? ==> !keys.skipInitial
    ensures old(keys.skipInitial) && r.Ok? ==> emu.seen == old(emu.seen) && emu.trace == old(emu.trace)
    ensures |emu.trace| <= |old(emu.trace)| + 3
    ensures AllWithin(emu.trace, |old(emu.trace)|, {OnToken(QuickStart), OnToken(Next), OnToken(StartBattle)})
    ensures forall i :: |old(emu.trace)| <= i < |emu.trace| ==>
      emu.trace[i].target.OnToken? && emu.ClickedOn(emu.trace[i], emu.trace[i].target.token, Threshold)
  {
    ghost var t0 := emu.trace;
    var entered := WaitAndClick(emu, keys, QuickStart, EntryPolls, Threshold);
    EntryStep(emu, t0, t0, emu.trace, QuickStart, emu.seen - 1);
    if entered.Ok? {
      ghost var t1 := emu.trace;
      entered := WaitAndClick(emu, keys, Next, EntryPolls, Threshold);
      EntryStep(emu, t0, t1, emu.trace, Next, emu.seen - 1);
      if entered.Ok? {
        ghost var t2 := emu.trace;
        entered := WaitAndClick(emu, keys, StartBattle, EntryPolls, Threshold);
        EntryStep(emu, t0, t2, emu.trace, StartBattle, emu.seen - 1);
        if entered.Ok? {
          keys.skipInitial := false;
        }
      }
    }
    r := if entered.Ok? then Ok(()) else Halted(entered.halt);
  }

  /** An entry button clicked where its capture located it, or no click at
      all, keeps every click since `t0` on an entry button where its capture
      located it. */
  lemma EntryStep(emu: Emulator, t0: seq<Action>, t1: seq<Action>, t2: seq<Action>, name: Token, k: int)
    requires name in InitialButtons && t0 <= t1
    requires AllWithin(t1, |t0|, {OnToken(QuickStart), OnToken(Next), OnToken(StartBattle)})
    requires forall i :: |t0| <= i < |t1| ==> t1[i].target.OnToken? && emu.ClickedOn(t1[i], t1[i].target.token, Threshold)
    requires t2 == t1 || (emu.Shows(k, name, Threshold) && t2 == t1 + [emu.TokenClick(k, name, Threshold)])
    ensures t0 <= t2 && |t2| <= |t1| + 1
    ensures AllWithin(t2, |t0|, {OnToken(QuickStart), OnToken(Next), OnToken(StartBattle)})
    ensures forall i :: |t0| <= i < |t2| ==> t2[i].target.OnToken? && emu.ClickedOn(t2[i], t2[i].target.token, Threshold)
  {
    forall i | |t0| <= i < |t2|
      ensures t2[i].target in {OnToken(QuickStart), OnToken(Next), OnToken(StartBattle)}
      ensures t2[i].target.OnToken? && emu.ClickedOn(t2[i], t2[i].target.token, Threshold)
    {
      if i < |t1| {
        assert t2[i] == t1[i];
      }
    }
  }

  /** The passes of main_loop after the entry buttons, until one clicks the
      save button. At most MaxShops shops are entered, each with the shop's
      bubble order, and the refresh button is clicked at most twice. */
  method RunPasses(emu: Emulator, keys: Flags) returns (r: Outcome<()>, ghost shops: nat)
    requires emu.Valid() && keys.Valid()
    modifies emu, keys
    ensures emu.Valid() && keys.Valid() && old(emu.trace) <= emu.trace
    ensures Count(emu.trace, OnToken(Refresh)) <= Count(old(emu.trace), OnToken(Refresh)) + 2
    ensures r.Ok? ==> shops <= MaxShops && Bubbles(emu.trace) == Bubbles(old(emu.trace)) + Visits(shops)
    ensures r.Ok? ==> |old(emu.trace)| < |emu.trace| && emu.ClickedOn(emu.trace[|emu.trace| - 1], Save, Threshold)
  {
    shops := 0;
    var shopCounter := 0;
    while true
      invariant emu.Valid() && keys.Valid() && old(emu.trace) <= emu.trace && shops == shopCounter <= MaxShops
      invariant Bubbles(emu.trace) == Bubbles(old(emu.trace)) + Visits(shops)
      invariant Count(emu.trace, OnToken(Refresh)) <= Count(old(emu.trace), OnToken(Refresh)) + (if shops == MaxShops then 2 else 0)
      decreases |emu.screens| - emu.seen
    {
      var turn := CountedIteration(emu, keys, shopCounter, old(emu.trace));
      if turn.Halted? {
        return Halted(turn.halt), shops;
      }
      if turn.value == Saved {
        return Ok(()), shops;
      }
      if turn.value == Shopped {
        shopCounter := shopCounter + 1;
        shops := shopCounter;
      }
    }
  }

  /** One pass of main_loop with `shops` shops behind it, in a run that
      began with the trace `t0`: the pass keeps the run's bubble order a
      whole number of visits and the refresh clicks within the final shop's
      two. */
  method CountedIteration(emu: Emulator, keys: Flags, shops: nat, ghost t0: seq<Action>) returns (r: Outcome<Turn>)
    requires emu.Valid() && keys.Valid() && shops <= MaxShops && t0 <= emu.trace
    requires Bubbles(emu.trace) == Bubbles(t0) + Visits(shops)
    requires Count(emu.trace, OnToken(Refresh)) <= Count(t0, OnToken(Refresh)) + (if shops == MaxShops then 2 else 0)
    modifies emu, keys
    ensures emu.Valid() && keys.Valid() && old(emu.seen) <= emu.seen && t0 <= emu.trace
    ensures Count(emu.trace, OnToken(Refresh)) <= Count(t0, OnToken(Refresh)) + 2
    ensures r == Ok(Shopped) ==> shops < MaxShops
    ensures r.Ok? ==>
      var next := if r.value == Shopped then shops + 1 else shops;
      && old(emu.seen) < emu.seen
      && Bubbles(emu.trace) == Bubbles(t0) + Visits(next)
      && Count(emu.trace, OnToken(Refresh)) <= Count(t0, OnToken(Refresh)) + (if next == MaxShops then 2 else 0)
    ensures r == Ok(Saved) ==> |t0| < |emu.trace| && emu.ClickedOn(emu.trace[|emu.trace| - 1], Save, Threshold)
  {
    ghost var t1 := emu.trace;
    r := Iteration(emu, keys, shops);
    PassCounted(t0, t1, emu.trace, shops, r);
  }

  /** One more pass keeps the run's bubble order a whole number of visits
      and the refresh clicks within the final shop's two. */
  lemma PassCounted(t0: seq<Action>, t1: seq<Action>, t2: seq<Action>, shops: nat, r: Outcome<Turn>)
    requires shops <= MaxShops && (r == Ok(Shopped) ==> shops < MaxShops)
    requires Bubbles(t1) == Bubbles(t0) + Visits(shops)
    requires Count(t1, OnToken(Refresh)) <= Count(t0, OnToken(Refresh)) + (if shops == MaxShops then 2 else 0)
    requires r.Ok? ==> Bubbles(t2) == Bubbles(t1) + (if r.value == Shopped then [1, 1, 0, 2] else [])
    requires Count(t2, OnToken(Refresh)) <= Count(t1, OnToken(Refresh)) + (if shops == MaxShops - 1 then 2 else 0)
    requires r.Ok? && r.value != Shopped ==> Count(t2, OnToken(Refresh)) == Count(t1, OnToken(Refresh))
    ensures Count(t2, OnToken(Refresh)) <= Count(t0, OnToken(Refresh)) + 2
    ensures r.Ok? ==>
      var next := if r.value == Shopped then shops + 1 else shops;
      && Bubbles(t2) == Bubbles(t0) + Visits(next)
      && Count(t2, OnToken(Refresh)) <= Count(t0, OnToken(Refresh)) + (if next == MaxShops then 2 else 0)
  {
    if r == Ok(Shopped) {
      assert Visits(shops + 1) == Visits(shops) + [1, 1, 0, 2];
    }
  }

  /** main_loop: enter the run, then run passes until one clicks the save
      button. At most MaxShops shops are entered, each with the shop's bubble
      order, and the refresh button is clicked at most twice in the whole
      run, however it ends. */
  method MainLoop(emu: Emulator, keys: Flags) returns (r: Outcome<()>, ghost shops: nat)
    requires emu.Valid() && keys.Valid()
    modifies emu, keys
    ensures emu.Valid() && keys.Valid() && old(emu.trace) <= emu.trace
    ensures QuickStart !in emu.templates ==> r == Halted(TemplateMissing(QuickStart)) && emu.trace == old(emu.trace)
    ensures QuickStart in emu.templates && !old(keys.running) ==> r == Halted(StopRequested) && emu.trace == old(emu.trace)
    ensures Count(emu.trace, OnToken(Refresh)) <= Count(old(emu.trace), OnToken(Refresh)) + 2
    ensures r.Ok? ==> shops <= MaxShops && Bubbles(emu.trace) == Bubbles(old(emu.trace)) + Visits(shops)
    ensures r.Ok? ==>
      && |old(emu.trace)| < |emu.trace|
      && emu.ClickedOn(emu.trace[|emu.trace| - 1], Save, Threshold)
  {
    shops := 0;
    var entered := EnterRun(emu, keys);
    CountKept(old(emu.trace), emu.trace, {OnToken(QuickStart), OnToken(Next), OnToken(StartBattle)}, OnToken(Refresh));
    BubblesKept(old(emu.trace), emu.trace, {OnToken(QuickStart), OnToken(Next), OnToken(StartBattle)});
    if entered.Halted? {
      return Halted(entered.halt), shops;
    }
    r, shops := RunPasses(emu, keys);
  }
}

=== FILE: common.dfy ===
/** Vocabulary shared by both revisions of the tower script: the UI tokens it
    looks for, screen geometry, captured frames, the click trace and the ways a
    run can end before the save screen is reached. */
module Common {

  datatype Option<+T> = None | Some(value: T)

  /** The symbolic names of the template images (the TEMPLATES dictionary). */
  datatype Token =
    | QuickStart | Next | StartBattle | Choice | Tag | Note | Hundred | Buy
    | Refresh | Back | Leave | Save | EnterShop | NotEnoughMoney | Enter
    | Confirm | Select | SelectConfirm | Shop | Strengthen

  /** Why a run stops before it reaches the save screen. */
  datatype Halt =
    | WindowNotFound                 // capture_emulator raises RuntimeError
    | TemplateMissing(token: Token)  // wait_and_click raises ValueError
    | StopRequested                  // check_pause_and_running raises KeyboardInterrupt
    | InputsExhausted                // the finite supply of screens or key presses ran out

  /** Result of an operation that may be cut short; usable with `:-`. */
  datatype Outcome<+T> = Ok(value: T) | Halted(halt: Halt) {
    predicate IsFailure() { Halted? }

    function PropagateFailure<U>(): Outcome<U>
      requires Halted?
    {
      Halted(halt)
    }

    function Extract(): T
      requires Ok?
    {
      value
    }
  }

  datatype Point = Point(x: int, y: int)

  /** Width and height of a template image (template.shape[:2], swapped). */
  datatype Size = Size(w: nat, h: nat)

  /** (left, top, width, height) of the emulator window on the screen. */
  datatype Rect = Rect(left: int, top: int, width: int, height: int)

  /** A frame-local point turned into a screen point: rect[0] + x, rect[1] + y. */
  function Absolute(r: Rect, p: Point): Point
  {
    Point(r.left + p.x, r.top + p.y)
  }

  /** The blank spot near the left edge of the window, ten pixels in and half
      way down: left + 10, top + height // 2. */
  function LeftEdge(r: Rect): Point
  {
    Point(r.left + 10, r.top + r.height / 2)
  }

  /** int(h * p / 100): a percentage of a length, truncated toward zero as
      Python's int() does. */
  function Percent(h: int, p: nat): int
  {
    if h >= 0 then h * p / 100 else -((-h) * p / 100)
  }

  /** For a non-negative length, a larger percentage gives a larger part,
      and no part exceeds the whole. */
  lemma PercentMonotone(h: int, p: nat, q: nat)
    requires h >= 0 && p <= q <= 100
    ensures 0 <= Percent(h, p) <= Percent(h, q) <= h
  {
    assert 0 <= h * p <= h * q <= h * 100;
    DivMonotone(h * p, h * q);
    DivMonotone(h * q, h * 100);
  }

  lemma DivMonotone(a: int, b: int)
    requires 0 <= a <= b
    ensures 0 <= a / 100 <= b / 100
  {
  }

  /** One entry of a correlation map: the top-left corner of a template
      placement and its normalised correlation score. */
  datatype Scored = Scored(at: Point, score: real)

  /** A correlation map, listed in the order the library scans it. */
  type ScoreMap = seq<Scored>

  /** One captured screenshot: the window it was taken from and, for every
      token, the correlation map of that token's template against it. A token
      without an entry has an empty map. */
  datatype Frame = Frame(rect: Rect, scores: map<Token, ScoreMap>) {
    function ScoresOf(t: Token): ScoreMap
    {
      if t in scores then scores[t] else []
    }
  }

  /** What one call of the capture routine finds. */
  datatype Screen = Window(frame: Frame) | NoEmulator

  /** What a click was aimed at. The source passes bare coordinates; the label
      records which detection or fixed position produced them. */
  datatype Target =
    | OnToken(token: Token)  // the centre of a detected token
    | Bubble(index: nat)     // one of the three dialog bubbles
    | Blank                  // the blank strip near the left edge
    | Fallback               // the blind click on a dialog's default option
    | FastForward            // the burst that skips idle turns

  /** A click at screen point `at`, positioned with the geometry of capture
      number `capture`. */
  datatype Action = Click(target: Target, at: Point, capture: nat)

  /** Number of clicks in a trace aimed at `target`. */
  function Count(trace: seq<Action>, target: Target): (n: nat)
    ensures n <= |trace|
  {
    if trace == [] then 0
    else Count(trace[..|trace| - 1], target) + (if trace[|trace| - 1].target == target then 1 else 0)
  }

  /** The bubble indices clicked, in click order. */
  function Bubbles(trace: seq<Action>): (r: seq<nat>)
    ensures |r| <= |trace|
  {
    if trace == [] then []
    else
      var last := trace[|trace| - 1];
      Bubbles(trace[..|trace| - 1]) + (if last.target.Bubble? then [last.target.index] else [])
  }

  lemma {:induction false} CountAppend(a: seq<Action>, b: seq<Action>, target: Target)
    ensures Count(a + b, target) == Count(a, target) + Count(b, target)
    decreases |b|
  {
    if b == [] {
      assert a + b == a;
    } else {
      assert (a + b)[..|a + b| - 1] == a + b[..|b| - 1];
      CountAppend(a, b[..|b| - 1], target);
    }
  }

  lemma {:induction false} BubblesAppend(a: seq<Action>, b: seq<Action>)
    ensures Bubbles(a + b) == Bubbles(a) + Bubbles(b)
    decreases |b|
  {
    if b == [] {
      assert a + b == a;
    } else {
      assert (a + b)[..|a + b| - 1] == a + b[..|b| - 1];
      BubblesAppend(a, b[..|b| - 1]);
    }
  }

  /** A trace is its prefix followed by the rest. */
  lemma PrefixSplit(a: seq<Action>, b: seq<Action>)
    requires a <= b
    ensures b == a + b[|a|..]
  {
  }

  /** The n-fold repetition of one shop's bubble order, the same in both
      revisions: second, second, first to enter, third to leave. */
  function Visits(n: nat): (r: seq<nat>)
    ensures |r| == 4 * n
  {
    if n == 0 then [] else Visits(n - 1) + [1, 1, 0, 2]
  }

  /** Every click of `t` from index `from` on is aimed into `allowed`. */
  ghost predicate AllWithin(t: seq<Action>, from: nat, allowed: set<Target>)
  {
    forall i :: from <= i < |t| ==> t[i].target in allowed
  }

  /** Two stretches of aimed clicks make one, aimed into any common superset. */
  lemma WithinJoin(before: seq<Action>, after: seq<Action>, from: nat, a: set<Target>, b: set<Target>, c: set<Target>)
    requires before <= after && from <= |before| && a <= c && b <= c
    requires AllWithin(before, from, a) && AllWithin(after, |before|, b)
    ensures AllWithin(after, from, c)
  {
    forall i | from <= i < |after| ensures after[i].target in c {
      if i < |before| {
        assert after[i] == before[i];
      }
    }
  }

  /** One more click adds one to the count of its own target only. */
  lemma CountSnoc(t: seq<Action>, a: Action, target: Target)
    ensures Count(t + [a], target) == Count(t, target) + (if a.target == target then 1 else 0)
  {
    assert (t + [a])[..|t|] == t;
  }

  /** One more click extends the bubble order exactly when it is a bubble click. */
  lemma BubblesSnoc(t: seq<Action>, a: Action)
    ensures Bubbles(t + [a]) == Bubbles(t) + (if a.target.Bubble? then [a.target.index] else [])
  {
    assert (t + [a])[..|t|] == t;
  }

  /** Appending clicks whose targets all lie in `allowed` leaves the count of
      every other target, and the bubble order when no bubble is allowed, alone. */
  lemma GrowthWithin(before: seq<Action>, after: seq<Action>, allowed: set<Target>)
    requires before <= after
    requires forall i :: |before| <= i < |after| ==> after[i].target in allowed
    ensures forall t :: t !in allowed ==> Count(after, t) == Count(before, t)
    ensures (forall t :: t in allowed ==> !t.Bubble?) ==> Bubbles(after) == Bubbles(before)
  {
    var b := after[|before|..];
    assert after == before + b;
    forall t | t !in allowed ensures Count(after, t) == Count(before, t) {
      CountUnaffected(before, b, t);
    }
    if forall t :: t in allowed ==> !t.Bubble? {
      BubblesUnaffected(before, b);
    }
  }

  /** Appending clicks aimed only into `allowed` leaves the count of a
      target outside it alone. */
  lemma CountKept(before: seq<Action>, after: seq<Action>, allowed: set<Target>, target: Target)
    requires before <= after && AllWithin(after, |before|, allowed) && target !in allowed
    ensures Count(after, target) == Count(before, target)
  {
    var b := after[|before|..];
    PrefixSplit(before, after);
    assert forall i :: 0 <= i < |b| ==> b[i] == after[|before| + i];
    CountUnaffected(before, b, target);
  }

  /** Appending clicks aimed only into `allowed`, where no bubble is
      allowed, leaves the bubble order alone. */
  lemma BubblesKept(before: seq<Action>, after: seq<Action>, allowed: set<Target>)
    requires before <= after && AllWithin(after, |before|, allowed)
    requires forall t :: t in allowed ==> !t.Bubble?
    ensures Bubbles(after) == Bubbles(before)
  {
    var b := after[|before|..];
    PrefixSplit(before, after);
    assert forall i :: 0 <= i < |b| ==> b[i] == after[|before| + i];
    BubblesUnaffected(before, b);
  }

  /** Appending clicks none of which is aimed at `target` leaves its count alone. */
  lemma {:induction false} CountUnaffected(a: seq<Action>, b: seq<Action>, target: Target)
    requires forall i :: 0 <= i < |b| ==> b[i].target != target
    ensures Count(a + b, target) == Count(a, target)
    decreases |b|
  {
    if b != [] {
      assert (a + b)[..|a + b| - 1] == a + b[..|b| - 1];
      CountUnaffected(a, b[..|b| - 1], target);
    } else {
      assert a + b == a;
    }
  }

  /** Appending clicks none of which is on a bubble leaves the bubble order alone. */
  lemma {:induction false} BubblesUnaffected(a: seq<Action>, b: seq<Action>)
    requires forall i :: 0 <= i < |b| ==> !b[i].target.Bubble?
    ensures Bubbles(a + b) == Bubbles(a)
    decreases |b|
  {
    if b != [] {
      assert (a + b)[..|a + b| - 1] == a + b[..|b| - 1];
      BubblesUnaffected(a, b[..|b| - 1]);
    } else {
      assert a + b == a;
    }
  }

  /** One shop visit recorded after `start` in `t`, entered at index
      `entered`: the clicks before `entered` are aimed into `approach` and
      extend the bubble order by second, second, first, the last of them on
      the first bubble; every later click but the last is aimed into
      `floor`; the last is on the third bubble. */
  ghost predicate Visit(start: seq<Action>, t: seq<Action>, entered: nat, approach: set<Target>, floor: set<Target>)
  {
    && |start| < entered < |t|
    && Bubbles(t[..entered]) == Bubbles(start) + [1, 1, 0]
    && t[entered - 1].target == Bubble(0)
    && (forall i :: |start| <= i < entered ==> t[i].target in approach)
    && (forall i :: entered <= i < |t| - 1 ==> t[i].target in floor)
    && t[|t| - 1].target == Bubble(2)
  }

  /** An approach ending on the first bubble, a stretch of floor clicks and a
      click on the third bubble make one visit. */
  lemma VisitAssembled(t0: seq<Action>, t1: seq<Action>, t2: seq<Action>, exit: Action, t3: seq<Action>,
                       approach: set<Target>, floor: set<Target>)
    requires t0 <= t1 && t1 <= t2 && t3 == t2 + [exit]
    requires |t0| < |t1| && t1[|t1| - 1].target == Bubble(0)
    requires Bubbles(t1) == Bubbles(t0) + [1, 1, 0]
    requires AllWithin(t1, |t0|, approach) && AllWithin(t2, |t1|, floor)
    requires exit.target == Bubble(2)
    ensures Visit(t0, t3, |t1|, approach, floor) && t3[|t3| - 1].target == Bubble(2)
  {
    assert t3[..|t1|] == t1;
    forall i | |t0| <= i < |t1| ensures t3[i].target in approach {
      assert t3[i] == t1[i];
    }
    forall i | |t1| <= i < |t3| - 1 ensures t3[i].target in floor {
      assert t3[i] == t2[i];
    }
  }
}

=== FILE: host.dfy ===
/** The outside world as the controller sees it: the emulator window, which
    yields one screen per capture, and the mouse pointer, whose clicks are recorded
    in order. */
module Host {
  import opened Common
  import opened Matching
  import opened MultiMatch

  class Emulator {
    /** The loaded templates; a token without an entry failed to load. */
    const templates: map<Token, Size>
    /** What successive captures find, in order. */
    const screens: seq<Screen>
    /** How many captures have been taken. */
    var seen: nat
    /** Every click issued so far, oldest first. */
    var trace: seq<Action>

    ghost predicate Valid()
      reads this
    {
      seen <= |screens|
    }

    constructor (templates: map<Token, Size>, screens: seq<Screen>)
      ensures Valid()
      ensures this.templates == templates && this.screens == screens
      ensures seen == 0 && trace == []
    {
      this.templates := templates;
      this.screens := screens;
      seen := 0;
      trace := [];
    }

    /** load_template: the template, or None when it could not be loaded. */
    function Template(t: Token): (r: Option<Size>)
      ensures r.Some? <==> t in templates
    {
      if t in templates then Some(templates[t]) else None
    }

    /** match_template of token `t` against a captured frame. */
    function Locate(f: Frame, t: Token, threshold: real): Option<Point>
    {
      MatchTemplate(Some(f.ScoresOf(t)), Template(t), threshold)
    }

    /** find_all_matches of token `t` against a captured frame. */
    function Scan(f: Frame, t: Token, threshold: real): seq<Point>
    {
      AllMatches(Some(f.ScoresOf(t)), Template(t), threshold)
    }

    /** Capture number `k` found the window and token `t` in it. */
    ghost predicate Shows(k: int, t: Token, threshold: real)
    {
      0 <= k < |screens| && screens[k].Window? && Locate(screens[k].frame, t, threshold).Some?
    }

    /** Capture number `k` found the window but not token `t`. */
    ghost predicate Lacks(k: int, t: Token, threshold: real)
    {
      0 <= k < |screens| && screens[k].Window? && Locate(screens[k].frame, t, threshold).None?
    }

    /** The window rectangle capture number `k` found. */
    ghost function RectAt(k: int): Rect
      requires 0 <= k < |screens| && screens[k].Window?
    {
      screens[k].frame.rect
    }

    /** The click on the centre of token `t` as located in capture `k`. */
    ghost function TokenClick(k: int, t: Token, threshold: real): Action
      requires Shows(k, t, threshold)
    {
      Action.Click(OnToken(t), Absolute(RectAt(k), Locate(screens[k].frame, t, threshold).value), k)
    }

    /** `a` is a click on token `t` exactly where its capture located it. */
    ghost predicate ClickedOn(a: Action, t: Token, threshold: real)
    {
      Shows(a.capture, t, threshold) && a == TokenClick(a.capture, t, threshold)
    }

    /** capture_emulator: look the window up and take the next screenshot. */
    method Capture() returns (r: Outcome<Frame>)
      requires Valid()
      modifies this`seen
      ensures Valid()
      ensures old(seen) == |screens| ==> seen == old(seen) && r == Halted(InputsExhausted)
      ensures old(seen) < |screens| ==> seen == old(seen) + 1
      ensures old(seen) < |screens| && screens[old(seen)].NoEmulator? ==> r == Halted(WindowNotFound)
      ensures r.Ok? <==> old(seen) < |screens| && screens[old(seen)].Window?
      ensures r.Ok? ==> screens[seen - 1] == Window(r.value)
    {
      if seen == |screens| {
        return Halted(InputsExhausted);
      }
      var s := screens[seen];
      seen := seen + 1;
      match s
      case NoEmulator => return Halted(WindowNotFound);
      case Window(f) => return Ok(f);
    }

    /** pyautogui.click at a screen point, using the geometry of the latest capture. */
    method Press(target: Target, at: Point)
      requires Valid() && 0 < seen && screens[seen - 1].Window?
      modifies this`trace
      ensures trace == old(trace) + [Action.Click(target, at, seen - 1)]
    {
      trace := trace + [Action.Click(target, at, seen - 1)];
    }
  }
}

=== FILE: hotkeys.dfy ===
/** The hotkeys of auto_tower_test.py and the global flags they set: P
    toggles the pause, S asks to skip the initial waits, Q asks to stop. The
    flags are read only at the check points, so the keys pressed between two
    reads are delivered together, as one batch, right before the second. */
module Hotkeys {
  import opened Common

  datatype Key = PauseKey | SkipKey | QuitKey

  /** The flags PAUSED, SKIP_INITIAL_WAIT and RUNNING. */
  datatype Signals = Signals(paused: bool, skipInitial: bool, running: bool)

  /** The flags at start-up: not paused, no skip, running. */
  const Initial: Signals := Signals(false, false, true)

  /** The effect of one hotkey: toggle_pause, mark_skip_initial or stop_running. */
  function Press(s: Signals, k: Key): Signals
  {
    match k
    case PauseKey => s.(paused := !s.paused)
    case SkipKey => s.(skipInitial := true)
    case QuitKey => s.(running := false)
  }

  /** The effect of a batch of hotkeys pressed in order: the run stops iff it
      was stopped or Q was pressed, the skip is set iff it was set or S was
      pressed, and the pause flips once per P. */
  function PressAll(s: Signals, keys: seq<Key>): (r: Signals)
    ensures r.running == (s.running && QuitKey !in keys)
    ensures r.skipInitial == (s.skipInitial || SkipKey in keys)
    ensures r.paused == (s.paused != (multiset(keys)[PauseKey] % 2 == 1))
  {
    if keys == [] then s
    else
      var init, last := keys[..|keys| - 1], keys[|keys| - 1];
      assert keys == init + [last];
      Press(PressAll(s, init), last)
  }

  /** The effect of successive batches. */
  function Replay(s: Signals, batches: seq<seq<Key>>): Signals
  {
    if batches == [] then s
    else PressAll(Replay(s, batches[..|batches| - 1]), batches[|batches| - 1])
  }

  /** Once the run is stopped no hotkey restarts it, and once the skip is
      asked for it stays asked for. */
  lemma {:induction false} StopAndSkipAreSticky(s: Signals, batches: seq<seq<Key>>)
    ensures !s.running ==> !Replay(s, batches).running
    ensures s.skipInitial ==> Replay(s, batches).skipInitial
  {
    if batches != [] {
      StopAndSkipAreSticky(s, batches[..|batches| - 1]);
    }
  }

  /** Batches delivered one at a time add up to their concatenation. */
  lemma ReplayStep(s: Signals, batches: seq<seq<Key>>, next: seq<Key>)
    ensures Replay(s, batches + [next]) == PressAll(Replay(s, batches), next)
  {
    assert (batches + [next])[..|batches|] == batches;
  }

  class Flags {
    var paused: bool
    var skipInitial: bool
    var running: bool
    /** The batches of hotkeys, one per read of the flags, in order. */
    const presses: seq<seq<Key>>
    /** How many batches have been delivered. */
    var delivered: nat

    ghost predicate Valid()
      reads this
    {
      delivered <= |presses|
    }

    function State(): Signals
      reads this
    {
      Signals(paused, skipInitial, running)
    }

    constructor (presses: seq<seq<Key>>)
      ensures Valid() && State() == Initial
      ensures this.presses == presses && delivered == 0
    {
      paused, skipInitial, running := false, false, true;
      this.presses := presses;
      delivered := 0;
    }

    /** toggle_pause. */
    method TogglePause()
      modifies this`paused
      ensures paused == !old(paused)
    {
      paused := !paused;
    }

    /** mark_skip_initial. */
    method MarkSkipInitial()
      modifies this`skipInitial
      ensures skipInitial
    {
      skipInitial := true;
    }

    /** stop_running. */
    method StopRunning()
      modifies this`running
      ensures !running
    {
      running := false;
    }

    /** Run the handlers of the next batch of hotkeys, if any is left. */
    method Deliver()
      requires Valid()
      modifies this`paused, this`skipInitial, this`running, this`delivered
      ensures Valid()
      ensures old(delivered) < |presses| ==>
        delivered == old(delivered) + 1 && State() == PressAll(old(State()), presses[old(delivered)])
      ensures old(delivered) == |presses| ==> delivered == old(delivered) && State() == old(State())
    {
      if delivered < |presses| {
        var batch := presses[delivered];
        for j := 0 to |batch|
          invariant delivered == old(delivered)
          invariant State() == PressAll(old(State()), batch[..j])
        {
          match batch[j] {
            case PauseKey => TogglePause();
            case SkipKey => MarkSkipInitial();
            case QuitKey => StopRunning();
          }
          assert batch[..j + 1][..j] == batch[..j];
        }
        assert batch[..|batch|] == batch;
        delivered := delivered + 1;
      }
    }

    /** check_pause_and_running: stop if a stop was requested; wait while
        paused; stop if a stop was requested while paused. Ok means the
        flags now say running and not paused. */
    method CheckPauseAndRunning() returns (r: Outcome<()>)
      requires Valid()
      modifies this`paused, this`skipInitial, this`running, this`delivered
      ensures Valid() && old(delivered) <= delivered
      ensures State() == Replay(old(State()), presses[old(delivered)..delivered])
      ensures r.Ok? <==> running && !paused
      ensures r == Halted(StopRequested) <==> !running
      ensures r == Halted(InputsExhausted) ==> paused && running && delivered == |presses|
      ensures !old(running) ==> r == Halted(StopRequested)
      ensures old(skipInitial) ==> skipInitial
    {
      ghost var d0 := delivered;
      assert presses[d0..delivered] == [];
      Deliver();
      assert presses[d0..delivered] == (if d0 < |presses| then [presses[d0]] else []);
      if d0 < |presses| {
        ReplayStep(old(State()), [], presses[d0]);
      }
      while paused && running && delivered < |presses|
        invariant Valid() && d0 <= delivered
        invariant State() == Replay(old(State()), presses[d0..delivered])
        decreases |presses| - delivered
      {
        ghost var before := presses[d0..delivered];
        Deliver();
        assert presses[d0..delivered] == before + [presses[delivered - 1]];
        ReplayStep(old(State()), before, presses[delivered - 1]);
      }
      StopAndSkipAreSticky(old(State()), presses[d0..delivered]);
      r := if !running then Halted(StopRequested) else if paused then Halted(InputsExhausted) else Ok(());
    }
  }
}

=== FILE: matching.dfy ===
/** Single-best template matching (match_template): threshold the best
    correlation score and turn the best top-left corner into a centre. */
module Matching {
  import opened Common

  /** Index of the first maximal score in scan order, the position the
      min/max routine reports as `max_loc`. */
  function PeakIndex(m: ScoreMap): (k: nat)
    requires |m| > 0
    ensures k < |m|
  {
    if |m| == 1 then 0
    else
      var k := PeakIndex(m[..|m| - 1]);
      if m[k].score < m[|m| - 1].score then |m| - 1 else k
  }

  /** PeakIndex finds a maximal score, and the first one: every earlier
      score is strictly smaller. */
  lemma {:induction false} PeakIndexIsFirstMaximum(m: ScoreMap)
    requires |m| > 0
    ensures forall j :: 0 <= j < |m| ==> m[j].score <= m[PeakIndex(m)].score
    ensures forall j :: 0 <= j < PeakIndex(m) ==> m[j].score < m[PeakIndex(m)].score
    decreases |m|
  {
    if |m| > 1 {
      var init := m[..|m| - 1];
      PeakIndexIsFirstMaximum(init);
      assert forall j :: 0 <= j < |init| ==> init[j] == m[j];
    }
  }

  /** Centre of a template placed with its top-left corner at `at`:
      (x + t_w // 2, y + t_h // 2). */
  function Centre(at: Point, t: Size): (c: Point)
    ensures at.x <= c.x <= at.x + t.w && at.y <= c.y <= at.y + t.h
    ensures t.w > 0 && t.h > 0 ==> c.x < at.x + t.w && c.y < at.y + t.h
  {
    Point(at.x + t.w / 2, at.y + t.h / 2)
  }

  /** Some score of the map reaches the threshold. */
  ghost predicate Reaches(m: ScoreMap, threshold: real)
  {
    exists k :: 0 <= k < |m| && m[k].score >= threshold
  }

  /** match_template. `src` is the correlation map of the frame against the
      template (None when either image is missing), `template` the template's
      size (None when it could not be loaded). An empty map yields None. */
  function MatchTemplate(src: Option<ScoreMap>, template: Option<Size>, threshold: real): (r: Option<Point>)
    ensures r.Some? ==> src.Some? && template.Some? && |src.value| > 0
  {
    if src.None? || template.None? || |src.value| == 0 then None
    else
      var best := src.value[PeakIndex(src.value)];
      if best.score < threshold then None
      else Some(Centre(best.at, template.value))
  }

  /** What match_template promises: a point exactly when both images are
      there and some score reaches the threshold, and then the centre of the
      first best-scoring placement. */
  lemma MatchTemplateSpec(src: Option<ScoreMap>, template: Option<Size>, threshold: real)
    ensures var r := MatchTemplate(src, template, threshold);
      && (r.Some? <==> src.Some? && template.Some? && Reaches(src.value, threshold))
      && (r.Some? ==>
            var k := PeakIndex(src.value);
            && src.value[k].score >= threshold
            && (forall j :: 0 <= j < |src.value| ==> src.value[j].score <= src.value[k].score)
            && (forall j :: 0 <= j < k ==> src.value[j].score < src.value[k].score)
            && r.value == Centre(src.value[k].at, template.value))
  {
    if src.Some? && template.Some? && |src.value| > 0 {
      var m := src.value;
      PeakIndexIsFirstMaximum(m);
      if Reaches(m, threshold) {
        var k :| 0 <= k < |m| && m[k].score >= threshold;
        assert m[k].score <= m[PeakIndex(m)].score;
      }
    }
  }

  /** The threshold is inclusive: a best score equal to it yields a point,
      one just below it yields none. */
  lemma {:induction false} ThresholdInclusive(m: ScoreMap, t: Size, threshold: real)
    requires |m| > 0
    ensures m[PeakIndex(m)].score == threshold ==> MatchTemplate(Some(m), Some(t), threshold).Some?
    ensures m[PeakIndex(m)].score < threshold ==> MatchTemplate(Some(m), Some(t), threshold).None?
  {
  }

  /** A stricter threshold can only lose a match, never move it. */
  lemma {:induction false} StricterThresholdOnlyDrops(src: Option<ScoreMap>, template: Option<Size>, lo: real, hi: real)
    requires lo <= hi
    ensures MatchTemplate(src, template, hi).Some? ==> MatchTemplate(src, template, lo) == MatchTemplate(src, template, hi)
  {
  }
}

=== FILE: multimatch.dfy ===
/** Multi-match with spatial de-duplication (find_all_matches): keep every
    placement whose score reaches the threshold, centre it, sort the centres by
    row then column, and greedily keep a centre only when it is at least
    MinSeparation away (Manhattan distance) from every centre already kept. */
module MultiMatch {
  import opened Common
  import opened Matching

  /** min_dist in find_all_matches. */
  const MinSeparation: nat := 20

  function Abs(n: int): nat
  {
    if n < 0 then -n else n
  }

  function Manhattan(p: Point, q: Point): nat
  {
    Abs(p.x - q.x) + Abs(p.y - q.y)
  }

  /** The centres of every placement scoring at least `threshold`, in scan
      order (np.where followed by the list comprehension). */
  function Hits(m: ScoreMap, t: Size, threshold: real): (r: seq<Point>)
    ensures |r| <= |m|
  {
    if m == [] then []
    else
      var last := m[|m| - 1];
      Hits(m[..|m| - 1], t, threshold) + (if last.score >= threshold then [Centre(last.at, t)] else [])
  }

  /** The hits are exactly the centres of the placements reaching the
      threshold: each hit is one, and each one is a hit. */
  lemma {:induction false} HitsSpec(m: ScoreMap, t: Size, threshold: real)
    ensures forall i :: 0 <= i < |Hits(m, t, threshold)| ==>
      exists k :: 0 <= k < |m| && m[k].score >= threshold && Hits(m, t, threshold)[i] == Centre(m[k].at, t)
    ensures forall k :: 0 <= k < |m| && m[k].score >= threshold ==> Centre(m[k].at, t) in Hits(m, t, threshold)
    decreases |m|
  {
    if m != [] {
      var init := m[..|m| - 1];
      var last := m[|m| - 1];
      HitsSpec(init, t, threshold);
      var h := Hits(init, t, threshold);
      var r := Hits(m, t, threshold);
      assert r == h + (if last.score >= threshold then [Centre(last.at, t)] else []);
      forall i | 0 <= i < |r|
        ensures exists k :: 0 <= k < |m| && m[k].score >= threshold && Hits(m, t, threshold)[i] == Centre(m[k].at, t)
      {
        if i < |h| {
          assert r[i] == h[i];
          var k :| 0 <= k < |init| && init[k].score >= threshold && h[i] == Centre(init[k].at, t);
          assert m[k] == init[k];
        } else {
          assert r[i] == Centre(m[|m| - 1].at, t);
          assert m[|m| - 1].score >= threshold;
        }
      }
      forall k | 0 <= k < |m| && m[k].score >= threshold
        ensures Centre(m[k].at, t) in r
      {
        if k < |m| - 1 {
          assert init[k] == m[k];
          assert Centre(init[k].at, t) in h;
        } else {
          assert r[|r| - 1] == Centre(m[k].at, t);
        }
      }
    } else {
      assert Hits(m, t, threshold) == [];
    }
  }

  // ----- ordering by (y, x), the sort key of find_all_matches -----

  predicate RowMajor(p: Point, q: Point)
  {
    p.y < q.y || (p.y == q.y && p.x <= q.x)
  }

  predicate SortedRowMajor(s: seq<Point>)
  {
    forall i, j :: 0 <= i < j < |s| ==> RowMajor(s[i], s[j])
  }

  /** Insert `p` into a list, before the first element it does not follow. */
  function Insert(p: Point, s: seq<Point>): (r: seq<Point>)
    ensures |r| == |s| + 1
  {
    if s == [] then [p]
    else if RowMajor(p, s[0]) then [p] + s
    else [s[0]] + Insert(p, s[1..])
  }

  /** Inserting into a sorted list keeps it sorted and adds exactly `p`. */
  lemma {:induction false} InsertSpec(p: Point, s: seq<Point>)
    requires SortedRowMajor(s)
    ensures SortedRowMajor(Insert(p, s))
    ensures multiset(Insert(p, s)) == multiset(s) + multiset{p}
    decreases |s|
  {
    if s != [] && !RowMajor(p, s[0]) {
      var rest := Insert(p, s[1..]);
      assert SortedRowMajor(s[1..]) by {
        forall i, j | 0 <= i < j < |s[1..]| ensures RowMajor(s[1..][i], s[1..][j]) {
          assert s[1..][i] == s[i + 1] && s[1..][j] == s[j + 1];
        }
      }
      InsertSpec(p, s[1..]);
      InsertAfterHead(p, s, rest);
    }
  }

  lemma InsertAfterHead(p: Point, s: seq<Point>, rest: seq<Point>)
    requires s != [] && SortedRowMajor(s) && !RowMajor(p, s[0])
    requires SortedRowMajor(rest) && multiset(rest) == multiset(s[1..]) + multiset{p}
    ensures SortedRowMajor([s[0]] + rest)
    ensures multiset([s[0]] + rest) == multiset(s) + multiset{p}
  {
    assert s == [s[0]] + s[1..];
    forall y | y in rest ensures RowMajor(s[0], y) {
      assert y in multiset(rest);
      if y != p {
        assert y in multiset(s[1..]);
        var k :| 0 <= k < |s[1..]| && s[1..][k] == y;
        assert s[k + 1] == y;
      }
    }
    var r := [s[0]] + rest;
    forall i, j | 0 <= i < j < |r| ensures RowMajor(r[i], r[j]) {
      if i == 0 {
        assert r[j] == rest[j - 1];
        assert rest[j - 1] in rest;
      } else {
        assert r[i] == rest[i - 1] && r[j] == rest[j - 1];
      }
    }
  }

  /** The list sort of find_all_matches, written as an insertion sort; by
      SortedIsUnique any sort by this key gives the same list. */
  function SortRowMajor(s: seq<Point>): (r: seq<Point>)
    ensures |r| == |s|
  {
    if s == [] then []
    else Insert(s[0], SortRowMajor(s[1..]))
  }

  /** The sort yields a sorted arrangement of the same points. */
  lemma {:induction false} SortRowMajorSpec(s: seq<Point>)
    ensures SortedRowMajor(SortRowMajor(s))
    ensures multiset(SortRowMajor(s)) == multiset(s)
    decreases |s|
  {
    if s != [] {
      SortRowMajorSpec(s[1..]);
      InsertSpec(s[0], SortRowMajor(s[1..]));
      assert s == [s[0]] + s[1..];
    }
  }

  /** Two sorted arrangements of the same points are the same sequence: the
      key (y, x) leaves no ties between distinct points, so the stability of
      the library sort plays no part. */
  lemma {:induction false} SortedIsUnique(a: seq<Point>, b: seq<Point>)
    requires SortedRowMajor(a) && SortedRowMajor(b)
    requires multiset(a) == multiset(b)
    ensures a == b
    decreases |a|
  {
    if a != [] {
      assert |b| == |a| by {
        assert |multiset(a)| == |a| && |multiset(b)| == |b|;
      }
      assert a[0] in multiset(b);
      assert b[0] in multiset(a);
      assert RowMajor(a[0], b[0]) by {
        var i :| 0 <= i < |a| && a[i] == b[0];
        assert i == 0 || RowMajor(a[0], a[i]);
      }
      assert RowMajor(b[0], a[0]) by {
        var j :| 0 <= j < |b| && b[j] == a[0];
        assert j == 0 || RowMajor(b[0], b[j]);
      }
      assert a[0] == b[0];
      assert a == [a[0]] + a[1..];
      assert b == [b[0]] + b[1..];
      assert multiset(a) == multiset{a[0]} + multiset(a[1..]);
      assert multiset(b) == multiset{b[0]} + multiset(b[1..]);
      assert multiset(a[1..]) == multiset(a) - multiset{a[0]};
      assert multiset(b[1..]) == multiset(b) - multiset{b[0]};
      SortedIsUnique(a[1..], b[1..]);
    }
  }

  // ----- greedy de-duplication -----

  predicate FarFromAll(c: Point, kept: seq<Point>)
  {
    forall q :: q in kept ==> Manhattan(c, q) >= MinSeparation
  }

  /** No two points are closer than MinSeparation. */
  predicate Separated(r: seq<Point>)
  {
    forall i, j :: 0 <= i < j < |r| ==> Manhattan(r[i], r[j]) >= MinSeparation
  }

  /** Every point of `s` is closer than MinSeparation to some point of `kept`. */
  ghost predicate CoveredBy(s: seq<Point>, kept: seq<Point>)
  {
    forall i :: 0 <= i < |s| ==> exists j :: 0 <= j < |kept| && Manhattan(s[i], kept[j]) < MinSeparation
  }

  /** What the filtering loop keeps from `s`, processing it from the front. */
  function Thin(s: seq<Point>): seq<Point>
  {
    if s == [] then []
    else
      var kept := Thin(s[..|s| - 1]);
      var c := s[|s| - 1];
      if FarFromAll(c, kept) then kept + [c] else kept
  }

  /** find_all_matches as a value: [] for a missing image or template, or when
      nothing reaches the threshold; otherwise the thinned, sorted centres. */
  function AllMatches(img: Option<ScoreMap>, template: Option<Size>, threshold: real): seq<Point>
  {
    if img.None? || template.None? then []
    else
      var hits := Hits(img.value, template.value, threshold);
      if |hits| == 0 then [] else Thin(SortRowMajor(hits))
  }

  /** `idx` picks the elements of `a` out of `b`, in order. */
  ghost predicate SubsequenceAt(a: seq<Point>, b: seq<Point>, idx: seq<nat>)
  {
    && |idx| == |a|
    && (forall k :: 0 <= k < |idx| ==> idx[k] < |b| && a[k] == b[idx[k]])
    && (forall k, l :: 0 <= k < l < |idx| ==> idx[k] < idx[l])
  }

  ghost predicate IsSubsequence(a: seq<Point>, b: seq<Point>)
  {
    exists idx :: SubsequenceAt(a, b, idx)
  }

  lemma {:induction false} ThinIsSubsequence(s: seq<Point>) returns (idx: seq<nat>)
    ensures SubsequenceAt(Thin(s), s, idx)
    decreases |s|
  {
    if s == [] {
      idx := [];
    } else {
      var init := s[..|s| - 1];
      var kept := Thin(init);
      var sub := ThinIsSubsequence(init);
      assert forall k :: 0 <= k < |sub| ==> sub[k] < |init| && kept[k] == s[sub[k]];
      if FarFromAll(s[|s| - 1], kept) {
        idx := sub + [|s| - 1];
        var r := kept + [s[|s| - 1]];
        assert Thin(s) == r;
        forall k | 0 <= k < |idx| ensures idx[k] < |s| && r[k] == s[idx[k]] {
          if k < |sub| {
            assert idx[k] == sub[k] && r[k] == kept[k];
          }
        }
      } else {
        idx := sub;
        assert Thin(s) == kept;
      }
    }
  }

  lemma SubsequenceOfSortedIsSorted(a: seq<Point>, b: seq<Point>, idx: seq<nat>)
    requires SubsequenceAt(a, b, idx) && SortedRowMajor(b)
    ensures SortedRowMajor(a)
  {
    forall i, j | 0 <= i < j < |a| ensures RowMajor(a[i], a[j]) {
      assert a[i] == b[idx[i]] && a[j] == b[idx[j]] && idx[i] < idx[j];
    }
  }

  /** Kept centres are pairwise at least MinSeparation apart. */
  lemma {:induction false} ThinSeparated(s: seq<Point>)
    ensures Separated(Thin(s))
    decreases |s|
  {
    if s != [] {
      var init := s[..|s| - 1];
      var c := s[|s| - 1];
      var kept := Thin(init);
      ThinSeparated(init);
      if FarFromAll(c, kept) {
        var r := kept + [c];
        forall i, j | 0 <= i < j < |r| ensures Manhattan(r[i], r[j]) >= MinSeparation {
          if j == |r| - 1 {
            assert r[i] in kept;
            assert Manhattan(c, r[i]) >= MinSeparation;
          } else {
            assert r[i] == kept[i] && r[j] == kept[j];
          }
        }
      }
    }
  }

  /** Thinning a prefix yields a prefix of the thinned whole: what has been
      kept is never withdrawn. */
  lemma {:induction false} ThinPrefix(s: seq<Point>, n: nat)
    requires n <= |s|
    ensures |Thin(s[..n])| <= |Thin(s)|
    ensures Thin(s)[..|Thin(s[..n])|] == Thin(s[..n])
    decreases |s|
  {
    if n == |s| {
      assert s[..n] == s;
    } else {
      var init := s[..|s| - 1];
      assert init[..n] == s[..n];
      ThinPrefix(init, n);
    }
  }

  /** Every input centre lies within MinSeparation of some kept centre: a
      dropped centre was dropped because a kept one is near it. */
  lemma {:induction false} ThinCovers(s: seq<Point>)
    ensures CoveredBy(s, Thin(s))
    decreases |s|
  {
    if s != [] {
      var init := s[..|s| - 1];
      var c := s[|s| - 1];
      var kept := Thin(init);
      var r := Thin(s);
      ThinCovers(init);
      ThinPrefix(s, |s| - 1);
      assert r[..|kept|] == kept;
      forall i | 0 <= i < |s|
        ensures exists j :: 0 <= j < |r| && Manhattan(s[i], r[j]) < MinSeparation
      {
        if i < |s| - 1 {
          assert s[i] == init[i];
          var j :| 0 <= j < |kept| && Manhattan(init[i], kept[j]) < MinSeparation;
          assert r[j] == kept[j];
        } else if FarFromAll(c, kept) {
          assert r[|r| - 1] == c;
          assert Manhattan(c, c) == 0;
        } else {
          var q :| q in kept && Manhattan(c, q) < MinSeparation;
          var j :| 0 <= j < |kept| && kept[j] == q;
          assert r[j] == q;
        }
      }
    }
  }

  /** The first centre is always kept, in first place. */
  lemma {:induction false} ThinKeepsFirst(s: seq<Point>)
    requires s != []
    ensures Thin(s) != [] && Thin(s)[0] == s[0]
    decreases |s|
  {
    var init := s[..|s| - 1];
    if init != [] {
      ThinKeepsFirst(init);
    }
  }

  /** Every kept centre is one of the input centres. */
  lemma ThinnedHitsAreHits(hits: seq<Point>)
    ensures forall p :: p in Thin(SortRowMajor(hits)) ==> p in hits
  {
    var centers := SortRowMajor(hits);
    SortRowMajorSpec(hits);
    var r := Thin(centers);
    var idx := ThinIsSubsequence(centers);
    forall p | p in r ensures p in hits {
      var k :| 0 <= k < |r| && r[k] == p;
      assert centers[idx[k]] in multiset(centers);
    }
  }

  /** Every input centre is within MinSeparation of a kept centre. */
  lemma ThinnedHitsCover(hits: seq<Point>)
    ensures CoveredBy(hits, Thin(SortRowMajor(hits)))
  {
    var centers := SortRowMajor(hits);
    SortRowMajorSpec(hits);
    var kept := Thin(centers);
    ThinCovers(centers);
    forall i | 0 <= i < |hits|
      ensures exists j :: 0 <= j < |kept| && Manhattan(hits[i], kept[j]) < MinSeparation
    {
      assert hits[i] in multiset(centers);
      var m :| 0 <= m < |centers| && centers[m] == hits[i];
      var j :| 0 <= j < |kept| && Manhattan(centers[m], kept[j]) < MinSeparation;
    }
  }

  /** With any input centre at all, the first kept centre is the least of
      them in (y, x) order. */
  lemma ThinnedHitsFirst(hits: seq<Point>)
    requires hits != []
    ensures Thin(SortRowMajor(hits)) != []
    ensures forall p :: p in hits ==> RowMajor(Thin(SortRowMajor(hits))[0], p)
  {
    var centers := SortRowMajor(hits);
    SortRowMajorSpec(hits);
    assert hits[0] in multiset(centers);
    ThinKeepsFirst(centers);
    forall p | p in hits ensures RowMajor(Thin(centers)[0], p) {
      assert p in multiset(centers);
      var m :| 0 <= m < |centers| && centers[m] == p;
      assert m == 0 || RowMajor(centers[0], centers[m]);
    }
  }

  /** The kept centres are a subsequence of the sorted centres, hence sorted,
      and pairwise at least MinSeparation apart. */
  lemma ThinnedHitsOrdered(hits: seq<Point>)
    ensures var r := Thin(SortRowMajor(hits));
      && Separated(r)
      && SortedRowMajor(r)
      && IsSubsequence(r, SortRowMajor(hits))
  {
    var centers := SortRowMajor(hits);
    SortRowMajorSpec(hits);
    var idx := ThinIsSubsequence(centers);
    SubsequenceOfSortedIsSorted(Thin(centers), centers, idx);
    ThinSeparated(centers);
  }

  /** A map with a score reaching the threshold has a hit, and conversely. */
  lemma HitsWhenReached(m: ScoreMap, t: Size, threshold: real)
    ensures Hits(m, t, threshold) != [] <==> Reaches(m, threshold)
  {
    var hits := Hits(m, t, threshold);
    HitsSpec(m, t, threshold);
    if Reaches(m, threshold) {
      var k :| 0 <= k < |m| && m[k].score >= threshold;
      assert Centre(m[k].at, t) in hits;
    }
  }

  /** One round of the outer filtering loop. */
  lemma ThinStep(s: seq<Point>, i: nat)
    requires i < |s|
    ensures Thin(s[..i + 1]) == if FarFromAll(s[i], Thin(s[..i])) then Thin(s[..i]) + [s[i]] else Thin(s[..i])
  {
    assert s[..i + 1][..i] == s[..i];
  }

  /** What find_all_matches promises: nothing for a missing image or template
      or when no score reaches the threshold; otherwise centres of
      above-threshold placements, pairwise at least MinSeparation apart, in
      (y, x) order as a subsequence of the sorted centres, starting with the
      least centre, and within MinSeparation of every centre they replace. */
  lemma AllMatchesSpec(img: Option<ScoreMap>, template: Option<Size>, threshold: real)
    ensures var r := AllMatches(img, template, threshold);
      && (r == [] <==> img.None? || template.None? || !Reaches(img.value, threshold))
      && Separated(r)
      && SortedRowMajor(r)
      && (img.Some? && template.Some? ==>
            var hits := Hits(img.value, template.value, threshold);
            && IsSubsequence(r, SortRowMajor(hits))
            && (forall p :: p in r ==> p in hits)
            && CoveredBy(hits, r)
            && (r != [] ==> forall p :: p in hits ==> RowMajor(r[0], p)))
  {
    if img.Some? && template.Some? {
      var hits := Hits(img.value, template.value, threshold);
      HitsWhenReached(img.value, template.value, threshold);
      if hits == [] {
        assert SubsequenceAt([], SortRowMajor(hits), []);
      } else {
        ThinnedHitsOrdered(hits);
        ThinnedHitsAreHits(hits);
        ThinnedHitsCover(hits);
        ThinnedHitsFirst(hits);
      }
    }
  }

  /** find_all_matches, following the source's nested loops over the sorted
      centres and the centres kept so far. */
  method FindAllMatches(img: Option<ScoreMap>, template: Option<Size>, threshold: real) returns (filtered: seq<Point>)
    ensures filtered == AllMatches(img, template, threshold)
  {
    if img.None? || template.None? {
      return [];
    }
    var hits := Hits(img.value, template.value, threshold);
    if |hits| == 0 {
      return [];
    }
    var centers := SortRowMajor(hits);
    filtered := [];
    for i := 0 to |centers|
      invariant filtered == Thin(centers[..i])
    {
      var c := centers[i];
      var ok := true;
      var j := 0;
      while j < |filtered|
        invariant 0 <= j <= |filtered|
        invariant ok
        invariant forall k :: 0 <= k < j ==> Manhattan(c, filtered[k]) >= MinSeparation
      {
        if Manhattan(c, filtered[j]) < MinSeparation {
          ok := false;
          break;
        }
        j := j + 1;
      }
      ThinStep(centers, i);
      if ok {
        filtered := filtered + [c];
      }
    }
    assert centers[..|centers|] == centers;
  }

  /** The multi-match finds something exactly when the single-best match does. */
  lemma AgreesWithBestMatch(img: Option<ScoreMap>, template: Option<Size>, threshold: real)
    ensures AllMatches(img, template, threshold) == [] <==> MatchTemplate(img, template, threshold).None?
  {
    MatchTemplateSpec(img, template, threshold);
    if img.Some? && template.Some? {
      var hits := Hits(img.value, template.value, threshold);
      HitsWhenReached(img.value, template.value, threshold);
      if hits != [] {
        ThinnedHitsFirst(hits);
      }
    }
  }
}
